=== FILE: README.md ===
# dev.assist resource aggregation, modelled in Dafny

dev.assist helps a developer plan a project. It splits the project
description into features and, for each feature, gathers learning
resources from public services. Those services are GitHub, GitLab, npm,
YouTube, Stack Overflow, MDN, Google, Reddit, Dev.to, Medium, CodePen and
CodeSandbox. Every result is normalised into one `Resource` record: an id,
a title, a url, one of four types (documentation, tutorial, repository,
template), a reading status, and advisory extras.

This project models the core of that pipeline:

- **Rate limiter and error handling.** The per-source rate limiter, the
  error classifier, the retry loop with exponential back-off, and the
  status check of `safeFetch`.
- **Source adapters.** Their normalisers (`format*AsResource`), the
  CodePen/CodeSandbox fallbacks, the "wait N minutes" message, the npm
  exact-match pick, the MDN `slice`, and the Reddit token cache.
- **Guarded call sequence.** The limiter-guarded call that every
  rate-limited adapter makes: check, then fetch, then record.
- **The aggregator.** Its fixed-order merge and first-url deduplication
  for a feature, and its per-type routing.
- **Category mapping.** The table and its grouping, sorting, filtering
  and counting.
- **Mock project store.** The store, with its keyword feature extractor
  and random resource generator.
- **Page state.** The state transitions of the search page (dispatch and
  most-recently-used history) and of the project page (status change,
  add and remove feature, active tab).

Effects become parameters:

- **Time:** `now`, `later`.
- **Network replies:** one `FetchOutcome` per attempt, either a rejection
  carrying a thrown value or an HTTP response with a status and a parsed
  body.
- **The aggregator's settled results:** one record of per-source outcomes.
- **`Math.random`:** `Draws` values constrained to the ranges the code
  produces, and `randomIds` for random id fallbacks.
- **The confirmation dialog:** a boolean.

Mutable objects become classes:

- `RateLimit.RateLimiter`, holding its `requests` map.
- `RedditService.RedditClient`, holding the token cache.
- `ProjectService.ProjectStore`, holding the project list.
- `SearchPage.Page` and `ProjectDetailPage.Page`, holding the React state
  cells.

Each method's new state and result are stated as a pure function of the
old state, and the properties of the behaviour are proved as lemmas about
those functions.

Modules, one per source file:

| module | models |
|---|---|
| `Text`, `Uri`, `Wrappers`, `Types`, `StableSort` | string helpers, `encodeURIComponent`, Option/Result, the shared records, the stable `Array.prototype.sort` |
| `RateLimit` | src/utils/rateLimiter.ts |
| `ApiErrors` | src/utils/apiErrorHandler.ts |
| `CategoryMapping` | src/utils/categoryMapping.ts |
| `ApiConfig` | src/config/apiConfig.ts |
| `GuardedFetch` | the check, fetch and record sequence shared by the GitLab, npm, MDN, CodePen and CodeSandbox adapters |
| `CaughtFetch` | the fetch-or-`[]` shape shared by the YouTube, Stack Overflow and Dev.to adapters |
| `GitLabService`, `NpmService`, `MdnService`, `CodeExampleService`, `RedditService`, `YouTubeService`, `StackOverflowService`, `DevToService`, `GoogleSearchService`, `MediumService` | the adapters in src/services/api/ |
| `ResourceService` | src/services/api/resourceService.ts |
| `ProjectService` | src/services/projectService.ts |
| `SearchPage`, `ProjectDetailPage` | src/pages/SearchPage.tsx, src/pages/projects/ProjectDetailPage.tsx |

### Behaviour worth knowing

The model follows the code as written in these places:

- **`parseError` runs twice.** `safeFetch` throws what `parseError`
  returns, and `withRetry` parses it again. A status error survives the
  second pass unchanged (`ApiErrors.ReparseWithStatus`). A network
  `TypeError` loses its name on the first pass, so the second pass files
  it as an unknown error that is not retried
  (`ApiErrors.ReparseNetworkError`).
- **Rate-limit refusals are not retried.** The refusal messages contain
  neither "API key" nor "quota", so `parseError` classes them as unknown
  and final (`GuardedFetch.RefusalIsFinal`). The check that brings this
  about is a case-sensitive substring test, so the model requires that
  the brand name holds no 'k' and no 'q'.
- **Google search always yields `[]`.** `apiConfig` has no `googleSearch`
  entry, so building the request throws a `TypeError`, and the adapter
  catches it (`ApiConfig.NoGoogleSearchEntry`,
  `GoogleSearchService.Search`). The Medium searches throw
  unconditionally and also yield `[]`.
- **Fallback pens share one id.** All CodePen fallback pens link to the
  same search url, so they all get the same resource id
  (`CodeExampleService.FallbackPensShareId`).
- **npm ids can collide.** "@a/b" and "-a-b" get the same id
  (`NpmService.ScopedNamesCanCollide`).
- **GitLab templates keep the wrong type.** GitLab results in the
  template view keep the type "repository", and the per-type view never
  deduplicates (`ResourceService.ByTypeKinds`,
  `ResourceService.ByTypeKeepsDuplicates`).
- **Feature names match as substrings.** The extractor matches a feature
  name anywhere in the description, so "build" selects "ui" and "rapid"
  selects "api" (`ProjectService.NamesMatchInsideWords`).
- **Page and store update statuses differently.** The project page sets
  the status on every resource with the given id in every feature with
  the given id. The store changes only the first match. The two agree
  when ids are distinct (`ProjectDetailPage.PageAgreesWithStore`).
- **Adding a feature sets the active tab even with no project.**
  `handleAddFeature` sets the active feature outside the state updater,
  so it does so even when no project is loaded.
- **Falsy means empty or null.** JavaScript truthiness is modelled
  explicitly. An empty string is falsy for `||` (`Text.OrElse`), for the
  route parameter and for the active feature
  (`ProjectDetailPage.Truthy`). A reset time of 0 gives a 60-minute wait.

## Model

| member | source | states |
|---|---|---|
| RateLimit.Check | src/utils/rateLimiter.ts:33-53 | no limit: allowed, state unchanged; an expired entry is deleted and the call allowed; otherwise refused exactly when the live entry's count has reached `maxRequests`; no other source's entry changes |
| RateLimit.Record | src/utils/rateLimiter.ts:55-73 | no limit: unchanged; no entry or expired: `{count 1, resetTime now+window}`; inside the window: count+1, same resetTime; other entries untouched |
| RateLimit.RemainingOf | src/utils/rateLimiter.ts:75-88 | unlimited exactly for unconfigured sources; `maxRequests` for a missing or expired entry; for a live entry the rest of the budget (remaining + count = max), or 0 once count has reached max; never above `maxRequests` |
| RateLimit.ResetTimeOf | src/utils/rateLimiter.ts:90-93 | the entry's resetTime when there is an entry, null otherwise |
| RateLimit.AllowedIffRemaining | src/utils/rateLimiter.ts:33-88 | for a configured source with a positive budget, allowed exactly when remaining > 0 |
| RateLimit.RecordWithinWindow | src/utils/rateLimiter.ts:69-72 | recording n times inside the window adds exactly n to the count and keeps resetTime |
| RateLimit.FullWindowRefuses | src/utils/rateLimiter.ts:42-52 | after `maxRequests` recordings in one window the source is refused and has 0 remaining until the window ends |
| RateLimit.CheckThenRecordWithinBudget | src/utils/rateLimiter.ts:48-72 | an allowed check followed by a record never pushes the count above `maxRequests` |
| RateLimit.RateLimiter.CanMakeRequest | src/utils/rateLimiter.ts:33-53 | verdict and new request map are those of `Check` on the old map |
| RateLimit.RateLimiter.RecordRequest | src/utils/rateLimiter.ts:55-73 | new request map is `Record` of the old one |
| RateLimit.RateLimiter.GetRemainingRequests | src/utils/rateLimiter.ts:75-88 | returns `RemainingOf` the current state: unlimited for an unconfigured source, the full limit when no entry is live, else the limit less the live count and never below 0 |
| RateLimit.RateLimiter.GetResetTime | src/utils/rateLimiter.ts:90-93 | returns `ResetTimeOf` the current state |
| RateLimit.RateLimiter.constructor | src/utils/rateLimiter.ts:17-31 | the twelve configured limits and no entries |
| ApiErrors.StatusError | src/utils/apiErrorHandler.ts:64-111 | keeps the status, picks the code by status, retryable for 403, 429 and every status >= 500, message prefixed by the API name |
| ApiErrors.ParseError | src/utils/apiErrorHandler.ts:54-138 | a status is reported exactly when the error is not a fetch TypeError and carries a truthy status, and it is that status |
| ApiErrors.ParseErrorClassification | src/utils/apiErrorHandler.ts:54-138 | network errors retryable; "API key" final; "quota" retryable; anything else unknown and final |
| ApiErrors.ReparseWithStatus | src/utils/apiErrorHandler.ts:180-185 | parsing the thrown ApiError of a status error again yields the same ApiError |
| ApiErrors.ReparseNetworkError | src/utils/apiErrorHandler.ts:180-185 | parsing a network error twice yields an unknown, non-retryable error |
| ApiErrors.Backoff | src/utils/apiErrorHandler.ts:41-44 | delay `min(1000 * 2^attempt, 10000)`, between 1000 and 10000 |
| ApiErrors.BackoffSchedule | src/utils/apiErrorHandler.ts:41-44 | delays never decrease; 1000, 2000, 4000, 8000, then 10000 from the fifth attempt |
| ApiErrors.RetryFrom | src/utils/apiErrorHandler.ts:15-51 | at most maxRetries+1 calls; every call but the last failed retryably; the result is the last call's value, or its parsed error when it was final or the last permitted; the delays are the back-off schedule |
| ApiErrors.WithRetry | src/utils/apiErrorHandler.ts:15-51 | the loop computes exactly `RetryFrom(outcomes, ..., 0)` |
| ApiErrors.RetryStep | src/utils/apiErrorHandler.ts:22-48 | a retryable failure before the last attempt adds one call and one back-off delay |
| ApiErrors.RetryStops | src/utils/apiErrorHandler.ts:29-37 | a success, a final error or the last attempt ends the run there |
| ApiErrors.FirstSuccessWins | src/utils/apiErrorHandler.ts:22-23 | a first call that returns ends the run with its value after one call and no delay |
| ApiErrors.AllRetryableFailuresExhaust | src/utils/apiErrorHandler.ts:22-48 | if every call fails retryably, maxRetries+1 calls are made and the last one's error is thrown |
| ApiErrors.CreateSafeApiCall | src/utils/apiErrorHandler.ts:144-158 | success passes through; on failure the fallback is returned when given, else the error is rethrown |
| ApiErrors.SafeFetch | src/utils/apiErrorHandler.ts:162-186 | succeeds exactly for an ok response, which it returns; a non-ok status becomes a parsed HTTP error with that status; a rejection is parsed |
| CategoryMapping.GetCategoryConfig | src/utils/categoryMapping.ts:73-75 | the table entry for the type, with priority 0..3 |
| CategoryMapping.PriorityOrder | src/utils/categoryMapping.ts:22-67 | documentation < repository < tutorial < template, all distinct |
| CategoryMapping.GetAllCategories | src/utils/categoryMapping.ts:80-82 | the four entries in priority order, each type present |
| CategoryMapping.GroupResourcesByCategory | src/utils/categoryMapping.ts:88-96 | a key exactly for each type present, holding that type's resources in input order |
| CategoryMapping.SortResourcesByCategory | src/utils/categoryMapping.ts:102-108 | a permutation of the input, ordered by priority, stable within each type |
| CategoryMapping.FilterResourcesByCategory | src/utils/categoryMapping.ts:146-152 | 'all' returns the input; a type returns exactly its resources in order |
| CategoryMapping.GetCategoryStats | src/utils/categoryMapping.ts:158-173 | a count for every type, equal to the number of its resources |
| CategoryMapping.GetSourceIcon | src/utils/categoryMapping.ts:123-139 | the listed icon for a known source, "Link" otherwise |
| CategoryMapping.OfTypeSizesSum | src/utils/categoryMapping.ts:158-173 | the four per-type counts add up to the number of resources |
| StableSort.SortByStable | src/utils/categoryMapping.ts:102-108 | elements with equal keys keep their relative order |
| StableSort.SortBySortedPermutation | src/utils/categoryMapping.ts:102-108 | the sort output is ordered and a permutation |
| StableSort.SortByKeepsDistinct | src/pages/SearchPage.tsx:74 | sorting keeps distinct urls distinct |
| ApiConfig.GetEnvVar | src/config/apiConfig.ts:4-12 | `VITE_`-prefixed lookup; missing, empty or placeholder-looking values become "" |
| ApiConfig.GetEnvVarIsGenuine | src/config/apiConfig.ts:4-12 | a returned value is "" or the stored value, and never looks like a placeholder |
| ApiConfig.Config | src/config/apiConfig.ts:14-57 | the table of `apiConfig`: exactly the seven service keys (no `googleSearch`); the GitLab and Reddit entries stated outright, the others given by the body's table |
| ApiConfig.NoGoogleSearchEntry | src/config/apiConfig.ts:14-57 | there is no `googleSearch` entry |
| GuardedFetch.WaitMinutes | src/services/api/gitlabService.ts:30-31 | 60 for a missing or zero reset time, else the ceiling of the remaining minutes |
| GuardedFetch.AdviceLacksKAndQ | src/services/api/npmService.ts:91 | the refusal advice contains no 'k' and no 'q' |
| GuardedFetch.RefusalIsFinal | src/services/api/gitlabService.ts:29-33 | a refusal error is classified unknown and non-retryable |
| GuardedFetch.AttemptStep | src/services/api/gitlabService.ts:26-61 | refused: throws, state unchanged; allowed and ok: the extracted value, request recorded; allowed and failed: the fallback or the error, nothing recorded |
| GuardedFetch.FetchWithLimits | src/services/api/gitlabService.ts:26-61 | the run is `RetryFrom` over the per-attempt outcomes, and the limiter holds the state after exactly the calls made |
| GuardedFetch.FirstRefusalEndsRun | src/services/api/mdnService.ts:25-29 | a refused first attempt ends the run after one call with an error and no state change |
| GuardedFetch.FirstFetchSucceeds | src/services/api/mdnService.ts:23-46 | an allowed, ok first attempt ends the run with its value and records one request |
| GuardedFetch.FallbackAbsorbsFailure | src/services/api/codeExampleService.ts:76-79 | with a fallback, an allowed but failed first attempt returns the fallback and records nothing |
| GuardedFetch.FailedFetchesRecordNothing | src/services/api/npmService.ts:57-82 | attempts whose fetches all fail record nothing: the table is unchanged, or loses only this source's entry when a check found it expired |
| GuardedFetch.OtherSourcesUntouched | src/utils/rateLimiter.ts:38-39 | a guarded run changes no other source's entry |
| CaughtFetch.CaughtItems | src/services/api/youtubeService.ts:27-67 | `searchVideos` and `getTutorials`, and in the same way `searchQuestions` and `getQuestionsByTag` of src/services/api/stackoverflowService.ts:25-64: a rejected fetch or an error status yields `[]`, an ok response its `items` (which may be undefined) |
| CaughtFetch.CaughtList | src/services/api/devtoService.ts:27-74 | `searchArticles` and `getArticlesByTag`: a rejected fetch or an error status yields `[]`, an ok response its body |
| GitLabService.FormatProjectAsResource | src/services/api/gitlabService.ts:95-107 | id `gitlab-<id>`, web url, repository, unread, description or "GitLab project by <namespace>", stars, forks, source |
| GitLabService.FormattedIdsDistinct | src/services/api/gitlabService.ts:97 | distinct project ids give distinct resource ids |
| GitLabService.RequestHeaders | src/services/api/gitlabService.ts:42-48 | Accept always; PRIVATE-TOKEN exactly when the key is non-empty, equal to it |
| GitLabService.SearchProjects | src/services/api/gitlabService.ts:26-61 | the guarded, retried search with the GitLab profile |
| GitLabService.RefusedSearchIsNotRetried | src/services/api/gitlabService.ts:29-33 | a refused search fails after one call without recording |
| NpmService.FormatPackageAsResource | src/services/api/npmService.ts:119-141 | id `npm-` plus the name with '@' and '/' replaced by '-', url by repository, npm link or registry page, description fallback, extras |
| NpmService.ScopedNamesCanCollide | src/services/api/npmService.ts:121 | "@a/b" and "-a-b" get the same id |
| NpmService.FirstMatch | src/services/api/npmService.ts:108 | the first case-insensitive name match, or none when no entry matches |
| NpmService.PickPackageSpec | src/services/api/npmService.ts:107-110 | null exactly for missing or empty results; the first exact match wins, else the first result |
| NpmService.SearchPackages | src/services/api/npmService.ts:57-82 | the guarded, retried search; missing `objects` gives `[]` |
| NpmService.GetPackageDetails | src/services/api/npmService.ts:88-113 | the guarded, retried lookup picking the package |
| NpmService.AnsweredSearch | src/services/api/npmService.ts:57-82 | an allowed, ok first attempt returns the objects and records one request |
| NpmService.RefusedLookupIsNotRetried | src/services/api/npmService.ts:90-92 | a refused lookup fails after one call without recording |
| MdnService.SliceTo | src/services/api/mdnService.ts:40 | `slice(0, end)`, negative ends counted from the back; always a prefix |
| MdnService.LimitDocuments | src/services/api/mdnService.ts:40 | missing documents give `[]`; otherwise a prefix of at most `limit`, exactly `limit` when there are enough |
| MdnService.FormatDocumentAsResource | src/services/api/mdnService.ts:52-62 | id as `DocumentId`, MDN url, documentation, summary fallback, source |
| MdnService.DocumentIdsFollowSlugs | src/services/api/mdnService.ts:54 | distinct non-empty slugs give distinct ids without '/' |
| MdnService.SearchDocumentation | src/services/api/mdnService.ts:23-46 | the guarded, retried search with the MDN profile |
| MdnService.GetTechnologyDocs | src/services/api/mdnService.ts:68-70 | the search with limit 3: the retried outcome, the MDN limiter state left by exactly the attempts made, and at most 3 documents |
| MdnService.SearchRespectsLimit | src/services/api/mdnService.ts:40 | a successful search never returns more than `limit` documents |
| Uri.EncodeURIComponent | src/services/api/codeExampleService.ts:152 | output holds only unreserved characters and '%'; unreserved input is unchanged |
| Uri.EncodedIsOneParameter | src/services/api/codeExampleService.ts:44 | the encoding holds no '&', '=', '#' or space |
| Uri.DecodeEncodeAscii | src/services/api/codeExampleService.ts:44 | decoding the encoding of ASCII text gives the text back |
| CodeExampleService.ScrapePens | src/services/api/codeExampleService.ts:57-70 | the loop builds `ScrapedPens`: `min(found, limit)` pens with pen links and scraped or numbered titles |
| CodeExampleService.FallbackCodePenResults | src/services/api/codeExampleService.ts:148-157 | `max(limit, 0)` pens, each with the numbered title and the search link |
| CodeExampleService.FallbackCodeSandboxResults | src/services/api/codeExampleService.ts:162-173 | `max(limit, 0)` sandboxes with numbered ids and aliases |
| CodeExampleService.CountValueOfNumber | src/services/api/codeExampleService.ts:187-188 | a decimal count parses back to its number |
| CodeExampleService.CountValue | src/services/api/codeExampleService.ts:187-188 | a missing count reads as 0; the value is a number or NaN, never anything else |
| CodeExampleService.FormatCodePenAsResource | src/services/api/codeExampleService.ts:179-191 | id from the last link segment or a random fallback, template, unread, views and likes parsed, source |
| CodeExampleService.FallbackPensShareId | src/services/api/codeExampleService.ts:152 | all fallback pens get the same id |
| CodeExampleService.FormatCodeSandboxAsResource | src/services/api/codeExampleService.ts:197-214 | id `codesandbox-<id>`, url by alias or id, template, description fallbacks, counts |
| CodeExampleService.FallbackSandboxesDistinct | src/services/api/codeExampleService.ts:162-173 | fallback sandboxes have distinct ids and urls |
| CodeExampleService.SearchCodePen | src/services/api/codeExampleService.ts:34-81 | the guarded, retried scrape with the fallback pens |
| CodeExampleService.SearchCodeSandbox | src/services/api/codeExampleService.ts:88-143 | the guarded, retried query with the fallback sandboxes |
| CodeExampleService.Sandboxes | src/services/api/codeExampleService.ts:134 | the sandbox list when `data` and `sandboxes` are both present, `[]` when either is missing |
| CodeExampleService.AllowedCodePenSearchReturns | src/services/api/codeExampleService.ts:34-81 | an allowed first attempt ends after one call with the pens or the fallback |
| CodeExampleService.AllowedCodeSandboxSearchReturns | src/services/api/codeExampleService.ts:88-143 | an allowed first attempt ends after one call with the sandboxes or the fallback |
| RedditService.FormatPostAsResource | src/services/api/redditService.ts:120-133 | reddit url from the permalink, documentation, text cut to 200 characters plus "...", extras |
| RedditService.TokenStep | src/services/api/redditService.ts:25-54 | a fresh cached token is reused; a failed refresh throws and keeps the cache; an ok refresh stores the token and the expiry `later + expires_in * 1000` |
| RedditService.NewTokenIsReused | src/services/api/redditService.ts:28 | a freshly fetched token is served from the cache until it expires |
| RedditService.FailedRefreshChangesNothing | src/services/api/redditService.ts:50-53 | a failing step leaves the cache as it was, and happens only when the cache was stale |
| RedditService.ListingPosts | src/services/api/redditService.ts:61-84 | a failed token, a failed fetch, or an ok body without `data.children` gives `[]`; an ok body with children gives exactly those posts |
| RedditService.RedditClient.GetAccessToken | src/services/api/redditService.ts:25-54 | result and new cache are `TokenStep` of the old cache |
| RedditService.RedditClient.SearchPosts | src/services/api/redditService.ts:61-84 | the token step, then the listing |
| YouTubeService.FormatVideoAsResource | src/services/api/youtubeService.ts:73-85 | id the video id, watch url, tutorial, extras |
| YouTubeService.WatchUrlNamesVideo | src/services/api/youtubeService.ts:76-77 | the url ends in the id |
| YouTubeService.TutorialQuery | src/services/api/youtubeService.ts:52 | the technology followed by " tutorial for developers" |
| StackOverflowService.FormatQuestionAsResource | src/services/api/stackoverflowService.ts:70-80 | decimal id, link, documentation, "Score: … \| Answers: … \| Tags: …", author |
| StackOverflowService.QuestionIdRoundTrip | src/services/api/stackoverflowService.ts:72 | the id parses back to the question id; distinct questions get distinct ids |
| DevToService.FormatArticleAsResource | src/services/api/devtoService.ts:80-93 | decimal id, url, tutorial, description, extras |
| DevToService.ArticleIdRoundTrip | src/services/api/devtoService.ts:82 | the id parses back to the article id |
| GoogleSearchService.FormatSearchResultAsResource | src/services/api/googleSearchService.ts:67-77 | id and url are the link; documentation; snippet; display link as source |
| GoogleSearchService.DocumentationQuery | src/services/api/googleSearchService.ts:46 | the technology followed by " documentation for developers" |
| GoogleSearchService.Search | src/services/api/googleSearchService.ts:21-37 | always `[]` |
| MediumService.SearchPosts | src/services/api/mediumService.ts:22-50 | always `[]` |
| MediumService.GetPostsByTag | src/services/api/mediumService.ts:57-85 | always `[]` |
| MediumService.FormatPostAsResource | src/services/api/mediumService.ts:91-104 | tutorial; content cut to 200 characters plus "..." (at most 203); extras |
| ResourceService.Dedup | src/services/api/resourceService.ts:83-85 | keeps, in order, exactly the resources that are the first with their url |
| ResourceService.KeptFromSpec | src/services/api/resourceService.ts:83-85 | the kept positions are, in ascending order, exactly those holding the first resource with their url |
| ResourceService.DedupSpec | src/services/api/resourceService.ts:83-85 | no two kept resources share a url; every url keeps its first resource; nothing new appears |
| ResourceService.DedupOfDistinct | src/services/api/resourceService.ts:83-85 | input with distinct urls is returned unchanged |
| ResourceService.DedupPrefix | src/services/api/resourceService.ts:83-85 | deduplicating a concatenation starts with the deduplication of its first part |
| ResourceService.Listed | src/services/api/resourceService.ts:40-49 | a rejected source counts as `[]`, a fulfilled one as its value |
| ResourceService.ListedAll | src/services/api/resourceService.ts:40-49 | for the sources whose value is always a list: a rejected source counts as `[]`, a fulfilled one as its value |
| ResourceService.GitHubResource | src/services/api/resourceService.ts:62-70 | decimal id, name, html url, the given type, description fallback, stars and language |
| ResourceService.StackOverflowDocument | src/services/api/resourceService.ts:159-168 | decimal id, documentation, score summary, votes and source |
| ResourceService.FeatureRequests | src/services/api/resourceService.ts:25-36 | the table of the ten calls in start order: ten requests, each with the given limit and a query that begins with the feature name ("<f> tutorial" for YouTube, "<f> programming" for Reddit, the documentation query for Google) |
| ResourceService.SearchResourcesForFeature | src/services/api/resourceService.ts:19-93 | `[]` when a fulfilled source has no list (the `HasUndefined` predicate, on which `.map` throws and the `catch` answers `[]`); else the deduplicated merge in the fixed source order; urls distinct |
| ResourceService.Combined | src/services/api/resourceService.ts:60-80 | the spread of the ten normalised lists, defined only when none is `undefined` (`HasUndefined`): nothing is dropped before deduplication, its length is the sum of the ten source lengths |
| ResourceService.FeatureSearchCoversEveryUrl | src/services/api/resourceService.ts:59-85 | every merged url survives deduplication, and nothing else appears |
| ResourceService.GitHubResultsLead | src/services/api/resourceService.ts:59-70 | GitHub results with distinct urls come first, unchanged |
| ResourceService.NothingFoundYieldsEmpty | src/services/api/resourceService.ts:38-85 | no results anywhere give `[]` |
| ResourceService.MediumAndGoogleContributeNothing | src/services/api/resourceService.ts:76-79 | Google and Medium add no resource |
| ResourceService.TypeRequests | src/services/api/resourceService.ts:105-201 | per type: three sources at `ceil(limit/3)`; YouTube tutorials; MDN and Stack Overflow; two template searches at `ceil(limit/2)` |
| ResourceService.GetResourcesByType | src/services/api/resourceService.ts:101-208 | the per-type concatenation of normalised results, `[]` when a needed list is missing |
| ResourceService.ByTypeKinds | src/services/api/resourceService.ts:122-199 | every result has the asked type, except GitLab results in the template view, which stay repositories |
| ResourceService.ByTypeKeepsDuplicates | src/services/api/resourceService.ts:137 | the repository view keeps every source result, duplicates included |
| ProjectService.FindIndex | src/services/projectService.ts:82 | the first index satisfying the predicate, or none when there is none |
| ProjectService.Generated | src/services/projectService.ts:145-166 | 2 + extra resources, the i-th with id `<name>-<i>` and the drawn type |
| ProjectService.GeneratedSpec | src/services/projectService.ts:154-162 | generated resources are unread, have distinct ids and point at `example.com/<name>/<type>` |
| ProjectService.GenerateResourcesForFeature | src/services/projectService.ts:145-166 | the loop builds exactly `Generated` |
| ProjectService.Words | src/services/projectService.ts:112 | every word is a non-empty run of word characters |
| ProjectService.WordsOfWord | src/services/projectService.ts:112 | a non-empty string of word characters is one word |
| ProjectService.WordsSplit | src/services/projectService.ts:112 | a non-word character separates the words on its two sides, so the words are the maximal runs, in order |
| ProjectService.Matched | src/services/projectService.ts:124-131 | a name is selected exactly when its table entry has a term among the words or its name inside the text |
| ProjectService.FeaturesFor | src/services/projectService.ts:134-140 | one feature per name, ids "1".."n", capitalised names, generated resources |
| ProjectService.SelectFeatureNames | src/services/projectService.ts:124-131 | the loop over the table computes `Matched` |
| ProjectService.BuildFeatures | src/services/projectService.ts:134-140 | the map computes `FeaturesFor` |
| ProjectService.ExtractFeatures | src/services/projectService.ts:107-143 | the features of the selected names |
| ProjectService.MatchedDistinct | src/services/projectService.ts:124-131 | with distinct table names the selected names are distinct |
| ProjectService.EmptyDescriptionSelectsNothing | src/services/projectService.ts:107-143 | the empty description yields no feature |
| ProjectService.NamesMatchInsideWords | src/services/projectService.ts:128 | "build" selects ui and "rapid" selects api |
| ProjectService.FindProject | src/services/projectService.ts:79-83 | the project with the id, or null exactly when none has it |
| ProjectService.FindNumbered | src/services/projectService.ts:79-104 | with numbered ids, id `i+1` finds the i-th project |
| ProjectService.WithResourceStatusSpec | src/services/projectService.ts:168-190 | the update keeps every id, name and length and changes at most the status of the matching resource; an unknown project changes nothing |
| ProjectService.WithResourceStatusEffect | src/services/projectService.ts:168-190 | with the first project of the id found: no feature of the id, or no resource of the id in the first such feature, changes nothing; otherwise exactly the first such resource of the first such feature takes the new status |
| ProjectService.WithoutFeature | src/services/projectService.ts:222 | exactly the features whose id differs |
| ProjectService.WithoutFeatureAppend | src/services/projectService.ts:222 | the filter of a concatenation is the concatenation of the filters, so the kept features keep their order |
| ProjectService.WithoutFeatureSingle | src/services/projectService.ts:222 | one feature is kept exactly when its id differs |
| ProjectService.MockProjectsNumbered | src/services/projectService.ts:4-67 | the mock projects have ids "1" and "2" |
| ProjectService.ProjectStore.constructor | src/services/projectService.ts:4-67 | the two mock projects |
| ProjectService.ProjectStore.GetProjects | src/services/projectService.ts:73-77 | the whole list, project i having id `i+1` |
| ProjectService.ProjectStore.GetProjectById | src/services/projectService.ts:79-83 | `FindProject` on the list |
| ProjectService.ProjectStore.CreateProject | src/services/projectService.ts:85-104 | appends a project numbered `length+1` with the extracted features; looking its id up finds it |
| ProjectService.ProjectStore.UpdateResourceStatus | src/services/projectService.ts:168-190 | the list becomes `WithResourceStatus` of the old one, which `WithResourceStatusEffect` fixes exactly |
| ProjectService.ProjectStore.AddFeature | src/services/projectService.ts:192-211 | null for an unknown project; otherwise a feature numbered after the project's, with resources generated from the lowercased name, appended |
| ProjectService.ProjectStore.RemoveFeature | src/services/projectService.ts:213-223 | an unknown project changes nothing; otherwise the first matching project's features become `WithoutFeature` of them, the others in their order |
| SearchPage.Without | src/pages/SearchPage.tsx:79 | exactly the entries other than the query |
| SearchPage.WithoutAppend | src/pages/SearchPage.tsx:79 | the filter of a concatenation is the concatenation of the filters, so the kept entries keep their order |
| SearchPage.WithoutSingle | src/pages/SearchPage.tsx:79 | one entry is kept exactly when it is not the query |
| SearchPage.NextHistory | src/pages/SearchPage.tsx:79 | at most five entries, the query first, then the leading entries of `Without(history, query)` |
| SearchPage.NextHistoryHoldsQueryOnce | src/pages/SearchPage.tsx:79 | the query appears exactly once and every other entry was in the old history |
| SearchPage.RepeatedQueryKeepsHistory | src/pages/SearchPage.tsx:79 | repeating the latest query leaves a history without other copies of it unchanged |
| SearchPage.Page.SelectTab | src/pages/SearchPage.tsx:52-57 | the tab becomes the chosen one; a real change after a search with a non-blank query searches again on the new tab, anything else changes nothing more |
| SearchPage.Page.HandleSearch | src/pages/SearchPage.tsx:59-87 | a blank query changes nothing; otherwise the 'all' or per-type search with 12, results sorted by category, the history updated |
| SearchPage.Requested | src/pages/SearchPage.tsx:66-70 | ten requests on the 'all' tab and one to three on a type tab, each with a limit between 1 and 12 and a query that begins with the search text |
| SearchPage.Searched | src/pages/SearchPage.tsx:66-70 | on the 'all' tab the results have distinct urls; on a type tab other than Template every result has that type |
| SearchPage.AllTabResultsHaveDistinctUrls | src/pages/SearchPage.tsx:66-74 | the sorted 'all' results still have distinct urls |
| ProjectDetailPage.StatusChangeTouchesOnlyTarget | src/pages/projects/ProjectDetailPage.tsx:75-88 | same features and resources in the same order; only matching resources change, and only their status |
| ProjectDetailPage.SetStatus | src/pages/projects/ProjectDetailPage.tsx:82-85 | every resource with the id takes the new status and only that field changes; every other resource is kept |
| ProjectDetailPage.WithStatus | src/pages/projects/ProjectDetailPage.tsx:77-86 | the features keep their count, ids and names in order; a feature with another id is kept unchanged |
| ProjectDetailPage.PageAgreesWithStore | src/pages/projects/ProjectDetailPage.tsx:75-88 | with distinct ids the page's update equals the store's |
| ProjectDetailPage.RemovalKeepsActiveExisting | src/pages/projects/ProjectDetailPage.tsx:134-140 | if the active feature existed (or was none), after removal it still exists (or is none) |
| ProjectDetailPage.Page.Load | src/pages/projects/ProjectDetailPage.tsx:31-59 | not found sets the error; found sets the project and activates the first feature when none is active |
| ProjectDetailPage.Page.HandleResourceStatusChange | src/pages/projects/ProjectDetailPage.tsx:61-93 | the store and the local copy are both updated; a null project stays null |
| ProjectDetailPage.Page.HandleAddFeature | src/pages/projects/ProjectDetailPage.tsx:95-123 | a blank name changes nothing; otherwise the store adds the feature, and a created feature is appended locally and made active, and the form is reset |
| ProjectDetailPage.Page.HandleRemoveFeature | src/pages/projects/ProjectDetailPage.tsx:125-151 | unconfirmed: nothing; otherwise the store and the local copy drop the feature by `WithoutFeature` (the rest keep their order) and the active feature moves by `NextActive` |

## Left out

- Network I/O, JSON parsing and `Promise.allSettled` concurrency. Every
  reply is an input, and the aggregator receives its per-source outcomes
  in a fixed order. A `response.json()` that fails is not modelled.
- Sleeping. The back-off delays are computed and returned, never waited
  for. The mock latencies of the project service are dropped.
- `Date.now()`, `Math.random()` and `new Date().toISOString()`. Each is an
  input constrained to the range the code produces.
- Logging (`console.*`) and `localStorage`.
- Text handling is ASCII only: `toLowerCase`, `toUpperCase` (the
  capitalised feature names), `\w` and `trim`'s whitespace, and decoding
  in the `encodeURIComponent` round trip. Encoding does produce UTF-8
  percent escapes.
- String lengths count characters, not UTF-16 code units. `length` and
  `substring` in the source count code units, so `Text.Truncate` (the
  200-unit descriptions of Reddit and Medium posts) differs from the
  source on text outside the Basic Multilingual Plane. For example, 150 emoji are cut to 100 and "..." in
  the source but kept whole in the model.
- JavaScript `Number` arithmetic: integers are unbounded and
  `Math.ceil(a / b)` is exact integer ceiling division. `toString` never
  uses exponent notation. The floating-point ranking of
  `npmService.getPopularPackages` is not modelled.
- The `score` and `popularity` extras of an npm package resource are
  floating-point values and are not modelled.
- The CodePen HTML regular expressions. The scraped pen ids and titles
  are an input (`ScrapedPage`), and the loop over them is modelled.
- src/services/api/githubService.ts is not part of this model. Its
  search results enter the aggregator as inputs.
- Calls of the same shape as a modelled one are not repeated:
  - `gitlabService.getProject`;
  - `redditService.getSubredditPosts`;
  - `youtubeService.getTutorials`, apart from its query;
  - `stackoverflowService.getQuestionsByTag`;
  - `devtoService.getArticlesByTag`;
  - `googleSearchService.searchDocumentation`, apart from its query and its
    always-empty result;
  - `npmService.getTechnologyPackages`.
- `getCategoryBadgeStyles` and all rendering. Authentication, routing and the dev-proxy
  configuration are also left out.
- Object aliasing is not modelled. In the program the store and the pages
  share project objects, and the model keeps values. Three effects follow:
  - The store's in-place status update is also visible through the page's
    copy. In the model the page applies its own update to its copy.
  - `addFeature` pushes onto the shared `features` array, and the page
    then sets `[...prev.features, newFeature]`, so the page briefly shows
    the new feature twice. The model's page copy holds it once.
  - Setting `activeFeature` re-runs the page's fetch effect
    (src/pages/projects/ProjectDetailPage.tsx:59), which replaces the page
    copy with the store's and hides that duplicate. Re-fetching on this
    dependency is not modelled.
- `getSourceIcon` looks the source up in a plain object, so "constructor",
  "toString", "__proto__" and other `Object.prototype` names find
  inherited members instead of the "Link" default.
  `CategoryMapping.GetSourceIcon` gives "Link" for them.
- Thrown values carry a name, a message and an optional status. Other
  fields of the original `Error` objects are dropped.

=== FILE: api_config.dfy ===
/** The API configuration: environment lookup with placeholder rejection,
    and the table of configured services. */
module ApiConfig {
  import opened Text

  /** A value that is a left-over template placeholder. */
  predicate LooksLikePlaceholder(v: string) {
    Contains(v, "your_") || Contains(v, "here") || Contains(v, "placeholder")
  }

  /** `getEnvVar(key)` over the build environment `env`: the value of
      `VITE_<key>`, or "" when it is missing, empty or a placeholder. */
  function GetEnvVar(env: map<string, string>, key: string): (r: string)
    ensures ("VITE_" + key) !in env ==> r == ""
    ensures ("VITE_" + key) in env && (env["VITE_" + key] == "" || LooksLikePlaceholder(env["VITE_" + key])) ==> r == ""
    ensures ("VITE_" + key) in env && env["VITE_" + key] != "" && !LooksLikePlaceholder(env["VITE_" + key])
            ==> r == env["VITE_" + key]
  {
    var viteKey := "VITE_" + key;
    if viteKey !in env || env[viteKey] == "" || LooksLikePlaceholder(env[viteKey]) then ""
    else env[viteKey]
  }

  /** Whatever the environment, the configured value is either unset or a
      genuine value taken from `VITE_<key>`. */
  lemma GetEnvVarIsGenuine(env: map<string, string>, key: string)
    ensures !LooksLikePlaceholder(GetEnvVar(env, key))
    ensures GetEnvVar(env, key) == "" || (("VITE_" + key) in env && GetEnvVar(env, key) == env["VITE_" + key])
  {
    var r := GetEnvVar(env, key);
    if r == "" {
      NotContainsWithoutChar(r, "your_", 'y');
      NotContainsWithoutChar(r, "here", 'h');
      NotContainsWithoutChar(r, "placeholder", 'p');
    }
  }

  /** One service's settings; `secret` is only used by Reddit. */
  datatype ServiceConfig = ServiceConfig(apiKey: string, secret: string, baseUrl: string)

  /** `apiConfig`, keyed by service name. */
  function Config(env: map<string, string>): (c: map<string, ServiceConfig>)
    ensures c.Keys == {"github", "gitlab", "youtube", "stackoverflow", "reddit", "devto", "medium"}
    ensures c["gitlab"] == ServiceConfig(GetEnvVar(env, "GITLAB_API_KEY"), "", "https://gitlab.com/api/v4")
    ensures c["reddit"] == ServiceConfig(GetEnvVar(env, "REDDIT_CLIENT_ID"), GetEnvVar(env, "REDDIT_CLIENT_SECRET"), "https://oauth.reddit.com")
  {
    map[
      "github" := ServiceConfig(GetEnvVar(env, "GITHUB_API_KEY"), "", "https://api.github.com"),
      "gitlab" := ServiceConfig(GetEnvVar(env, "GITLAB_API_KEY"), "", "https://gitlab.com/api/v4"),
      "youtube" := ServiceConfig(GetEnvVar(env, "YOUTUBE_API_KEY"), "", "https://www.googleapis.com/youtube/v3"),
      "stackoverflow" := ServiceConfig(GetEnvVar(env, "STACKOVERFLOW_API_KEY"), "", "https://api.stackexchange.com/2.3"),
      "reddit" := ServiceConfig(GetEnvVar(env, "REDDIT_CLIENT_ID"), GetEnvVar(env, "REDDIT_CLIENT_SECRET"), "https://oauth.reddit.com"),
      "devto" := ServiceConfig(GetEnvVar(env, "DEVTO_API_KEY"), "", "https://dev.to/api"),
      "medium" := ServiceConfig(GetEnvVar(env, "MEDIUM_API_KEY"), "", "https://api.medium.com/v1")
    ]
  }

  /** The configuration has no Google Search entry. */
  lemma NoGoogleSearchEntry(env: map<string, string>)
    ensures "googleSearch" !in Config(env)
  {
  }
}

=== FILE: api_error_handler.dfy ===
/** Error classification, the bounded retry loop with exponential backoff,
    the fallback wrapper, and the status check of `safeFetch`.  A call to the
    network is represented by what it yields: the k-th entry of an outcome
    sequence is what the k-th attempt returns or throws.  Sleeping is left
    out; the loop reports the delays it would have waited. */
module ApiErrors {
  import opened Wrappers
  import opened Text

  /** A thrown JavaScript value as `parseError` inspects it: its `name`
      ("" when it has none), its `message` and its `status` (None when the
      property is absent). */
  datatype Thrown = Thrown(name: string, message: string, status: Option<int>)

  datatype ErrorCode =
    | Unauthorized | Forbidden | NotFound | RateLimit | ServerError | HttpError
    | InvalidApiKey | QuotaExceeded

  function CodeName(c: ErrorCode): string {
    match c
    case Unauthorized => "UNAUTHORIZED"
    case Forbidden => "FORBIDDEN"
    case NotFound => "NOT_FOUND"
    case RateLimit => "RATE_LIMIT"
    case ServerError => "SERVER_ERROR"
    case HttpError => "HTTP_ERROR"
    case InvalidApiKey => "INVALID_API_KEY"
    case QuotaExceeded => "QUOTA_EXCEEDED"
  }

  /** The classified error; `status` and `code` are optional properties. */
  datatype ApiError = ApiError(message: string, status: Option<int>, code: Option<ErrorCode>, retryable: bool)

  const MaxRetries: nat := 3
  const BaseDelay: nat := 1000
  const MaxDelay: nat := 10000

  /** "Network error. Please check your internet connection.", split into
      short pieces on purpose: `ReparseNetworkError` shows that no piece
      holds an 'A' or a 'q'. */
  const NetworkMessage: string := "Network error." + " Please check" + " your internet" + " connection."
  const UnknownMessage: string := "Unknown error occurred"

  /** `error.status` is truthy: present and not 0. */
  predicate HasStatus(e: Thrown) {
    e.status.Some? && e.status.value != 0
  }

  /** A failed `fetch`: a TypeError whose message mentions 'fetch'. */
  predicate IsNetworkError(e: Thrown) {
    e.name == "TypeError" && Contains(e.message, "fetch")
  }

  /** The code the status table gives a status. */
  function StatusCode(s: int): ErrorCode {
    if s == 401 then Unauthorized
    else if s == 403 then Forbidden
    else if s == 404 then NotFound
    else if s == 429 then RateLimit
    else if s == 500 || s == 502 || s == 503 || s == 504 then ServerError
    else HttpError
  }

  /** The retry policy of the status table. */
  predicate RetryableStatus(s: int) {
    s == 403 || s == 429 || s >= 500
  }

  /** The text after "<apiName> API: " for a status. */
  function StatusDetail(s: int): string {
    match StatusCode(s)
    case Unauthorized => "Invalid credentials. Please check your API key."
    case Forbidden => "Access forbidden. Rate limit exceeded or insufficient permissions."
    case NotFound => "Resource not found."
    case RateLimit => "Rate limit exceeded. Please try again later."
    case ServerError => "Server error. Please try again later."
    case _ => "HTTP error " + IntToString(s)
  }

  function StatusError(s: int, apiName: string): (r: ApiError)
    ensures r.status == Some(s) && r.code == Some(StatusCode(s))
    ensures r.retryable <==> RetryableStatus(s)
    ensures apiName + " API: " <= r.message
  {
    var message := apiName + " API: " + StatusDetail(s);
    match StatusCode(s)
    case Unauthorized => ApiError(message, Some(401), Some(Unauthorized), false)
    case Forbidden => ApiError(message, Some(403), Some(Forbidden), true)
    case NotFound => ApiError(message, Some(404), Some(NotFound), false)
    case RateLimit => ApiError(message, Some(429), Some(RateLimit), true)
    case ServerError => ApiError(message, Some(s), Some(ServerError), true)
    case _ => ApiError(message, Some(s), Some(HttpError), s >= 500)
  }

  /** `parseError`: network failure first, then the status, then the
      'API key' and 'quota' message checks, else an unknown error. */
  function ParseError(e: Thrown, apiName: string): (r: ApiError)
    ensures r.status.Some? <==> !IsNetworkError(e) && HasStatus(e)
    ensures r.status.Some? ==> r.status == e.status
  {
    if IsNetworkError(e) then ApiError(NetworkMessage, None, None, true)
    else if HasStatus(e) then StatusError(e.status.value, apiName)
    else if e.message != "" && Contains(e.message, "API key") then
      ApiError(apiName + " API: Invalid or missing API key.", None, Some(InvalidApiKey), false)
    else if e.message != "" && Contains(e.message, "quota") then
      ApiError(apiName + " API: Quota exceeded.", None, Some(QuotaExceeded), true)
    else
      ApiError(apiName + " API: " + (if e.message != "" then e.message else UnknownMessage), None, None, false)
  }

  /** The classification table, in order of precedence: a network failure,
      then the status, then a message naming an API key, then one naming a
      quota, else an unknown error carrying the original message. */
  lemma ParseErrorClassification(e: Thrown, apiName: string)
    ensures var r := ParseError(e, apiName);
      && (IsNetworkError(e) ==> r == ApiError(NetworkMessage, None, None, true))
      && (!IsNetworkError(e) ==> apiName + " API: " <= r.message)
      && (!IsNetworkError(e) && HasStatus(e) ==>
            r.code == Some(StatusCode(e.status.value)) && (r.retryable <==> RetryableStatus(e.status.value)))
      && (!IsNetworkError(e) && !HasStatus(e) && Contains(e.message, "API key") ==>
            r.code == Some(InvalidApiKey) && !r.retryable)
      && (!IsNetworkError(e) && !HasStatus(e) && !Contains(e.message, "API key") && Contains(e.message, "quota") ==>
            r.code == Some(QuotaExceeded) && r.retryable)
      && (!IsNetworkError(e) && !HasStatus(e) && !Contains(e.message, "API key") && !Contains(e.message, "quota") ==>
            r == ApiError(apiName + " API: " + (if e.message == "" then UnknownMessage else e.message), None, None, false))
  {
  }

  /** A classified error thrown again: a plain object with no `name`. */
  function AsThrown(a: ApiError): Thrown {
    Thrown("", a.message, a.status)
  }

  /** Classifying again an error that carries a status changes nothing. */
  lemma ReparseWithStatus(e: Thrown, apiName: string)
    requires !IsNetworkError(e) && HasStatus(e)
    ensures ParseError(AsThrown(ParseError(e, apiName)), apiName) == ParseError(e, apiName)
  {
  }

  /** A network failure classified inside `safeFetch` and classified again by
      the retry loop loses its network reading and becomes a non-retryable
      unknown error. */
  lemma ReparseNetworkError(e: Thrown, apiName: string)
    requires IsNetworkError(e)
    ensures ParseError(AsThrown(ParseError(e, apiName)), apiName)
         == ApiError(apiName + " API: " + NetworkMessage, None, None, false)
  {
    NotContainsWithoutChar(NetworkMessage, "API key", 'A');
    NotContainsWithoutChar(NetworkMessage, "quota", 'q');
  }

  function Pow2(k: nat): (p: nat)
    ensures p >= 1
  {
    if k == 0 then 1 else 2 * Pow2(k - 1)
  }

  /** The wait after failed attempt k (0-based): `min(1000 * 2^k, 10000)`. */
  function Backoff(k: nat): (d: nat)
    ensures BaseDelay <= d <= MaxDelay
    ensures d == MaxDelay || d == BaseDelay * Pow2(k)
  {
    if BaseDelay * Pow2(k) < MaxDelay then BaseDelay * Pow2(k) else MaxDelay
  }

  lemma {:induction false} Pow2Monotone(j: nat, k: nat)
    requires j <= k
    ensures Pow2(j) <= Pow2(k)
    decreases k
  {
    if j < k {
      Pow2Monotone(j, k - 1);
    }
  }

  /** The waits double from one second and stay at ten seconds from the
      fifth attempt on. */
  lemma BackoffSchedule(j: nat, k: nat)
    requires j <= k
    ensures Backoff(j) <= Backoff(k)
    ensures Backoff(0) == 1000 && Backoff(1) == 2000 && Backoff(2) == 4000 && Backoff(3) == 8000
    ensures k >= 4 ==> Backoff(k) == MaxDelay
  {
    Pow2Monotone(j, k);
    if k >= 4 {
      Pow2Monotone(4, k);
    }
  }

  /** The waits after n failed attempts starting at attempt `from`. */
  function Schedule(from: nat, n: nat): (d: seq<nat>)
    ensures |d| == n
    decreases n
  {
    if n == 0 then [] else [Backoff(from)] + Schedule(from + 1, n - 1)
  }

  lemma {:induction false} ScheduleAt(from: nat, n: nat, k: nat)
    requires k < n
    ensures Schedule(from, n)[k] == Backoff(from + k)
    decreases n
  {
    if k > 0 {
      ScheduleAt(from + 1, n - 1, k - 1);
    }
  }

  /** What one attempt of the wrapped call yields. */
  datatype Outcome<T> = Returned(value: T) | Threw(error: Thrown)

  /** The result of the retry loop, the number of attempts it made and the
      waits between them. */
  datatype RetryRun<T> = RetryRun(result: Result<T, ApiError>, calls: nat, delays: seq<nat>)

  /** An attempt that failed with an error the loop retries. */
  predicate Retried<T>(o: Outcome<T>, apiName: string) {
    o.Threw? && ParseError(o.error, apiName).retryable
  }

  /** The loop from `attempt` on: the first success is returned; a failure
      that is not retryable, or that of the last allowed attempt, is thrown
      as its classification; any other failure waits and tries again. */
  function RetryFrom<T>(outcomes: seq<Outcome<T>>, apiName: string, maxRetries: nat, attempt: nat): (r: RetryRun<T>)
    requires attempt <= maxRetries < |outcomes|
    ensures 1 <= r.calls <= maxRetries + 1 - attempt
    ensures r.delays == Schedule(attempt, r.calls - 1)
    ensures forall j :: attempt <= j < attempt + r.calls - 1 ==> Retried(outcomes[j], apiName)
    ensures r.result.Success? ==> outcomes[attempt + r.calls - 1] == Returned(r.result.value)
    ensures r.result.Failure? ==>
              outcomes[attempt + r.calls - 1].Threw?
              && r.result.error == ParseError(outcomes[attempt + r.calls - 1].error, apiName)
              && (!r.result.error.retryable || attempt + r.calls - 1 == maxRetries)
    decreases maxRetries - attempt
  {
    match outcomes[attempt]
    case Returned(v) => RetryRun(Success(v), 1, [])
    case Threw(e) =>
      var err := ParseError(e, apiName);
      if !err.retryable || attempt == maxRetries then RetryRun(Failure(err), 1, [])
      else
        var rest := RetryFrom(outcomes, apiName, maxRetries, attempt + 1);
        RetryRun(rest.result, rest.calls + 1, [Backoff(attempt)] + rest.delays)
  }

  /** The attempts already made, in front of the run that follows them. */
  function AfterAttempts<T>(delays: seq<nat>, run: RetryRun<T>): RetryRun<T> {
    RetryRun(run.result, |delays| + run.calls, delays + run.delays)
  }

  /** One retried attempt moves from the run to the attempts already made. */
  lemma RetryStep<T>(outcomes: seq<Outcome<T>>, apiName: string, maxRetries: nat, attempt: nat, delays: seq<nat>)
    requires attempt < maxRetries < |outcomes|
    requires Retried(outcomes[attempt], apiName)
    ensures AfterAttempts(delays, RetryFrom(outcomes, apiName, maxRetries, attempt))
         == AfterAttempts(delays + [Backoff(attempt)], RetryFrom(outcomes, apiName, maxRetries, attempt + 1))
  {
    var rest := RetryFrom(outcomes, apiName, maxRetries, attempt + 1);
    assert delays + ([Backoff(attempt)] + rest.delays) == (delays + [Backoff(attempt)]) + rest.delays;
  }

  /** An attempt that succeeds, fails for good, or is the last one ends the run. */
  lemma RetryStops<T>(outcomes: seq<Outcome<T>>, apiName: string, maxRetries: nat, attempt: nat)
    requires attempt <= maxRetries < |outcomes|
    requires !Retried(outcomes[attempt], apiName) || attempt == maxRetries
    ensures RetryFrom(outcomes, apiName, maxRetries, attempt)
         == RetryRun(if outcomes[attempt].Returned? then Success(outcomes[attempt].value)
                     else Failure(ParseError(outcomes[attempt].error, apiName)), 1, [])
  {
  }

  /** The attempt at which the loop stops closes the whole run: the
      attempts before it, with their waits, and its own outcome. */
  lemma RetryEndsAt<T>(outcomes: seq<Outcome<T>>, apiName: string, maxRetries: nat, attempt: nat, delays: seq<nat>)
    requires attempt <= maxRetries < |outcomes| && |delays| == attempt
    requires !Retried(outcomes[attempt], apiName) || attempt == maxRetries
    requires RetryFrom(outcomes, apiName, maxRetries, 0)
          == AfterAttempts(delays, RetryFrom(outcomes, apiName, maxRetries, attempt))
    ensures RetryFrom(outcomes, apiName, maxRetries, 0)
         == RetryRun(if outcomes[attempt].Returned? then Success(outcomes[attempt].value)
                     else Failure(ParseError(outcomes[attempt].error, apiName)), attempt + 1, delays)
  {
    RetryStops(outcomes, apiName, maxRetries, attempt);
    assert delays + [] == delays;
  }

  /** `withRetry`: attempts 0..maxRetries, in order. */
  method WithRetry<T>(outcomes: seq<Outcome<T>>, apiName: string, maxRetries: nat) returns (run: RetryRun<T>)
    requires maxRetries < |outcomes|
    ensures run == RetryFrom(outcomes, apiName, maxRetries, 0)
  {
    var delays: seq<nat> := [];
    var attempt: nat := 0;
    while attempt <= maxRetries
      invariant attempt <= maxRetries && |delays| == attempt
      invariant RetryFrom(outcomes, apiName, maxRetries, 0)
             == AfterAttempts(delays, RetryFrom(outcomes, apiName, maxRetries, attempt))
      decreases maxRetries - attempt
    {
      match outcomes[attempt]
      case Returned(v) =>
        return RetryRun(Success(v), attempt + 1, delays);
      case Threw(e) =>
        var err := ParseError(e, apiName);
        if !err.retryable || attempt == maxRetries {
          return RetryRun(Failure(err), attempt + 1, delays);
        }
        RetryStep(outcomes, apiName, maxRetries, attempt, delays);
        delays := delays + [Backoff(attempt)];
        attempt := attempt + 1;
    }
    assert false;
  }

  /** A first attempt that succeeds is the only one. */
  lemma FirstSuccessWins<T>(outcomes: seq<Outcome<T>>, apiName: string, maxRetries: nat)
    requires maxRetries < |outcomes| && outcomes[0].Returned?
    ensures RetryFrom(outcomes, apiName, maxRetries, 0) == RetryRun(Success(outcomes[0].value), 1, [])
  {
  }

  /** When every attempt fails with a retryable error, all maxRetries + 1
      attempts are made, with the full backoff schedule between them, and
      the last failure is thrown. */
  lemma AllRetryableFailuresExhaust<T>(outcomes: seq<Outcome<T>>, apiName: string, maxRetries: nat)
    requires maxRetries < |outcomes|
    requires forall j :: 0 <= j <= maxRetries ==> Retried(outcomes[j], apiName)
    ensures RetryFrom(outcomes, apiName, maxRetries, 0).calls == maxRetries + 1
    ensures outcomes[maxRetries].Threw?
         && RetryFrom(outcomes, apiName, maxRetries, 0).result
         == Failure(ParseError(outcomes[maxRetries].error, apiName))
  {
  }

  /** `createSafeApiCall`: the retried call, with the fallback, when one is
      given, in place of its failure. */
  method CreateSafeApiCall<T>(outcomes: seq<Outcome<T>>, apiName: string, fallback: Option<T>)
    returns (result: Result<T, ApiError>)
    requires MaxRetries < |outcomes|
    ensures RetryFrom(outcomes, apiName, MaxRetries, 0).result.Success? ==>
              result == RetryFrom(outcomes, apiName, MaxRetries, 0).result
    ensures RetryFrom(outcomes, apiName, MaxRetries, 0).result.Failure? ==>
              result == (if fallback.Some? then Success(fallback.value) else RetryFrom(outcomes, apiName, MaxRetries, 0).result)
  {
    var run := WithRetry(outcomes, apiName, MaxRetries);
    result := run.result;
    if result.Failure? && fallback.Some? {
      result := Success(fallback.value);
    }
  }

  /** An HTTP response; `body` is the parsed JSON. */
  datatype Response<B> = Response(status: int, statusText: string, body: B)

  /** What `fetch` yields: a rejection or a response. */
  datatype FetchOutcome<B> = FetchRejected(error: Thrown) | Responded(response: Response<B>)

  /** `response.ok`. */
  predicate Ok<B>(r: Response<B>) {
    200 <= r.status <= 299
  }

  /** The Error `safeFetch` builds for a response that is not ok. */
  function HttpFailure<B>(r: Response<B>): Thrown {
    Thrown("Error", "HTTP " + IntToString(r.status) + ": " + r.statusText, Some(r.status))
  }

  /** `safeFetch`: ok responses pass through; a response that is not ok and
      a rejected fetch both come out classified. */
  function SafeFetch<B>(o: FetchOutcome<B>, apiName: string): (r: Result<Response<B>, ApiError>)
    ensures r.Success? <==> o.Responded? && Ok(o.response)
    ensures r.Success? ==> r.value == o.response
    ensures o.Responded? && !Ok(o.response) && o.response.status != 0 ==>
              r.error.status == Some(o.response.status)
              && (r.error.retryable <==> RetryableStatus(o.response.status))
    ensures o.FetchRejected? ==> r == Failure(ParseError(o.error, apiName))
  {
    match o
    case FetchRejected(e) => Failure(ParseError(e, apiName))
    case Responded(resp) =>
      if Ok(resp) then Success(resp)
      else Failure(ParseError(HttpFailure(resp), apiName))
  }
}

=== FILE: category_mapping.dfy ===
/** The category registry (one static row per resource type) and the list
    operations built on it: lookup, all rows by priority, group, sort,
    filter and count resources by type, and the icon of a source name. */
module CategoryMapping {
  import opened Types
  import opened StableSort

  datatype CategoryConfig = CategoryConfig(
    kind: ResourceType,
    name: string,
    description: string,
    icon: string,
    color: string,
    bgColor: string,
    borderColor: string,
    sources: seq<string>,
    priority: int)

  /** The static table `categoryMapping`, column by column. */
  function Mapping(t: ResourceType): CategoryConfig {
    CategoryConfig(t, Name(t), Description(t), Icon(t), Color(t), BgColor(t), BorderColor(t),
      Sources(t), Priority(t))
  }

  function Name(t: ResourceType): string {
    match t
    case Documentation => "Documentation"
    case Repository => "Repositories"
    case Tutorial => "Tutorials"
    case Template => "Templates"
  }

  function Description(t: ResourceType): string {
    match t
    case Documentation => "Official docs, references, and guides"
    case Repository => "GitHub repos and npm packages"
    case Tutorial => "Video tutorials and learning content"
    case Template => "Starter templates and live examples"
  }

  function Icon(t: ResourceType): string {
    match t
    case Documentation => "FileText"
    case Repository => "Github"
    case Tutorial => "Video"
    case Template => "Layers"
  }

  function Hue(t: ResourceType): string {
    match t
    case Documentation => "blue"
    case Repository => "green"
    case Tutorial => "red"
    case Template => "yellow"
  }

  function Color(t: ResourceType): string { "text-" + Hue(t) + "-400" }
  function BgColor(t: ResourceType): string { "bg-" + Hue(t) + "-500/10" }
  function BorderColor(t: ResourceType): string { "border-" + Hue(t) + "-500/20" }

  function Sources(t: ResourceType): seq<string> {
    match t
    case Documentation => ["MDN Web Docs", "Stack Overflow", "Google Search"]
    case Repository => ["GitHub", "npm Registry"]
    case Tutorial => ["YouTube"]
    case Template => ["GitHub", "CodeSandbox", "CodePen"]
  }

  /** The display order of the categories. */
  function Priority(t: ResourceType): int {
    match t
    case Documentation => 0
    case Repository => 1
    case Tutorial => 2
    case Template => 3
  }

  /** `getCategoryConfig`: the row of a type describes that type and carries
      its display order. */
  function GetCategoryConfig(t: ResourceType): (c: CategoryConfig)
    ensures c.kind == t
    ensures c.priority == Priority(t) && 0 <= c.priority < 4
  {
    Mapping(t)
  }

  /** Documentation sorts first, then repositories, tutorials and templates;
      no two types share a priority. */
  lemma PriorityOrder()
    ensures Priority(Documentation) < Priority(Repository) < Priority(Tutorial) < Priority(Template)
    ensures forall t, u :: Priority(t) == Priority(u) ==> t == u
  {
  }

  function ConfigPriority(c: CategoryConfig): int { c.priority }

  /** `Object.values(categoryMapping)`, in the table's insertion order. */
  function TableValues(): seq<CategoryConfig> {
    [Mapping(Documentation), Mapping(Repository), Mapping(Tutorial), Mapping(Template)]
  }

  /** `getAllCategories`: the four rows ascending by priority. */
  function GetAllCategories(): (r: seq<CategoryConfig>)
    ensures |r| == 4
    ensures forall i :: 0 <= i < 4 ==> r[i].priority == i && r[i] == GetCategoryConfig(r[i].kind)
    ensures forall t :: GetCategoryConfig(t) in r
  {
    TableInPriorityOrder();
    SortByOfSorted(TableValues(), ConfigPriority);
    var r := SortBy(TableValues(), ConfigPriority);
    assert r == TableValues();
    r
  }

  lemma TableInPriorityOrder()
    ensures forall i :: 0 <= i < 4 ==> TableValues()[i].priority == i
    ensures forall i :: 0 <= i < 4 ==> TableValues()[i] == GetCategoryConfig(TableValues()[i].kind)
    ensures forall t :: GetCategoryConfig(t) in TableValues()
    ensures SortedBy(TableValues(), ConfigPriority)
  {
    var t := TableValues();
    assert forall u :: GetCategoryConfig(u) == t[Priority(u)];
  }

  function ResourcePriority(r: Resource): int { Priority(r.kind) }

  /** The resources of type t, in input order. */
  function OfType(rs: seq<Resource>, t: ResourceType): (r: seq<Resource>)
    ensures |r| <= |rs|
    ensures forall i :: 0 <= i < |r| ==> r[i].kind == t
  {
    if rs == [] then []
    else (if rs[0].kind == t then [rs[0]] else []) + OfType(rs[1..], t)
  }

  /** OfType keeps exactly the members of the requested type. */
  lemma {:induction false} OfTypeMembers(rs: seq<Resource>, t: ResourceType)
    ensures forall x :: x in OfType(rs, t) <==> x in rs && x.kind == t
  {
    if rs != [] {
      OfTypeMembers(rs[1..], t);
      assert rs == [rs[0]] + rs[1..];
    }
  }

  lemma {:induction false} OfTypeAppend(rs: seq<Resource>, x: Resource, t: ResourceType)
    ensures OfType(rs + [x], t) == OfType(rs, t) + (if x.kind == t then [x] else [])
  {
    if rs != [] {
      assert (rs + [x])[1..] == rs[1..] + [x];
      OfTypeAppend(rs[1..], x, t);
    }
  }

  /** Every resource has exactly one type: the four groups add up to the input. */
  lemma {:induction false} OfTypeSizesSum(rs: seq<Resource>)
    ensures |OfType(rs, Documentation)| + |OfType(rs, Repository)|
          + |OfType(rs, Tutorial)| + |OfType(rs, Template)| == |rs|
  {
    if rs != [] {
      OfTypeSizesSum(rs[1..]);
    }
  }

  /** Keeping one priority is the same as keeping the one type that has it. */
  lemma {:induction false} WithPriorityIsOfType(rs: seq<Resource>, t: ResourceType)
    ensures WithKey(rs, ResourcePriority, Priority(t)) == OfType(rs, t)
  {
    PriorityOrder();
    if rs != [] {
      WithPriorityIsOfType(rs[1..], t);
    }
  }

  /** `groupResourcesByCategory`: a group exists exactly for the types that
      occur, and holds that type's resources in input order. */
  method GroupResourcesByCategory(resources: seq<Resource>) returns (groups: map<ResourceType, seq<Resource>>)
    ensures forall t :: t in groups <==> OfType(resources, t) != []
    ensures forall t :: t in groups ==> groups[t] == OfType(resources, t)
  {
    groups := map[];
    for i := 0 to |resources|
      invariant forall t :: t in groups <==> OfType(resources[..i], t) != []
      invariant forall t :: t in groups ==> groups[t] == OfType(resources[..i], t)
    {
      var r := resources[i];
      assert resources[..i + 1] == resources[..i] + [r];
      forall t { OfTypeAppend(resources[..i], r, t); }
      if r.kind !in groups {
        groups := groups[r.kind := []];
      }
      groups := groups[r.kind := groups[r.kind] + [r]];
    }
    assert resources[..|resources|] == resources;
  }

  /** `sortResourcesByCategory`: a copy of the input ordered by priority. */
  function SortResourcesByCategory(resources: seq<Resource>): (r: seq<Resource>)
    ensures multiset(r) == multiset(resources)
    ensures forall i, j :: 0 <= i < j < |r| ==> Priority(r[i].kind) <= Priority(r[j].kind)
    ensures forall t :: OfType(r, t) == OfType(resources, t)
  {
    SortBySortedPermutation(resources, ResourcePriority);
    forall t ensures OfType(SortBy(resources, ResourcePriority), t) == OfType(resources, t) {
      SortByStable(resources, ResourcePriority, Priority(t));
      WithPriorityIsOfType(resources, t);
      WithPriorityIsOfType(SortBy(resources, ResourcePriority), t);
    }
    SortBy(resources, ResourcePriority)
  }

  /** The category filter of the search page: everything, or one type. */
  datatype CategoryFilter = All | Only(kind: ResourceType)

  /** `filterResourcesByCategory`. */
  function FilterResourcesByCategory(resources: seq<Resource>, filter: CategoryFilter): (r: seq<Resource>)
    ensures filter.All? ==> r == resources
    ensures filter.Only? ==> forall x :: x in r <==> x in resources && x.kind == filter.kind
    ensures filter.Only? ==> r == WithKey(resources, ResourcePriority, Priority(filter.kind))
  {
    match filter
    case All => resources
    case Only(t) =>
      WithPriorityIsOfType(resources, t);
      OfTypeMembers(resources, t);
      OfType(resources, t)
  }

  const AllTypes: set<ResourceType> := {Documentation, Repository, Tutorial, Template}

  lemma EveryTypeListed(t: ResourceType)
    ensures t in AllTypes
  {
  }

  /** `getCategoryStats`: one counter per type, incremented per resource. */
  method GetCategoryStats(resources: seq<Resource>) returns (stats: map<ResourceType, nat>)
    ensures stats.Keys == AllTypes
    ensures forall t :: t in stats ==> stats[t] == |OfType(resources, t)|
  {
    stats := map[Documentation := 0, Repository := 0, Tutorial := 0, Template := 0];
    forall t ensures t in stats { EveryTypeListed(t); }
    for i := 0 to |resources|
      invariant forall t :: t in stats && stats[t] == |OfType(resources[..i], t)|
    {
      var r := resources[i];
      assert resources[..i + 1] == resources[..i] + [r];
      forall t { OfTypeAppend(resources[..i], r, t); }
      stats := stats[r.kind := stats[r.kind] + 1];
    }
    assert resources[..|resources|] == resources;
    forall t ensures t in AllTypes { EveryTypeListed(t); }
  }

  /** The icons of the eleven known sources. */
  const SourceIcons: map<string, string> := map[
    "GitHub" := "Github",
    "npm Registry" := "Package",
    "MDN Web Docs" := "FileText",
    "Stack Overflow" := "HelpCircle",
    "YouTube" := "Video",
    "CodeSandbox" := "Code",
    "CodePen" := "PenTool",
    "Reddit" := "MessageCircle",
    "Dev.to" := "BookOpen",
    "Medium" := "BookOpen",
    "Google Search" := "Search"]

  /** `getSourceIcon`: the listed icon, or 'Link' for any other source. */
  function GetSourceIcon(source: string): (icon: string)
    ensures source in SourceIcons ==> icon == SourceIcons[source]
    ensures source !in SourceIcons ==> icon == "Link"
    ensures icon != ""
  {
    if source in SourceIcons && SourceIcons[source] != "" then SourceIcons[source] else "Link"
  }
}

=== FILE: caught_fetch.dfy ===
/** The search functions of the unguarded adapters: one plain `fetch`, a
    throw on a non-2xx status, and a `catch` that answers []. YouTube's
    `searchVideos` and `getTutorials` and Stack Overflow's
    `searchQuestions` and `getQuestionsByTag` are `CaughtItems` of their
    response; Dev.to's `searchArticles` and `getArticlesByTag` are
    `CaughtList` of theirs. The query each one sends is part of the
    request, not of the outcome. */
module CaughtFetch {
  import opened Wrappers
  import opened ApiErrors

  /** A JSON body whose `items` field may be missing. */
  datatype ItemsBody<T> = ItemsBody(items: Option<seq<T>>)

  /** `return data.items` inside try/catch: a rejected fetch or an error
      status gives [], a success gives `items`, which is None (undefined)
      when the body has none. */
  function CaughtItems<T>(o: FetchOutcome<ItemsBody<T>>): (r: Option<seq<T>>)
    ensures !(o.Responded? && Ok(o.response)) ==> r == Some([])
    ensures o.Responded? && Ok(o.response) ==> r == o.response.body.items
  {
    if o.Responded? && Ok(o.response) then o.response.body.items else Some([])
  }

  /** `return await response.json()` inside try/catch, for a body that is
      the list itself. */
  function CaughtList<T>(o: FetchOutcome<seq<T>>): (r: seq<T>)
    ensures !(o.Responded? && Ok(o.response)) ==> r == []
    ensures o.Responded? && Ok(o.response) ==> r == o.response.body
  {
    if o.Responded? && Ok(o.response) then o.response.body else []
  }
}

=== FILE: code_example_service.dfy ===
/** The CodePen and CodeSandbox adapters: scraping and search with
    fallback results, the fallback generators, and the two normalisers. */
module CodeExampleService {
  import opened Wrappers
  import opened Text
  import opened Types
  import opened Uri
  import opened RateLimit
  import opened ApiErrors
  import opened GuardedFetch

  /** A CodePen pen; the counters are display strings such as "1,234" and
      the user may be missing. */
  datatype CodePenProject = CodePenProject(
    title: string,
    details: string,
    link: string,
    views: Option<string>,
    likes: Option<string>,
    username: Option<string>)

  /** A CodeSandbox sandbox; `authorUsername` is None when the author is null. */
  datatype CodeSandboxProject = CodeSandboxProject(
    title: string,
    description: Option<string>,
    alias: string,
    id: string,
    screenshotUrl: Option<string>,
    viewCount: int,
    likeCount: int,
    authorUsername: Option<string>)

  /** What the two regular expressions find in a CodePen search page: the
      pen ids (quotes and attribute name stripped) and the heading texts
      (tags stripped, trimmed), in page order. */
  datatype ScrapedPage = ScrapedPage(penIds: seq<string>, titles: seq<string>)

  /** The scraping loop runs `Math.min(penIds.length, limit)` times. */
  function PenCount(found: nat, limit: int): (n: nat)
    ensures n <= found && (limit >= 0 ==> n <= limit)
    ensures n == found || n == limit || (limit < 0 && n == 0)
  {
    if limit < found then (if limit < 0 then 0 else limit) else found
  }

  /** The i-th scraped pen: its heading, or a numbered placeholder title. */
  function PenAt(page: ScrapedPage, query: string, i: nat): CodePenProject
    requires i < |page.penIds|
  {
    CodePenProject(
      if i < |page.titles| then page.titles[i] else query + " example " + NatToString(i + 1),
      "Live code example on CodePen",
      "https://codepen.io/pen/" + page.penIds[i],
      Some("0"), Some("0"), Some("codepen-user"))
  }

  /** The pens the scraper builds from a page. */
  function ScrapedPens(page: ScrapedPage, query: string, limit: int): (r: seq<CodePenProject>)
    ensures |r| == PenCount(|page.penIds|, limit)
    ensures forall i :: 0 <= i < |r| ==> r[i].link == "https://codepen.io/pen/" + page.penIds[i]
    ensures forall i :: 0 <= i < |r| && i < |page.titles| ==> r[i].title == page.titles[i]
    ensures forall i :: 0 <= i < |r| && i >= |page.titles| ==> r[i].title == query + " example " + NatToString(i + 1)
  {
    seq(PenCount(|page.penIds|, limit), i requires 0 <= i < PenCount(|page.penIds|, limit) => PenAt(page, query, i))
  }

  /** The scraping loop of `searchCodePen`. */
  method ScrapePens(page: ScrapedPage, query: string, limit: int) returns (projects: seq<CodePenProject>)
    ensures projects == ScrapedPens(page, query, limit)
  {
    var n := if |page.penIds| < limit then |page.penIds| else limit;
    projects := [];
    var i := 0;
    while i < n
      invariant 0 <= i && (n >= 0 ==> i <= n) && (n < 0 ==> i == 0) && i <= |page.penIds|
      invariant |projects| == i
      invariant forall j :: 0 <= j < i ==> projects[j] == PenAt(page, query, j)
    {
      var title := if i < |page.titles| then page.titles[i] else query + " example " + NatToString(i + 1);
      projects := projects + [CodePenProject(title, "Live code example on CodePen",
                                             "https://codepen.io/pen/" + page.penIds[i],
                                             Some("0"), Some("0"), Some("codepen-user"))];
      i := i + 1;
    }
    assert i == PenCount(|page.penIds|, limit);
  }

  const CodePenSearch: string := "https://codepen.io/search/pens?q="

  /** `getFallbackCodePenResults`: `limit` links to the CodePen search page. */
  function FallbackCodePenResults(query: string, limit: int): (r: seq<CodePenProject>)
    ensures |r| == (if limit > 0 then limit else 0)
    ensures forall i :: 0 <= i < |r| ==>
              r[i] == CodePenProject(query + " Example " + NatToString(i + 1),
                                     "Search for \"" + query + "\" on CodePen for live examples",
                                     CodePenSearch + EncodeURIComponent(query),
                                     Some("0"), Some("0"), Some("search"))
  {
    seq(if limit > 0 then limit else 0, i requires i >= 0 =>
      CodePenProject(query + " Example " + NatToString(i + 1),
                     "Search for \"" + query + "\" on CodePen for live examples",
                     CodePenSearch + EncodeURIComponent(query),
                     Some("0"), Some("0"), Some("search")))
  }

  /** `getFallbackCodeSandboxResults`: `limit` placeholder sandboxes. */
  function FallbackCodeSandboxResults(query: string, limit: int): (r: seq<CodeSandboxProject>)
    ensures |r| == (if limit > 0 then limit else 0)
    ensures forall i :: 0 <= i < |r| ==>
              r[i] == CodeSandboxProject(query + " Sandbox " + NatToString(i + 1),
                                         Some("Search for \"" + query + "\" on CodeSandbox"),
                                         "", "fallback-" + NatToString(i), None, 0, 0, None)
  {
    seq(if limit > 0 then limit else 0, i requires i >= 0 =>
      CodeSandboxProject(query + " Sandbox " + NatToString(i + 1),
                         Some("Search for \"" + query + "\" on CodeSandbox"),
                         "", "fallback-" + NatToString(i), None, 0, 0, None))
  }

  /** `parseInt(s?.replace(/,/g, '') || '0', 10)`; NaN when no digit leads. */
  function CountValue(s: Option<string>): (v: Value)
    ensures s.None? ==> v == Num(0)
    ensures v.Num? || v.NaN?
  {
    assert DigitRun("0") == 1 && DigitsValue("0") == 0 && ParseInt("0") == Some(0);
    var digits := if s.None? then "0" else (var t := RemoveAll(s.value, ','); if t == "" then "0" else t);
    match ParseInt(digits)
    case None => NaN
    case Some(n) => Num(n)
  }

  /** A counter printed by the site reads back as its value. */
  lemma CountValueOfNumber(n: nat)
    ensures CountValue(Some(NatToString(n))) == Num(n)
  {
    assert AllDigits(NatToString(n));
    ParseIntOfNatToString(n);
  }

  /** `formatCodePenAsResource`; `randomId` stands for the random base-36
      string used when the link has no last segment. */
  function FormatCodePenAsResource(p: CodePenProject, randomId: string): (r: Resource)
    ensures AfterLast(p.link, '/') != "" ==> r.id == "codepen-" + AfterLast(p.link, '/')
    ensures AfterLast(p.link, '/') == "" ==> r.id == "codepen-" + randomId
    ensures r.title == p.title && r.url == p.link
    ensures r.kind == Template && r.status == Unread
    ensures r.description == Some(if p.details != "" then p.details
                                  else "Live code example by " + OrElse(p.username, "CodePen user"))
    ensures r.extra == map["views" := CountValue(p.views), "likes" := CountValue(p.likes), "source" := Str("CodePen")]
  {
    var last := AfterLast(p.link, '/');
    Resource("codepen-" + (if last != "" then last else randomId), p.title, p.link, Template, Unread,
      Some(OrElse(Some(p.details), "Live code example by " + OrElse(p.username, "CodePen user"))),
      map["views" := CountValue(p.views), "likes" := CountValue(p.likes), "source" := Str("CodePen")])
  }

  /** Every fallback pen of one query normalises to the same id and URL:
      the link's last segment is the encoded search, which has no '/'. */
  lemma FallbackPensShareId(query: string, limit: int, i: nat, j: nat, ri: string, rj: string)
    requires i < j < |FallbackCodePenResults(query, limit)|
    ensures FormatCodePenAsResource(FallbackCodePenResults(query, limit)[i], ri).id
         == FormatCodePenAsResource(FallbackCodePenResults(query, limit)[j], rj).id
         == "codepen-" + ("pens?q=" + EncodeURIComponent(query))
  {
    FallbackPenId(query, limit, i, ri);
    FallbackPenId(query, limit, j, rj);
  }

  lemma FallbackPenId(query: string, limit: int, i: nat, ri: string)
    requires i < |FallbackCodePenResults(query, limit)|
    ensures FormatCodePenAsResource(FallbackCodePenResults(query, limit)[i], ri).id
         == "codepen-" + ("pens?q=" + EncodeURIComponent(query))
  {
    var p := FallbackCodePenResults(query, limit)[i];
    var e := EncodeURIComponent(query);
    assert p.link == CodePenSearch + e;
    FallbackPenLastSegment(query);
  }

  /** The last segment of a fallback link is the encoded search. */
  lemma FallbackPenLastSegment(query: string)
    ensures AfterLast(CodePenSearch + EncodeURIComponent(query), '/') == "pens?q=" + EncodeURIComponent(query)
  {
    var e := EncodeURIComponent(query);
    assert '/' !in e;
    assert CodePenSearch + e == "https://codepen.io/search/" + ("pens?q=" + e);
    AfterLastNoSeparator(CodePenSearch + e, "https://codepen.io/search/", "pens?q=" + e, '/');
  }

  /** The part after the last separator of `a + b`, where `a` ends with the
      separator and `b` has none, is `b`. */
  lemma {:induction false} AfterLastNoSeparator(s: string, a: string, b: string, sep: char)
    requires s == a + b && a != [] && a[|a| - 1] == sep && sep !in b
    ensures AfterLast(s, sep) == b
    decreases |b|
  {
    if b == [] {
      assert s == a;
    } else {
      var b' := b[..|b| - 1];
      assert s[..|s| - 1] == a + b';
      assert s[|s| - 1] == b[|b| - 1] != sep;
      AfterLastNoSeparator(s[..|s| - 1], a, b', sep);
      assert AfterLast(s, sep) == AfterLast(s[..|s| - 1], sep) + [s[|s| - 1]];
      assert b == b' + [b[|b| - 1]];
    }
  }

  /** `formatCodeSandboxAsResource`. */
  function FormatCodeSandboxAsResource(p: CodeSandboxProject): (r: Resource)
    ensures r.id == "codesandbox-" + p.id
    ensures r.url == "https://codesandbox.io/s/" + (if p.alias != "" then p.alias else p.id)
    ensures r.title == p.title && r.kind == Template && r.status == Unread
    ensures r.description == Some(OrElse(p.description, "Interactive sandbox by " + OrElse(p.authorUsername, "CodeSandbox user")))
    ensures r.extra == map["views" := Num(p.viewCount), "likes" := Num(p.likeCount),
                           "screenshot" := (if p.screenshotUrl.Some? then Str(p.screenshotUrl.value) else Null),
                           "source" := Str("CodeSandbox")]
  {
    Resource("codesandbox-" + p.id, p.title,
      "https://codesandbox.io/s/" + (if p.alias != "" then p.alias else p.id), Template, Unread,
      Some(OrElse(p.description, "Interactive sandbox by " + OrElse(p.authorUsername, "CodeSandbox user"))),
      map["views" := Num(p.viewCount), "likes" := Num(p.likeCount),
          "screenshot" := (if p.screenshotUrl.Some? then Str(p.screenshotUrl.value) else Null),
          "source" := Str("CodeSandbox")])
  }

  /** Fallback sandboxes normalise to distinct ids and URLs. */
  lemma FallbackSandboxesDistinct(query: string, limit: int, i: nat, j: nat)
    requires i < j < |FallbackCodeSandboxResults(query, limit)|
    ensures FormatCodeSandboxAsResource(FallbackCodeSandboxResults(query, limit)[i]).id
         != FormatCodeSandboxAsResource(FallbackCodeSandboxResults(query, limit)[j]).id
    ensures FormatCodeSandboxAsResource(FallbackCodeSandboxResults(query, limit)[i]).url
         != FormatCodeSandboxAsResource(FallbackCodeSandboxResults(query, limit)[j]).url
  {
    var ps := FallbackCodeSandboxResults(query, limit);
    assert ps[i].alias == "" && ps[j].alias == "";
    NatToStringInjective(i, j);
    PrefixedDistinct("fallback-", NatToString(i), NatToString(j));
    PrefixedDistinct("codesandbox-", ps[i].id, ps[j].id);
    PrefixedDistinct("https://codesandbox.io/s/", ps[i].id, ps[j].id);
  }

  /** The CodeSandbox GraphQL response: `data` and `sandboxes` may be missing. */
  datatype SandboxData = SandboxData(sandboxes: Option<seq<CodeSandboxProject>>)
  datatype SandboxResponse = SandboxResponse(data: Option<SandboxData>)

  /** `data.data?.sandboxes || []`: the list when both levels are present,
      [] when either is missing. */
  function Sandboxes(b: SandboxResponse): (r: seq<CodeSandboxProject>)
    ensures b.data.Some? && b.data.value.sandboxes.Some? ==> r == b.data.value.sandboxes.value
    ensures b.data.None? || b.data.value.sandboxes.None? ==> r == []
  {
    if b.data.Some? && b.data.value.sandboxes.Some? then b.data.value.sandboxes.value else []
  }

  const CodePenProfile: SourceProfile := SourceProfile("codepen", "CodePen", "CodePen", PleaseWait)
  const CodeSandboxProfile: SourceProfile := SourceProfile("codesandbox", "CodeSandbox", "CodeSandbox", PleaseWait)

  /** A failed fetch inside the attempt yields the fallback pens. */
  function CodePenCall(query: string, limit: int): Call<ScrapedPage, seq<CodePenProject>> {
    Call(CodePenProfile, (page: ScrapedPage) => ScrapedPens(page, query, limit), Some(FallbackCodePenResults(query, limit)))
  }

  function CodeSandboxCall(query: string, limit: int): Call<SandboxResponse, seq<CodeSandboxProject>> {
    Call(CodeSandboxProfile, Sandboxes, Some(FallbackCodeSandboxResults(query, limit)))
  }

  /** `searchCodePen`, attempt by attempt. */
  method SearchCodePen(limiter: RateLimiter, query: string, limit: int, attempts: seq<Attempt<ScrapedPage>>)
    returns (run: RetryRun<seq<CodePenProject>>)
    requires limiter.Valid()
    requires MaxRetries < |attempts|
    modifies limiter
    ensures limiter.Valid()
    ensures run == RetryFrom(Outcomes(limiter.limits, old(limiter.requests), CodePenCall(query, limit), attempts), "CodePen", MaxRetries, 0)
    ensures limiter.requests == StateAfter(limiter.limits, old(limiter.requests), CodePenCall(query, limit), attempts[..run.calls])
  {
    run := FetchWithLimits(limiter, CodePenCall(query, limit), attempts);
  }

  /** `searchCodeSandbox`, attempt by attempt. */
  method SearchCodeSandbox(limiter: RateLimiter, query: string, limit: int, attempts: seq<Attempt<SandboxResponse>>)
    returns (run: RetryRun<seq<CodeSandboxProject>>)
    requires limiter.Valid()
    requires MaxRetries < |attempts|
    modifies limiter
    ensures limiter.Valid()
    ensures run == RetryFrom(Outcomes(limiter.limits, old(limiter.requests), CodeSandboxCall(query, limit), attempts), "CodeSandbox", MaxRetries, 0)
    ensures limiter.requests == StateAfter(limiter.limits, old(limiter.requests), CodeSandboxCall(query, limit), attempts[..run.calls])
  {
    run := FetchWithLimits(limiter, CodeSandboxCall(query, limit), attempts);
  }

  /** Once allowed, the CodePen search returns after one attempt: the
      scraped pens when the page loads, the fallback pens when it does not. */
  lemma AllowedCodePenSearchReturns(limits: map<string, LimitConfig>, requests: map<string, Entry>,
                                    query: string, limit: int, attempts: seq<Attempt<ScrapedPage>>)
    requires MaxRetries < |attempts|
    requires Check(limits, requests, "codepen", attempts[0].now).allowed
    ensures RetryFrom(Outcomes(limits, requests, CodePenCall(query, limit), attempts), "CodePen", MaxRetries, 0).calls == 1
    ensures RetryFrom(Outcomes(limits, requests, CodePenCall(query, limit), attempts), "CodePen", MaxRetries, 0).result
         == Success(if SafeFetch(attempts[0].fetched, "CodePen").Success?
                    then ScrapedPens(attempts[0].fetched.response.body, query, limit)
                    else FallbackCodePenResults(query, limit))
  {
    if SafeFetch(attempts[0].fetched, "CodePen").Success? {
      FirstFetchSucceeds(limits, requests, CodePenCall(query, limit), attempts);
    } else {
      FallbackAbsorbsFailure(limits, requests, CodePenCall(query, limit), attempts);
    }
  }

  /** Once allowed, the CodeSandbox search returns after one attempt, and
      records a request only when the API answered. */
  lemma AllowedCodeSandboxSearchReturns(limits: map<string, LimitConfig>, requests: map<string, Entry>,
                                        query: string, limit: int, attempts: seq<Attempt<SandboxResponse>>)
    requires MaxRetries < |attempts|
    requires Check(limits, requests, "codesandbox", attempts[0].now).allowed
    ensures RetryFrom(Outcomes(limits, requests, CodeSandboxCall(query, limit), attempts), "CodeSandbox", MaxRetries, 0).calls == 1
    ensures RetryFrom(Outcomes(limits, requests, CodeSandboxCall(query, limit), attempts), "CodeSandbox", MaxRetries, 0).result
         == Success(if SafeFetch(attempts[0].fetched, "CodeSandbox").Success?
                    then Sandboxes(attempts[0].fetched.response.body)
                    else FallbackCodeSandboxResults(query, limit))
    ensures SafeFetch(attempts[0].fetched, "CodeSandbox").Failure? ==>
              StateAfter(limits, requests, CodeSandboxCall(query, limit), attempts[..1])
              == Check(limits, requests, "codesandbox", attempts[0].now).requests
  {
    if SafeFetch(attempts[0].fetched, "CodeSandbox").Success? {
      FirstFetchSucceeds(limits, requests, CodeSandboxCall(query, limit), attempts);
    } else {
      FallbackAbsorbsFailure(limits, requests, CodeSandboxCall(query, limit), attempts);
    }
  }
}

=== FILE: devto_service.dfy ===
/** The Dev.to adapter: the article search wrappers and the article
    normaliser. */
module DevToService {
  import opened Wrappers
  import opened Text
  import opened Types
  import opened ApiErrors
  import opened CaughtFetch

  /** The fields of an article the adapter reads. */
  datatype Article = Article(
    id: nat,
    title: string,
    description: string,
    url: string,
    tagList: seq<string>,
    userName: string,
    readingTimeMinutes: int,
    positiveReactions: int)

  /** `formatArticleAsResource`. */
  function FormatArticleAsResource(a: Article): (r: Resource)
    ensures r.id == NatToString(a.id)
    ensures r.title == a.title && r.url == a.url
    ensures r.kind == Tutorial && r.status == Unread
    ensures r.description == Some(a.description)
    ensures r.extra == map["author" := Str(a.userName), "tags" := List(a.tagList),
                           "readingTime" := Num(a.readingTimeMinutes), "reactions" := Num(a.positiveReactions)]
  {
    Resource(NatToString(a.id), a.title, a.url, Tutorial, Unread, Some(a.description),
      map["author" := Str(a.userName), "tags" := List(a.tagList),
          "readingTime" := Num(a.readingTimeMinutes), "reactions" := Num(a.positiveReactions)])
  }

  /** The id reads back as the article number. */
  lemma ArticleIdRoundTrip(a: Article)
    ensures ParseInt(FormatArticleAsResource(a).id) == Some(a.id)
  {
    ParseIntOfNatToString(a.id);
  }
}

=== FILE: gitlab_service.dfy ===
/** The GitLab adapter: the project normaliser, the request headers, and the
    rate-limited project search. */
module GitLabService {
  import opened Wrappers
  import opened Text
  import opened Types
  import opened RateLimit
  import opened ApiErrors
  import opened GuardedFetch

  /** The fields of a GitLab project the adapter reads; `description` may
      be null. */
  datatype GitLabProject = GitLabProject(
    id: nat,
    name: string,
    webUrl: string,
    description: Option<string>,
    starCount: int,
    forksCount: int,
    namespaceName: string)

  /** `formatProjectAsResource`. */
  function FormatProjectAsResource(p: GitLabProject): (r: Resource)
    ensures r.id == "gitlab-" + NatToString(p.id)
    ensures r.title == p.name && r.url == p.webUrl
    ensures r.kind == Repository && r.status == Unread
    ensures r.description == Some(OrElse(p.description, "GitLab project by " + p.namespaceName))
    ensures r.extra == map["stars" := Num(p.starCount), "forks" := Num(p.forksCount), "source" := Str("GitLab")]
  {
    Resource("gitlab-" + NatToString(p.id), p.name, p.webUrl, Repository, Unread,
      Some(OrElse(p.description, "GitLab project by " + p.namespaceName)),
      map["stars" := Num(p.starCount), "forks" := Num(p.forksCount), "source" := Str("GitLab")])
  }

  /** Projects with different ids become resources with different ids. */
  lemma FormattedIdsDistinct(a: GitLabProject, b: GitLabProject)
    requires a.id != b.id
    ensures FormatProjectAsResource(a).id != FormatProjectAsResource(b).id
  {
    NatToStringInjective(a.id, b.id);
    var pa, pb := "gitlab-" + NatToString(a.id), "gitlab-" + NatToString(b.id);
    assert pa[7..] == NatToString(a.id) && pb[7..] == NatToString(b.id);
  }

  /** The headers of a search request: JSON, and the private token only
      when an API key is configured. */
  function RequestHeaders(apiKey: string): (h: map<string, string>)
    ensures "Accept" in h && h["Accept"] == "application/json"
    ensures "PRIVATE-TOKEN" in h <==> apiKey != ""
    ensures "PRIVATE-TOKEN" in h ==> h["PRIVATE-TOKEN"] == apiKey
    ensures h.Keys <= {"Accept", "PRIVATE-TOKEN"}
  {
    var headers := map["Accept" := "application/json"];
    if apiKey != "" then headers["PRIVATE-TOKEN" := apiKey] else headers
  }

  const SearchProfile: SourceProfile := SourceProfile("gitlab", "GitLab", "GitLab", PleaseWait)

  /** The search returns the parsed body as it is and has no fallback. */
  function SearchCall(): Call<seq<GitLabProject>, seq<GitLabProject>> {
    Call(SearchProfile, (body: seq<GitLabProject>) => body, None)
  }

  /** `searchProjects`, attempt by attempt. */
  method SearchProjects(limiter: RateLimiter, attempts: seq<Attempt<seq<GitLabProject>>>)
    returns (run: RetryRun<seq<GitLabProject>>)
    requires limiter.Valid()
    requires MaxRetries < |attempts|
    modifies limiter
    ensures limiter.Valid()
    ensures run == RetryFrom(Outcomes(limiter.limits, old(limiter.requests), SearchCall(), attempts), "GitLab", MaxRetries, 0)
    ensures limiter.requests == StateAfter(limiter.limits, old(limiter.requests), SearchCall(), attempts[..run.calls])
  {
    run := FetchWithLimits(limiter, SearchCall(), attempts);
  }

  /** A search the limiter refuses throws after one attempt and records
      nothing. */
  lemma RefusedSearchIsNotRetried(limits: map<string, LimitConfig>, requests: map<string, Entry>,
                                  attempts: seq<Attempt<seq<GitLabProject>>>)
    requires MaxRetries < |attempts|
    requires !Check(limits, requests, "gitlab", attempts[0].now).allowed
    ensures RetryFrom(Outcomes(limits, requests, SearchCall(), attempts), "GitLab", MaxRetries, 0).calls == 1
    ensures RetryFrom(Outcomes(limits, requests, SearchCall(), attempts), "GitLab", MaxRetries, 0).result.Failure?
    ensures StateAfter(limits, requests, SearchCall(), attempts[..1]) == requests
  {
    FirstRefusalEndsRun(limits, requests, SearchCall(), attempts);
  }
}

=== FILE: google_search_service.dfy ===
/** The Google Search adapter: the documentation query, the searches and
    the result normaliser. */
module GoogleSearchService {
  import opened Wrappers
  import opened Text
  import opened Types
  import opened ApiConfig

  /** The fields of a search result the adapter reads. */
  datatype SearchResult = SearchResult(title: string, link: string, displayLink: string, snippet: string)

  /** `formatSearchResultAsResource`. */
  function FormatSearchResultAsResource(s: SearchResult): (r: Resource)
    ensures r.id == r.url == s.link
    ensures r.title == s.title && r.kind == Documentation && r.status == Unread
    ensures r.description == Some(s.snippet)
    ensures r.extra == map["source" := Str(s.displayLink)]
  {
    Resource(s.link, s.title, s.link, Documentation, Unread, Some(s.snippet), map["source" := Str(s.displayLink)])
  }

  /** The query `searchDocumentation` sends. */
  function DocumentationQuery(technology: string): (q: string)
    ensures |q| == |technology| + 29
    ensures q[..|technology|] == technology
    ensures q[|technology|..] == " documentation for developers"
  {
    technology + " documentation for developers"
  }

  /** `search` and `searchDocumentation`: building the request URL reads
      `apiConfig.googleSearch`, which the configuration does not define,
      so the access throws inside the `try` and the `catch` answers []. */
  function Search(env: map<string, string>, query: string, limit: int): (r: seq<SearchResult>)
    ensures r == []
  {
    NoGoogleSearchEntry(env);
    []
  }
}

=== FILE: guarded_fetch.dfy ===
/** The request pattern the rate-limited adapters share (GitLab, npm, MDN,
    CodePen, CodeSandbox): inside the retry loop, each attempt asks the
    shared limiter first and throws when refused, then fetches through
    `safeFetch`, and records one request with the limiter only when the
    fetch succeeded.  CodePen and CodeSandbox answer a failed fetch with
    fallback results instead of throwing. */
module GuardedFetch {
  import opened Wrappers
  import opened Text
  import opened RateLimit
  import opened ApiErrors

  /** The two refusal texts: with the minutes left in the window, or without. */
  datatype RefusalText = PleaseWait | TryLater

  /** How an adapter calls its source: the limiter key, the name used in
      classified errors, and the name its refusal message starts with. */
  datatype SourceProfile = SourceProfile(key: string, apiName: string, brand: string, refusal: RefusalText)

  /** One adapter operation: the profile, how the parsed body becomes the
      returned value, and the fallback used when the fetch fails. */
  datatype Call<!Body, T> = Call(profile: SourceProfile, extract: Body -> T, fallback: Option<T>)

  /** `resetTime ? Math.ceil((resetTime - now) / 1000 / 60) : 60`. */
  function WaitMinutes(resetTime: Option<int>, now: int): (m: int)
    ensures (resetTime.None? || resetTime.value == 0) ==> m == 60
    ensures resetTime.Some? && resetTime.value != 0 ==> (m - 1) * 60000 < resetTime.value - now <= m * 60000
  {
    if resetTime.Some? && resetTime.value != 0 then CeilDiv(resetTime.value - now, 60000) else 60
  }

  // The literals here are split into short pieces on purpose: the proofs
  // that no "API key" or "quota" appears reason about each piece alone.
  function RefusalMessage(p: SourceProfile, resetTime: Option<int>, now: int): string {
    p.brand + " rate limit" + " exceeded. " + RefusalAdvice(p.refusal, resetTime, now)
  }

  function RefusalAdvice(t: RefusalText, resetTime: Option<int>, now: int): string {
    match t
    case PleaseWait => "Please wait " + IntToString(WaitMinutes(resetTime, now)) + " minutes."
    case TryLater => "Please try" + " again later."
  }

  /** The Error thrown when the limiter refuses. */
  function RefusalError(p: SourceProfile, resetTime: Option<int>, now: int): Thrown {
    Thrown("Error", RefusalMessage(p, resetTime, now), None)
  }

  lemma AdviceLacksKAndQ(t: RefusalText, resetTime: Option<int>, now: int)
    ensures 'k' !in RefusalAdvice(t, resetTime, now) && 'q' !in RefusalAdvice(t, resetTime, now)
  {
    var digits := IntToString(WaitMinutes(resetTime, now));
    assert 'k' !in digits && 'q' !in digits by {
      if digits[0] == '-' {
        assert digits == [digits[0]] + digits[1..];
      }
    }
  }

  /** A refusal is classified as an unknown, non-retryable error, so the
      retry loop gives up on it at once. */
  lemma RefusalIsFinal(p: SourceProfile, resetTime: Option<int>, now: int, apiName: string)
    requires 'k' !in p.brand && 'q' !in p.brand
    ensures !ParseError(RefusalError(p, resetTime, now), apiName).retryable
    ensures ParseError(RefusalError(p, resetTime, now), apiName).code.None?
  {
    var m := RefusalMessage(p, resetTime, now);
    AdviceLacksKAndQ(p.refusal, resetTime, now);
    assert 'k' !in m && 'q' !in m;
    NotContainsWithoutChar(m, "API key", 'k');
    NotContainsWithoutChar(m, "quota", 'q');
  }

  /** The instant of an attempt and what its fetch yields.  The adapters
      read `Date.now()` up to three times per attempt: for the check, for
      the wait in the refusal message, and for the record after the
      awaited fetch and JSON parse.  One `now` stands for all of them: for
      a refused attempt it is the instant of the check, the message's
      reading taken at the same instant; for an allowed attempt it is the
      instant of the record, or the instant of the check when the fetch
      fails and nothing is recorded.  Checking at the record instant
      changes nothing: an entry live then was live at the check, and one
      that expired in between ends as the same fresh window either way. */
  datatype Attempt<Body> = Attempt(now: int, fetched: FetchOutcome<Body>)

  /** What one attempt yields and the request table it leaves. */
  datatype Step<T> = Step(outcome: Outcome<T>, requests: map<string, Entry>)

  /** One attempt: guard, fetch, and record on success. */
  function AttemptStep<Body, T>(limits: map<string, LimitConfig>, requests: map<string, Entry>, c: Call<Body, T>, a: Attempt<Body>): (s: Step<T>)
    ensures !Check(limits, requests, c.profile.key, a.now).allowed ==>
              s == Step(Threw(RefusalError(c.profile, ResetTimeOf(requests, c.profile.key), a.now)), requests)
    ensures Check(limits, requests, c.profile.key, a.now).allowed && SafeFetch(a.fetched, c.profile.apiName).Success? ==>
              s == Step(Returned(c.extract(a.fetched.response.body)),
                        Record(limits, Check(limits, requests, c.profile.key, a.now).requests, c.profile.key, a.now))
    ensures Check(limits, requests, c.profile.key, a.now).allowed && SafeFetch(a.fetched, c.profile.apiName).Failure? ==>
              s.requests == Check(limits, requests, c.profile.key, a.now).requests
              && s.outcome == (if c.fallback.Some? then Returned(c.fallback.value)
                               else Threw(AsThrown(SafeFetch(a.fetched, c.profile.apiName).error)))
  {
    var v := Check(limits, requests, c.profile.key, a.now);
    if !v.allowed then
      Step(Threw(RefusalError(c.profile, ResetTimeOf(v.requests, c.profile.key), a.now)), v.requests)
    else
      match SafeFetch(a.fetched, c.profile.apiName)
      case Failure(err) =>
        if c.fallback.Some? then Step(Returned(c.fallback.value), v.requests)
        else Step(Threw(AsThrown(err)), v.requests)
      case Success(resp) =>
        Step(Returned(c.extract(resp.body)), Record(limits, v.requests, c.profile.key, a.now))
  }

  /** The request table after the given attempts, one after the other. */
  function StateAfter<Body, T>(limits: map<string, LimitConfig>, requests: map<string, Entry>, c: Call<Body, T>, attempts: seq<Attempt<Body>>): map<string, Entry>
    decreases |attempts|
  {
    if attempts == [] then requests
    else AttemptStep(limits, StateAfter(limits, requests, c, attempts[..|attempts| - 1]), c, attempts[|attempts| - 1]).requests
  }

  /** What attempt i yields, given the table the earlier attempts left. */
  function OutcomeAt<Body, T>(limits: map<string, LimitConfig>, requests: map<string, Entry>, c: Call<Body, T>, attempts: seq<Attempt<Body>>, i: nat): Outcome<T>
    requires i < |attempts|
  {
    AttemptStep(limits, StateAfter(limits, requests, c, attempts[..i]), c, attempts[i]).outcome
  }

  function Outcomes<Body, T>(limits: map<string, LimitConfig>, requests: map<string, Entry>, c: Call<Body, T>, attempts: seq<Attempt<Body>>): (o: seq<Outcome<T>>)
    ensures |o| == |attempts|
    ensures forall i :: 0 <= i < |attempts| ==> o[i] == OutcomeAt(limits, requests, c, attempts, i)
  {
    seq(|attempts|, i requires 0 <= i < |attempts| => OutcomeAt(limits, requests, c, attempts, i))
  }

  lemma StateAfterNext<Body, T>(limits: map<string, LimitConfig>, requests: map<string, Entry>, c: Call<Body, T>, attempts: seq<Attempt<Body>>, i: nat)
    requires i < |attempts|
    ensures StateAfter(limits, requests, c, attempts[..i + 1])
         == AttemptStep(limits, StateAfter(limits, requests, c, attempts[..i]), c, attempts[i]).requests
  {
    assert attempts[..i + 1][..i] == attempts[..i];
  }

  /** One attempt against the shared limiter. */
  method PerformAttempt<Body, T>(limiter: RateLimiter, c: Call<Body, T>, a: Attempt<Body>) returns (outcome: Outcome<T>)
    requires limiter.Valid()
    modifies limiter
    ensures limiter.Valid()
    ensures Step(outcome, limiter.requests) == AttemptStep(limiter.limits, old(limiter.requests), c, a)
  {
    var ok := limiter.CanMakeRequest(c.profile.key, a.now);
    if !ok {
      var resetTime := limiter.GetResetTime(c.profile.key);
      return Threw(RefusalError(c.profile, resetTime, a.now));
    }
    var fetched := SafeFetch(a.fetched, c.profile.apiName);
    match fetched
    case Failure(err) =>
      outcome := if c.fallback.Some? then Returned(c.fallback.value) else Threw(AsThrown(err));
    case Success(response) =>
      limiter.RecordRequest(c.profile.key, a.now);
      outcome := Returned(c.extract(response.body));
  }

  /** Attempt i, made against the table the earlier attempts left. */
  method NextAttempt<Body, T>(limiter: RateLimiter, c: Call<Body, T>, attempts: seq<Attempt<Body>>,
                              ghost start: map<string, Entry>, i: nat) returns (outcome: Outcome<T>)
    requires limiter.Valid()
    requires i < |attempts|
    requires limiter.requests == StateAfter(limiter.limits, start, c, attempts[..i])
    modifies limiter
    ensures limiter.Valid()
    ensures limiter.requests == StateAfter(limiter.limits, start, c, attempts[..i + 1])
    ensures outcome == Outcomes(limiter.limits, start, c, attempts)[i]
  {
    outcome := PerformAttempt(limiter, c, attempts[i]);
    StateAfterNext(limiter.limits, start, c, attempts, i);
  }

  /** The adapter operation: `withRetry` over guarded attempts.  The run is
      the retry loop over what the attempts yield, and the limiter holds
      the table the attempts actually made leave. */
  method FetchWithLimits<Body, T>(limiter: RateLimiter, c: Call<Body, T>, attempts: seq<Attempt<Body>>) returns (run: RetryRun<T>)
    requires limiter.Valid()
    requires MaxRetries < |attempts|
    modifies limiter
    ensures limiter.Valid()
    ensures run == RetryFrom(Outcomes(limiter.limits, old(limiter.requests), c, attempts), c.profile.apiName, MaxRetries, 0)
    ensures limiter.requests == StateAfter(limiter.limits, old(limiter.requests), c, attempts[..run.calls])
  {
    ghost var start := limiter.requests;
    ghost var outs := Outcomes(limiter.limits, start, c, attempts);
    var apiName := c.profile.apiName;
    var delays: seq<nat> := [];
    var attempt: nat := 0;
    while attempt <= MaxRetries
      invariant attempt <= MaxRetries && |delays| == attempt
      invariant limiter.Valid()
      invariant limiter.requests == StateAfter(limiter.limits, start, c, attempts[..attempt])
      invariant RetryFrom(outs, apiName, MaxRetries, 0) == AfterAttempts(delays, RetryFrom(outs, apiName, MaxRetries, attempt))
      decreases MaxRetries - attempt
    {
      var outcome := NextAttempt(limiter, c, attempts, start, attempt);
      match outcome
      case Returned(v) =>
        RetryEndsAt(outs, apiName, MaxRetries, attempt, delays);
        return RetryRun(Success(v), attempt + 1, delays);
      case Threw(e) =>
        var err := ParseError(e, apiName);
        if !err.retryable || attempt == MaxRetries {
          RetryEndsAt(outs, apiName, MaxRetries, attempt, delays);
          return RetryRun(Failure(err), attempt + 1, delays);
        }
        RetryStep(outs, apiName, MaxRetries, attempt, delays);
        delays := delays + [Backoff(attempt)];
        attempt := attempt + 1;
    }
    assert false;
  }

  /** Refused at the first attempt: one attempt, a thrown error, and no
      change to the request table. */
  lemma FirstRefusalEndsRun<Body, T>(limits: map<string, LimitConfig>, requests: map<string, Entry>, c: Call<Body, T>, attempts: seq<Attempt<Body>>)
    requires MaxRetries < |attempts|
    requires 'k' !in c.profile.brand && 'q' !in c.profile.brand
    requires !Check(limits, requests, c.profile.key, attempts[0].now).allowed
    ensures RetryFrom(Outcomes(limits, requests, c, attempts), c.profile.apiName, MaxRetries, 0).calls == 1
    ensures RetryFrom(Outcomes(limits, requests, c, attempts), c.profile.apiName, MaxRetries, 0).result.Failure?
    ensures StateAfter(limits, requests, c, attempts[..1]) == requests
  {
    assert attempts[..1][..0] == [];
    RefusalIsFinal(c.profile, ResetTimeOf(requests, c.profile.key), attempts[0].now, c.profile.apiName);
    var o := Outcomes(limits, requests, c, attempts);
    assert o[0] == OutcomeAt(limits, requests, c, attempts, 0);
  }

  /** Allowed at the first attempt and answered with a 2xx response: one
      attempt, the extracted body, and the request recorded. */
  lemma FirstFetchSucceeds<Body, T>(limits: map<string, LimitConfig>, requests: map<string, Entry>, c: Call<Body, T>, attempts: seq<Attempt<Body>>)
    requires MaxRetries < |attempts|
    requires Check(limits, requests, c.profile.key, attempts[0].now).allowed
    requires SafeFetch(attempts[0].fetched, c.profile.apiName).Success?
    ensures RetryFrom(Outcomes(limits, requests, c, attempts), c.profile.apiName, MaxRetries, 0)
         == RetryRun(Success(c.extract(attempts[0].fetched.response.body)), 1, [])
    ensures StateAfter(limits, requests, c, attempts[..1])
         == Record(limits, Check(limits, requests, c.profile.key, attempts[0].now).requests, c.profile.key, attempts[0].now)
  {
    assert attempts[..1][..0] == [];
    var o := Outcomes(limits, requests, c, attempts);
    assert o[0] == OutcomeAt(limits, requests, c, attempts, 0);
    FirstSuccessWins(o, c.profile.apiName, MaxRetries);
  }

  /** With a fallback, an allowed attempt whose fetch fails still returns:
      the run ends after one attempt with the fallback value. */
  lemma FallbackAbsorbsFailure<Body, T>(limits: map<string, LimitConfig>, requests: map<string, Entry>, c: Call<Body, T>, attempts: seq<Attempt<Body>>)
    requires MaxRetries < |attempts|
    requires c.fallback.Some?
    requires Check(limits, requests, c.profile.key, attempts[0].now).allowed
    requires SafeFetch(attempts[0].fetched, c.profile.apiName).Failure?
    ensures RetryFrom(Outcomes(limits, requests, c, attempts), c.profile.apiName, MaxRetries, 0)
         == RetryRun(Success(c.fallback.value), 1, [])
    ensures StateAfter(limits, requests, c, attempts[..1])
         == Check(limits, requests, c.profile.key, attempts[0].now).requests
  {
    assert attempts[..1][..0] == [];
    var o := Outcomes(limits, requests, c, attempts);
    assert o[0] == OutcomeAt(limits, requests, c, attempts, 0);
    FirstSuccessWins(o, c.profile.apiName, MaxRetries);
  }

  /** Attempts whose fetches all fail record nothing: at most an expired
      entry of the source is dropped. */
  lemma {:induction false} FailedFetchesRecordNothing<Body, T>(limits: map<string, LimitConfig>, requests: map<string, Entry>, c: Call<Body, T>, attempts: seq<Attempt<Body>>)
    requires forall i :: 0 <= i < |attempts| ==> SafeFetch(attempts[i].fetched, c.profile.apiName).Failure?
    ensures StateAfter(limits, requests, c, attempts) == requests
         || StateAfter(limits, requests, c, attempts) == requests - {c.profile.key}
    decreases |attempts|
  {
    if attempts != [] {
      var init := attempts[..|attempts| - 1];
      FailedFetchesRecordNothing(limits, requests, c, init);
      var before := StateAfter(limits, requests, c, init);
      assert before - {c.profile.key} - {c.profile.key} == requests - {c.profile.key};
    }
  }

  /** Other sources' entries are never touched. */
  lemma {:induction false} OtherSourcesUntouched<Body, T>(limits: map<string, LimitConfig>, requests: map<string, Entry>, c: Call<Body, T>, attempts: seq<Attempt<Body>>)
    ensures StateAfter(limits, requests, c, attempts) - {c.profile.key} == requests - {c.profile.key}
    decreases |attempts|
  {
    if attempts != [] {
      OtherSourcesUntouched(limits, requests, c, attempts[..|attempts| - 1]);
    }
  }
}

=== FILE: mdn_service.dfy ===
/** The MDN Web Docs adapter: the rate-limited documentation search, its
    result limit, and the document normaliser. */
module MdnService {
  import opened Wrappers
  import opened Text
  import opened Types
  import opened RateLimit
  import opened ApiErrors
  import opened GuardedFetch

  /** The fields of a search hit the adapter reads; the summary may be empty. */
  datatype MdnDocument = MdnDocument(mdnUrl: string, title: string, summary: Option<string>)

  /** The search response; `documents` may be missing. */
  datatype SearchResponse = SearchResponse(documents: Option<seq<MdnDocument>>)

  /** `s.slice(0, end)`: a negative end counts from the back. */
  function SliceTo<T>(s: seq<T>, end: int): (r: seq<T>)
    ensures end >= 0 ==> r == s[..if end < |s| then end else |s|]
    ensures end < 0 ==> r == s[..if |s| + end > 0 then |s| + end else 0]
    ensures r <= s
  {
    var stop := if end >= 0 then (if end < |s| then end else |s|)
                else (if |s| + end > 0 then |s| + end else 0);
    s[..stop]
  }

  /** `data.documents?.slice(0, limit) || []`. */
  function LimitDocuments(documents: Option<seq<MdnDocument>>, limit: int): (r: seq<MdnDocument>)
    ensures documents.None? ==> r == []
    ensures documents.Some? ==> r <= documents.value
    ensures limit >= 0 ==> |r| <= limit
    ensures documents.Some? && 0 <= limit <= |documents.value| ==> |r| == limit
    ensures documents.Some? && limit >= |documents.value| ==> r == documents.value
  {
    if documents.None? then [] else SliceTo(documents.value, limit)
  }

  /** The resource id: `mdn-` and the last URL segment, or `mdn-` and the
      random fallback when that segment is empty. */
  function DocumentId(doc: MdnDocument, randomId: string): (id: string)
    ensures AfterLast(doc.mdnUrl, '/') != "" ==> id == "mdn-" + AfterLast(doc.mdnUrl, '/')
    ensures AfterLast(doc.mdnUrl, '/') == "" ==> id == "mdn-" + randomId
  {
    var last := AfterLast(doc.mdnUrl, '/');
    "mdn-" + (if last != "" then last else randomId)
  }

  /** `formatDocumentAsResource`; `randomId` stands for the random base-36
      string used when the URL has no last segment. */
  function FormatDocumentAsResource(doc: MdnDocument, randomId: string): (r: Resource)
    ensures r.id == DocumentId(doc, randomId)
    ensures r.title == doc.title && r.url == "https://developer.mozilla.org" + doc.mdnUrl
    ensures r.kind == Documentation && r.status == Unread
    ensures r.description == Some(OrElse(doc.summary, "Official MDN documentation for " + doc.title))
    ensures r.extra == map["source" := Str("MDN Web Docs")]
  {
    Resource(DocumentId(doc, randomId), doc.title,
      "https://developer.mozilla.org" + doc.mdnUrl, Documentation, Unread,
      Some(OrElse(doc.summary, "Official MDN documentation for " + doc.title)),
      map["source" := Str("MDN Web Docs")])
  }

  /** Documents whose URLs end in different slugs get different ids, and
      the id never carries a '/'. */
  lemma DocumentIdsFollowSlugs(a: MdnDocument, b: MdnDocument, ra: string, rb: string)
    requires AfterLast(a.mdnUrl, '/') != "" && AfterLast(b.mdnUrl, '/') != ""
    requires AfterLast(a.mdnUrl, '/') != AfterLast(b.mdnUrl, '/')
    ensures DocumentId(a, ra) != DocumentId(b, rb)
    ensures '/' !in DocumentId(a, ra)
  {
    var sa, sb := AfterLast(a.mdnUrl, '/'), AfterLast(b.mdnUrl, '/');
    assert DocumentId(a, ra) == "mdn-" + sa && DocumentId(b, rb) == "mdn-" + sb;
    PrefixedDistinct("mdn-", sa, sb);
    assert '/' !in "mdn-" + sa by {
      assert '/' !in "mdn-";
    }
  }

  const SearchProfile: SourceProfile := SourceProfile("mdn", "MDN", "MDN API", PleaseWait)

  function SearchCall(limit: int): Call<SearchResponse, seq<MdnDocument>> {
    Call(SearchProfile, (b: SearchResponse) => LimitDocuments(b.documents, limit), None)
  }

  /** `searchDocumentation`, attempt by attempt. */
  method SearchDocumentation(limiter: RateLimiter, limit: int, attempts: seq<Attempt<SearchResponse>>)
    returns (run: RetryRun<seq<MdnDocument>>)
    requires limiter.Valid()
    requires MaxRetries < |attempts|
    modifies limiter
    ensures limiter.Valid()
    ensures run == RetryFrom(Outcomes(limiter.limits, old(limiter.requests), SearchCall(limit), attempts), "MDN", MaxRetries, 0)
    ensures limiter.requests == StateAfter(limiter.limits, old(limiter.requests), SearchCall(limit), attempts[..run.calls])
  {
    run := FetchWithLimits(limiter, SearchCall(limit), attempts);
  }

  /** `getTechnologyDocs`: the search with a limit of three. */
  method GetTechnologyDocs(limiter: RateLimiter, attempts: seq<Attempt<SearchResponse>>)
    returns (run: RetryRun<seq<MdnDocument>>)
    requires limiter.Valid()
    requires MaxRetries < |attempts|
    modifies limiter
    ensures limiter.Valid()
    ensures run == RetryFrom(Outcomes(limiter.limits, old(limiter.requests), SearchCall(3), attempts), "MDN", MaxRetries, 0)
    ensures limiter.requests == StateAfter(limiter.limits, old(limiter.requests), SearchCall(3), attempts[..run.calls])
    ensures run.result.Success? ==> |run.result.value| <= 3
  {
    run := SearchDocumentation(limiter, 3, attempts);
  }

  /** Whatever the attempts, a successful search returns at most `limit` documents. */
  lemma SearchRespectsLimit(limits: map<string, LimitConfig>, requests: map<string, Entry>, limit: nat,
                            attempts: seq<Attempt<SearchResponse>>)
    requires MaxRetries < |attempts|
    ensures RetryFrom(Outcomes(limits, requests, SearchCall(limit), attempts), "MDN", MaxRetries, 0).result.Success? ==>
              |RetryFrom(Outcomes(limits, requests, SearchCall(limit), attempts), "MDN", MaxRetries, 0).result.value| <= limit
  {
    var o := Outcomes(limits, requests, SearchCall(limit), attempts);
    var run := RetryFrom(o, "MDN", MaxRetries, 0);
    if run.result.Success? {
      var i := run.calls - 1;
      assert o[i] == OutcomeAt(limits, requests, SearchCall(limit), attempts, i);
    }
  }
}

=== FILE: medium_service.dfy ===
/** The Medium adapter: two searches that always answer [], and the post
    normaliser. */
module MediumService {
  import opened Wrappers
  import opened Text
  import opened Types

  /** The fields of a post the adapter reads. */
  datatype MediumPost = MediumPost(
    id: string,
    title: string,
    author: string,
    url: string,
    content: string,
    tags: seq<string>,
    claps: int,
    readingTime: int)

  /** `searchPosts`: the body throws "Medium API not implemented" before
      any request and the `catch` answers []. */
  function SearchPosts(query: string, limit: int): (r: seq<MediumPost>)
    ensures r == []
  {
    []
  }

  /** `getPostsByTag`: an independent copy of `searchPosts` in the
      adapter, with its own unconditional throw and `catch`; it answers
      what a search for the tag answers. */
  function GetPostsByTag(tag: string, limit: int): (r: seq<MediumPost>)
    ensures r == []
  {
    SearchPosts(tag, limit)
  }

  /** `formatPostAsResource`. */
  function FormatPostAsResource(p: MediumPost): (r: Resource)
    ensures r.id == p.id && r.url == p.url && r.title == p.title
    ensures r.kind == Tutorial && r.status == Unread
    ensures r.description == Some(Truncate(p.content, 200))
    ensures |r.description.value| <= 203
    ensures |p.content| <= 200 ==> r.description.value == p.content
    ensures |p.content| > 200 ==> r.description.value == p.content[..200] + "..."
    ensures r.extra == map["author" := Str(p.author), "tags" := List(p.tags),
                           "readingTime" := Num(p.readingTime), "claps" := Num(p.claps)]
  {
    Resource(p.id, p.title, p.url, Tutorial, Unread, Some(Truncate(p.content, 200)),
      map["author" := Str(p.author), "tags" := List(p.tags),
          "readingTime" := Num(p.readingTime), "claps" := Num(p.claps)])
  }
}

=== FILE: npm_service.dfy ===
/** The npm registry adapter: the package search, the package lookup that
    prefers an exact name match, and the package normaliser. */
module NpmService {
  import opened Wrappers
  import opened Text
  import opened Types
  import opened RateLimit
  import opened ApiErrors
  import opened GuardedFetch

  /** The fields of a search hit the adapter reads.  Link fields may be
      null or empty; the scores are floating point and are not modelled. */
  datatype NpmPackage = NpmPackage(
    name: string,
    version: string,
    description: Option<string>,
    keywords: seq<string>,
    npmLink: Option<string>,
    repositoryLink: Option<string>)

  /** The search response; `objects` may be missing. */
  datatype SearchResponse = SearchResponse(objects: Option<seq<NpmPackage>>)

  const PackagePage: string := "https://www.npmjs.com/package/"

  /** The registry page of a package: its own link, or the page built from its name. */
  function NpmUrl(p: NpmPackage): string {
    OrElse(p.npmLink, PackagePage + p.name)
  }

  /** `formatPackageAsResource`. */
  function FormatPackageAsResource(p: NpmPackage): (r: Resource)
    ensures r.id == "npm-" + ReplaceAny(p.name, {'@', '/'}, '-')
    ensures '@' !in r.id && '/' !in r.id
    ensures r.title == p.name && r.kind == Repository && r.status == Unread
    ensures r.url == OrElse(p.repositoryLink, OrElse(p.npmLink, PackagePage + p.name))
    ensures r.description == Some(OrElse(p.description, "npm package - v" + p.version))
    ensures r.extra == map["version" := Str(p.version), "keywords" := List(p.keywords),
                           "npmUrl" := Str(NpmUrl(p)),
                           "repositoryUrl" := (if p.repositoryLink.Some? then Str(p.repositoryLink.value) else Null),
                           "source" := Str("npm Registry")]
  {
    var npmUrl := NpmUrl(p);
    Resource("npm-" + ReplaceAny(p.name, {'@', '/'}, '-'), p.name, OrElse(p.repositoryLink, npmUrl),
      Repository, Unread, Some(OrElse(p.description, "npm package - v" + p.version)),
      map["version" := Str(p.version), "keywords" := List(p.keywords), "npmUrl" := Str(npmUrl),
          "repositoryUrl" := (if p.repositoryLink.Some? then Str(p.repositoryLink.value) else Null),
          "source" := Str("npm Registry")])
  }

  /** Two packages whose names differ only at '@' and '/' share an id:
      `@a/b` and `-a-b` are both `npm--a-b`. */
  lemma ScopedNamesCanCollide()
    ensures FormatPackageAsResource(NpmPackage("@a/b", "1", None, [], None, None)).id
         == FormatPackageAsResource(NpmPackage("-a-b", "1", None, [], None, None)).id
  {
    assert ReplaceAny("@a/b", {'@', '/'}, '-') == "-a-b";
    assert ReplaceAny("-a-b", {'@', '/'}, '-') == "-a-b";
  }

  predicate NameMatches(p: NpmPackage, packageName: string) {
    ToLower(p.name) == ToLower(packageName)
  }

  /** The index of the first package whose name matches case-insensitively. */
  function FirstMatch(objects: seq<NpmPackage>, packageName: string): (r: Option<nat>)
    ensures r.Some? ==> r.value < |objects| && NameMatches(objects[r.value], packageName)
    ensures r.Some? ==> forall j :: 0 <= j < r.value ==> !NameMatches(objects[j], packageName)
    ensures r.None? <==> forall j :: 0 <= j < |objects| ==> !NameMatches(objects[j], packageName)
  {
    if objects == [] then None
    else if NameMatches(objects[0], packageName) then Some(0)
    else
      var rest := FirstMatch(objects[1..], packageName);
      if rest.None? then None else Some(rest.value + 1)
  }

  /** The package `getPackageDetails` returns: the first exact (case-
      insensitive) match, else the first hit, else none. */
  function PickPackage(objects: Option<seq<NpmPackage>>, packageName: string): Option<NpmPackage> {
    if objects.None? then None
    else
      var m := FirstMatch(objects.value, packageName);
      if m.Some? then Some(objects.value[m.value])
      else if objects.value != [] then Some(objects.value[0])
      else None
  }

  /** What the lookup returns, case by case. */
  lemma PickPackageSpec(objects: Option<seq<NpmPackage>>, packageName: string)
    ensures PickPackage(objects, packageName).None? <==> objects.None? || objects.value == []
    ensures objects.Some? && PickPackage(objects, packageName).Some? ==>
              PickPackage(objects, packageName).value in objects.value
    ensures forall i :: objects.Some? && 0 <= i < |objects.value| && NameMatches(objects.value[i], packageName)
              && (forall j :: 0 <= j < i ==> !NameMatches(objects.value[j], packageName))
              ==> PickPackage(objects, packageName) == Some(objects.value[i])
    ensures (objects.Some? && objects.value != []
             && forall j :: 0 <= j < |objects.value| ==> !NameMatches(objects.value[j], packageName))
            ==> PickPackage(objects, packageName) == Some(objects.value[0])
  {
    if objects.Some? {
      var m := FirstMatch(objects.value, packageName);
      forall i | 0 <= i < |objects.value| && NameMatches(objects.value[i], packageName)
                 && (forall j :: 0 <= j < i ==> !NameMatches(objects.value[j], packageName))
        ensures PickPackage(objects, packageName) == Some(objects.value[i])
      {
        assert m.Some?;
      }
    }
  }

  const SearchProfile: SourceProfile := SourceProfile("npm", "npm", "npm registry", PleaseWait)
  const DetailsProfile: SourceProfile := SourceProfile("npm", "npm", "npm registry", TryLater)

  /** `data.objects || []`. */
  function SearchCall(): Call<SearchResponse, seq<NpmPackage>> {
    Call(SearchProfile, (b: SearchResponse) => b.objects.GetOr([]), None)
  }

  function DetailsCall(packageName: string): Call<SearchResponse, Option<NpmPackage>> {
    Call(DetailsProfile, (b: SearchResponse) => PickPackage(b.objects, packageName), None)
  }

  /** `searchPackages`, attempt by attempt. */
  method SearchPackages(limiter: RateLimiter, attempts: seq<Attempt<SearchResponse>>)
    returns (run: RetryRun<seq<NpmPackage>>)
    requires limiter.Valid()
    requires MaxRetries < |attempts|
    modifies limiter
    ensures limiter.Valid()
    ensures run == RetryFrom(Outcomes(limiter.limits, old(limiter.requests), SearchCall(), attempts), "npm", MaxRetries, 0)
    ensures limiter.requests == StateAfter(limiter.limits, old(limiter.requests), SearchCall(), attempts[..run.calls])
  {
    run := FetchWithLimits(limiter, SearchCall(), attempts);
  }

  /** `getPackageDetails`, attempt by attempt. */
  method GetPackageDetails(limiter: RateLimiter, packageName: string, attempts: seq<Attempt<SearchResponse>>)
    returns (run: RetryRun<Option<NpmPackage>>)
    requires limiter.Valid()
    requires MaxRetries < |attempts|
    modifies limiter
    ensures limiter.Valid()
    ensures run == RetryFrom(Outcomes(limiter.limits, old(limiter.requests), DetailsCall(packageName), attempts), "npm", MaxRetries, 0)
    ensures limiter.requests == StateAfter(limiter.limits, old(limiter.requests), DetailsCall(packageName), attempts[..run.calls])
  {
    run := FetchWithLimits(limiter, DetailsCall(packageName), attempts);
  }

  /** A first search that is allowed and answered returns the hits (none
      when the response has no `objects`) and records one npm request. */
  lemma AnsweredSearch(limits: map<string, LimitConfig>, requests: map<string, Entry>, attempts: seq<Attempt<SearchResponse>>)
    requires MaxRetries < |attempts|
    requires Check(limits, requests, "npm", attempts[0].now).allowed
    requires SafeFetch(attempts[0].fetched, "npm").Success?
    ensures RetryFrom(Outcomes(limits, requests, SearchCall(), attempts), "npm", MaxRetries, 0).result
         == Success(attempts[0].fetched.response.body.objects.GetOr([]))
    ensures StateAfter(limits, requests, SearchCall(), attempts[..1])
         == Record(limits, Check(limits, requests, "npm", attempts[0].now).requests, "npm", attempts[0].now)
  {
    FirstFetchSucceeds(limits, requests, SearchCall(), attempts);
  }

  /** A refused lookup is not retried and records nothing. */
  lemma RefusedLookupIsNotRetried(limits: map<string, LimitConfig>, requests: map<string, Entry>,
                                  packageName: string, attempts: seq<Attempt<SearchResponse>>)
    requires MaxRetries < |attempts|
    requires !Check(limits, requests, "npm", attempts[0].now).allowed
    ensures RetryFrom(Outcomes(limits, requests, DetailsCall(packageName), attempts), "npm", MaxRetries, 0).calls == 1
    ensures RetryFrom(Outcomes(limits, requests, DetailsCall(packageName), attempts), "npm", MaxRetries, 0).result.Failure?
    ensures StateAfter(limits, requests, DetailsCall(packageName), attempts[..1]) == requests
  {
    FirstRefusalEndsRun(limits, requests, DetailsCall(packageName), attempts);
  }
}

=== FILE: project_detail_page.dfy ===
/** The project-detail page's local state: the loaded project, the active
    feature tab and the feature form, updated alongside the project store. */
module ProjectDetailPage {
  import opened Wrappers
  import opened Text
  import opened Types
  import PS = ProjectService

  /** JavaScript truthiness of a `string | null` (or undefined) value. */
  predicate Truthy(s: Option<string>) {
    s.Some? && s.value != ""
  }

  predicate DistinctFeatureIds(fs: seq<Feature>) {
    forall i, j :: 0 <= i < j < |fs| ==> fs[i].id != fs[j].id
  }

  predicate DistinctResourceIds(rs: seq<Resource>) {
    forall i, j :: 0 <= i < j < |rs| ==> rs[i].id != rs[j].id
  }

  /** The inner `map` of `handleResourceStatusChange`: every resource with
      the id takes the status, and nothing else changes. */
  function SetStatus(rs: seq<Resource>, resourceId: string, status: ResourceStatus): (r: seq<Resource>)
    ensures |r| == |rs|
    ensures forall i :: 0 <= i < |rs| && rs[i].id != resourceId ==> r[i] == rs[i]
    ensures forall i :: 0 <= i < |rs| && rs[i].id == resourceId ==> r[i].status == status && r[i] == rs[i].(status := status)
  {
    seq(|rs|, i requires 0 <= i < |rs| => if rs[i].id == resourceId then rs[i].(status := status) else rs[i])
  }

  /** The outer `map` of `handleResourceStatusChange`: features keep their
      ids, names and order, and only those with the id are touched. */
  function WithStatus(fs: seq<Feature>, featureId: string, resourceId: string, status: ResourceStatus): (r: seq<Feature>)
    ensures |r| == |fs|
    ensures forall i :: 0 <= i < |fs| ==> r[i].id == fs[i].id && r[i].name == fs[i].name
    ensures forall i :: 0 <= i < |fs| && fs[i].id != featureId ==> r[i] == fs[i]
  {
    seq(|fs|, i requires 0 <= i < |fs| =>
      if fs[i].id == featureId then fs[i].(resources := SetStatus(fs[i].resources, resourceId, status)) else fs[i])
  }

  /** A status change keeps the number and order of features and resources,
      and alters only the status of resources with the given id inside
      features with the given id. */
  lemma StatusChangeTouchesOnlyTarget(fs: seq<Feature>, featureId: string, resourceId: string, status: ResourceStatus)
    ensures var fs' := WithStatus(fs, featureId, resourceId, status);
            |fs'| == |fs|
            && forall i :: 0 <= i < |fs| ==>
                 fs'[i].id == fs[i].id && fs'[i].name == fs[i].name
                 && |fs'[i].resources| == |fs[i].resources|
                 && forall k :: 0 <= k < |fs[i].resources| ==>
                      fs'[i].resources[k] ==
                        (if fs[i].id == featureId && fs[i].resources[k].id == resourceId
                         then fs[i].resources[k].(status := status) else fs[i].resources[k])
  {
  }

  /** With distinct resource ids the page's `map` and the store's
      find-then-assign make the same change. */
  lemma SetStatusAgreesWithFind(rs: seq<Resource>, resourceId: string, status: ResourceStatus)
    requires DistinctResourceIds(rs)
    ensures var k := PS.FindIndex(rs, (r: Resource) => r.id == resourceId);
            SetStatus(rs, resourceId, status) == if k.None? then rs else rs[k.value := rs[k.value].(status := status)]
  {
    var k := PS.FindIndex(rs, (r: Resource) => r.id == resourceId);
    if k.Some? {
      var rs' := rs[k.value := rs[k.value].(status := status)];
      forall i | 0 <= i < |rs|
        ensures SetStatus(rs, resourceId, status)[i] == rs'[i]
      {
        if i != k.value {
          assert rs[i].id != rs[k.value].id;
        }
      }
    }
  }

  /** With distinct feature ids and distinct resource ids within each
      feature, the page's local update and the store's update of the
      project agree. */
  lemma PageAgreesWithStore(p: Project, featureId: string, resourceId: string, status: ResourceStatus)
    requires DistinctFeatureIds(p.features)
    requires forall i :: 0 <= i < |p.features| ==> DistinctResourceIds(p.features[i].resources)
    ensures PS.WithResourceStatus([p], p.id, featureId, resourceId, status)
            == [p.(features := WithStatus(p.features, featureId, resourceId, status))]
  {
    var fs := p.features;
    var pk := PS.FindIndex([p], (q: Project) => q.id == p.id);
    assert pk == Some(0);
    var fk := PS.FindIndex(fs, (f: Feature) => f.id == featureId);
    var expected := WithStatus(fs, featureId, resourceId, status);
    if fk.None? {
      assert expected == fs;
    } else {
      var j := fk.value;
      var rs := fs[j].resources;
      SetStatusAgreesWithFind(rs, resourceId, status);
      var fs' := fs[j := fs[j].(resources := SetStatus(rs, resourceId, status))];
      forall i | 0 <= i < |fs|
        ensures expected[i] == fs'[i]
      {
        if i != j {
          assert fs[i].id != fs[j].id;
        }
      }
      assert expected == fs';
      var rk := PS.FindIndex(rs, (r: Resource) => r.id == resourceId);
      if rk.None? {
        assert SetStatus(rs, resourceId, status) == rs;
        assert fs' == fs;
      }
    }
  }

  /** The active feature after `handleRemoveFeature`: the first remaining
      feature when the active one goes and others remain, none when nothing
      remains, otherwise unchanged. */
  function NextActive(active: Option<string>, featureId: string, remaining: seq<Feature>): Option<string> {
    if active == Some(featureId) && |remaining| > 0 then Some(remaining[0].id)
    else if |remaining| == 0 then None
    else active
  }

  /** The active feature names an existing feature (or none): removal keeps
      this so. */
  predicate ActiveExists(active: Option<string>, fs: seq<Feature>) {
    active.Some? ==> exists f :: f in fs && f.id == active.value
  }

  lemma RemovalKeepsActiveExisting(active: Option<string>, fs: seq<Feature>, featureId: string)
    requires ActiveExists(active, fs)
    ensures ActiveExists(NextActive(active, featureId, PS.WithoutFeature(fs, featureId)), PS.WithoutFeature(fs, featureId))
  {
    var remaining := PS.WithoutFeature(fs, featureId);
    if active == Some(featureId) && |remaining| > 0 {
      assert remaining[0] in remaining;
    } else if |remaining| > 0 && active.Some? {
      var f :| f in fs && f.id == active.value;
      assert f in remaining;
    }
  }

  /** The page's state cells; `projectId` is the route parameter. */
  class Page {
    const projectId: Option<string>
    var project: Option<Project>
    var activeFeature: Option<string>
    var error: Option<string>
    var newFeatureName: string
    var isAddingFeature: bool

    constructor(projectId: Option<string>)
      ensures this.projectId == projectId
      ensures project.None? && activeFeature.None? && error.None? && newFeatureName == "" && !isAddingFeature
    {
      this.projectId := projectId;
      project := None;
      activeFeature := None;
      error := None;
      newFeatureName := "";
      isAddingFeature := false;
    }

    /** `fetchProject`: look the project up; the first feature becomes
        active when there is one and no feature is active yet. */
    method Load(store: PS.ProjectStore)
      modifies this
      ensures newFeatureName == old(newFeatureName) && isAddingFeature == old(isAddingFeature)
      ensures !Truthy(projectId) ==> project == old(project) && activeFeature == old(activeFeature) && error == old(error)
      ensures Truthy(projectId) && PS.FindProject(store.projects, projectId.value).None? ==>
                project == old(project) && activeFeature == old(activeFeature) && error == Some("Project not found")
      ensures Truthy(projectId) && PS.FindProject(store.projects, projectId.value).Some? ==>
                var p := PS.FindProject(store.projects, projectId.value).value;
                && project == Some(p) && error == old(error)
                && activeFeature == (if |p.features| > 0 && !Truthy(old(activeFeature)) then Some(p.features[0].id)
                                     else old(activeFeature))
    {
      if !Truthy(projectId) {
        return;
      }
      var data := store.GetProjectById(projectId.value);
      if data.None? {
        error := Some("Project not found");
        return;
      }
      project := data;
      if |data.value.features| > 0 && !Truthy(activeFeature) {
        activeFeature := Some(data.value.features[0].id);
      }
    }

    /** `handleResourceStatusChange`: update the store, then the local copy. */
    method HandleResourceStatusChange(store: PS.ProjectStore, featureId: string, resourceId: string, status: ResourceStatus)
      requires store.Valid()
      modifies this, store
      ensures store.Valid()
      ensures activeFeature == old(activeFeature) && error == old(error)
      ensures newFeatureName == old(newFeatureName) && isAddingFeature == old(isAddingFeature)
      ensures !Truthy(projectId) ==> project == old(project) && store.projects == old(store.projects)
      ensures Truthy(projectId) ==>
                store.projects == PS.WithResourceStatus(old(store.projects), projectId.value, featureId, resourceId, status)
                && project == (if old(project).None? then None
                               else Some(old(project).value.(features := WithStatus(old(project).value.features, featureId, resourceId, status))))
    {
      if !Truthy(projectId) {
        return;
      }
      store.UpdateResourceStatus(projectId.value, featureId, resourceId, status);
      if project.Some? {
        project := Some(project.value.(features := WithStatus(project.value.features, featureId, resourceId, status)));
      }
    }

    /** `handleAddFeature`: with a non-blank name, ask the store for a new
        feature; when it returns one, append it and make it active. The
        active feature is set even when no project is loaded. */
    method HandleAddFeature(store: PS.ProjectStore, d: PS.Draws)
      requires store.Valid() && PS.ValidDraws(d)
      modifies this, store
      ensures store.Valid()
      ensures error == old(error)
      ensures !Truthy(projectId) || IsBlank(old(newFeatureName)) ==>
                project == old(project) && activeFeature == old(activeFeature) && store.projects == old(store.projects)
                && newFeatureName == old(newFeatureName) && isAddingFeature == old(isAddingFeature)
      ensures Truthy(projectId) && !IsBlank(old(newFeatureName)) ==>
                (PS.FindProject(old(store.projects), projectId.value).None? ==>
                   project == old(project) && activeFeature == old(activeFeature) && store.projects == old(store.projects)
                   && newFeatureName == old(newFeatureName) && isAddingFeature == old(isAddingFeature))
                && (PS.FindProject(old(store.projects), projectId.value).Some? ==>
                      var k := PS.FindIndex(old(store.projects), (p: Project) => p.id == projectId.value).value;
                      var f := Feature(NatToString(|old(store.projects)[k].features| + 1), old(newFeatureName),
                                       PS.Generated(ToLower(old(newFeatureName)), d));
                      && store.projects == old(store.projects)[k := old(store.projects)[k].(features := old(store.projects)[k].features + [f])]
                      && project == (if old(project).None? then None
                                     else Some(old(project).value.(features := old(project).value.features + [f])))
                      && activeFeature == Some(f.id) && newFeatureName == "" && !isAddingFeature)
    {
      if !Truthy(projectId) || IsBlank(newFeatureName) {
        return;
      }
      var created := store.AddFeature(projectId.value, newFeatureName, d);
      if created.Some? {
        var f := created.value;
        if project.Some? {
          project := Some(project.value.(features := project.value.features + [f]));
        }
        activeFeature := Some(f.id);
        newFeatureName := "";
        isAddingFeature := false;
      }
    }

    /** `handleRemoveFeature`; `confirmed` is the answer to the confirmation
        dialog. */
    method HandleRemoveFeature(store: PS.ProjectStore, featureId: string, confirmed: bool)
      requires store.Valid()
      modifies this, store
      ensures store.Valid()
      ensures error == old(error) && newFeatureName == old(newFeatureName) && isAddingFeature == old(isAddingFeature)
      ensures !Truthy(projectId) || !confirmed ==>
                project == old(project) && activeFeature == old(activeFeature) && store.projects == old(store.projects)
      ensures Truthy(projectId) && confirmed && old(project).None? ==>
                project == old(project) && activeFeature == old(activeFeature)
      ensures Truthy(projectId) && confirmed && old(project).Some? ==>
                var remaining := PS.WithoutFeature(old(project).value.features, featureId);
                project == Some(old(project).value.(features := remaining))
                && activeFeature == NextActive(old(activeFeature), featureId, remaining)
      ensures Truthy(projectId) && confirmed && PS.FindProject(old(store.projects), projectId.value).None? ==>
                store.projects == old(store.projects)
      ensures Truthy(projectId) && confirmed && PS.FindProject(old(store.projects), projectId.value).Some? ==>
                var k := PS.FindIndex(old(store.projects), (p: Project) => p.id == projectId.value).value;
                store.projects == old(store.projects)[k := old(store.projects)[k].(features := PS.WithoutFeature(old(store.projects)[k].features, featureId))]
    {
      if !Truthy(projectId) || !confirmed {
        return;
      }
      store.RemoveFeature(projectId.value, featureId);
      if project.Some? {
        var remaining := PS.WithoutFeature(project.value.features, featureId);
        activeFeature := NextActive(activeFeature, featureId, remaining);
        project := Some(project.value.(features := remaining));
      }
    }
  }
}

=== FILE: project_service.dfy ===
/** The mock project service: an in-memory list of projects, the keyword
    feature extractor, and the resource generator standing in for real
    searches. */
module ProjectService {
  import opened Wrappers
  import opened Text
  import opened Types

  // ---------------------------------------------------------------------
  // Generic lookup

  /** `s.findIndex(p)`, None for -1. */
  function FindIndex<T>(s: seq<T>, p: T -> bool): (r: Option<nat>)
    ensures r.Some? ==> r.value < |s| && p(s[r.value])
    ensures r.Some? ==> forall j :: 0 <= j < r.value ==> !p(s[j])
    ensures r.None? ==> forall j :: 0 <= j < |s| ==> !p(s[j])
  {
    if s == [] then None
    else if p(s[0]) then Some(0)
    else
      var k := FindIndex(s[1..], p);
      if k.None? then None else Some(k.value + 1)
  }

  // ---------------------------------------------------------------------
  // Resource generation

  /** The random draws of one `generateResourcesForFeature` call:
      `floor(random() * 3)` for the count and `floor(random() * 4)` for
      each type. */
  datatype Draws = Draws(extra: nat, types: seq<nat>)

  predicate ValidDraws(d: Draws) {
    d.extra < 3 && |d.types| >= 2 + d.extra && forall i :: 0 <= i < |d.types| ==> d.types[i] < 4
  }

  /** `resourceTypes[k]`. */
  function TypeAt(k: nat): ResourceType
    requires k < 4
  {
    [Documentation, Tutorial, Repository, Template][k]
  }

  /** The i-th generated resource. */
  function GeneratedResource(featureName: string, i: nat, t: ResourceType): Resource {
    Resource(featureName + "-" + NatToString(i), Capitalize(featureName) + " " + TypeName(t),
             "https://example.com/" + featureName + "/" + TypeName(t), t, Unread, None, map[])
  }

  /** What `generateResourcesForFeature` produces for the given draws. */
  function Generated(featureName: string, d: Draws): (r: seq<Resource>)
    requires ValidDraws(d)
    ensures 2 <= |r| <= 4 && |r| == 2 + d.extra
    ensures forall i :: 0 <= i < |r| ==> r[i] == GeneratedResource(featureName, i, TypeAt(d.types[i]))
  {
    seq(2 + d.extra, i requires 0 <= i < 2 + d.extra => GeneratedResource(featureName, i, TypeAt(d.types[i])))
  }

  /** Generated resources are unread, carry distinct ids `<name>-<i>`, and
      point at `https://example.com/<name>/<type>`. */
  lemma GeneratedSpec(featureName: string, d: Draws)
    requires ValidDraws(d)
    ensures forall r :: r in Generated(featureName, d) ==> r.status == Unread
    ensures forall r :: r in Generated(featureName, d) ==> r.url == "https://example.com/" + featureName + "/" + TypeName(r.kind)
    ensures forall i, j :: 0 <= i < j < |Generated(featureName, d)| ==> Generated(featureName, d)[i].id != Generated(featureName, d)[j].id
  {
    var g := Generated(featureName, d);
    forall i, j | 0 <= i < j < |g|
      ensures g[i].id != g[j].id
    {
      NatToStringInjective(i, j);
      var p := featureName + "-";
      assert g[i].id == p + NatToString(i) && g[j].id == p + NatToString(j);
      assert (p + NatToString(i))[|p|..] == NatToString(i);
      assert (p + NatToString(j))[|p|..] == NatToString(j);
    }
  }

  /** `generateResourcesForFeature`, the loop that pushes one resource per draw. */
  method GenerateResourcesForFeature(featureName: string, d: Draws) returns (resources: seq<Resource>)
    requires ValidDraws(d)
    ensures resources == Generated(featureName, d)
  {
    var count := 2 + d.extra;
    resources := [];
    var i := 0;
    while i < count
      invariant 0 <= i <= count
      invariant |resources| == i
      invariant forall j :: 0 <= j < i ==> resources[j] == GeneratedResource(featureName, j, TypeAt(d.types[j]))
    {
      var t := TypeAt(d.types[i]);
      var r := Resource(featureName + "-" + NatToString(i), Capitalize(featureName) + " " + TypeName(t),
                        "https://example.com/" + featureName + "/" + TypeName(t), t, Unread, None, map[]);
      assert r == GeneratedResource(featureName, i, t);
      resources := resources + [r];
      i := i + 1;
    }
    assert |resources| == |Generated(featureName, d)|;
  }

  // ---------------------------------------------------------------------
  // Feature extraction

  /** `\w`: an ASCII letter, digit or underscore. */
  predicate WordChar(c: char) { IsDigit(c) || IsUpper(c) || IsLower(c) || c == '_' }

  /** Length of the leading run of word characters. */
  function WordRun(s: string): (n: nat)
    ensures n <= |s|
    ensures forall i :: 0 <= i < n ==> WordChar(s[i])
    ensures n < |s| ==> !WordChar(s[n])
  {
    if s == [] || !WordChar(s[0]) then 0 else 1 + WordRun(s[1..])
  }

  /** `s.match(/\b(\w+)\b/g) || []`: the maximal runs of word characters. */
  function Words(s: string): (ws: seq<string>)
    ensures forall i :: 0 <= i < |ws| ==> ws[i] != [] && forall k :: 0 <= k < |ws[i]| ==> WordChar(ws[i][k])
    decreases |s|
  {
    if s == [] then []
    else if !WordChar(s[0]) then Words(s[1..])
    else
      var n := WordRun(s);
      [s[..n]] + Words(s[n..])
  }

  /** A run of word characters ends where the string does or at a
      non-word character, whatever follows it. */
  lemma {:induction false} WordRunAppend(a: string, t: string)
    requires WordRun(a) < |a| || t == [] || !WordChar(t[0])
    ensures WordRun(a + t) == WordRun(a)
  {
    if a != [] && WordChar(a[0]) {
      assert (a + t)[1..] == a[1..] + t;
      WordRunAppend(a[1..], t);
    }
  }

  /** A string made only of word characters is one word. */
  lemma WordsOfWord(w: string)
    requires w != [] && forall k :: 0 <= k < |w| ==> WordChar(w[k])
    ensures Words(w) == [w]
  {
    assert w == w + [];
    WordRunAppend(w, []);
    assert w[|w|..] == [];
  }

  /** Cutting a concatenation inside its first part. */
  lemma SlicesOfAppend<T>(a: seq<T>, t: seq<T>, n: nat)
    requires n <= |a|
    ensures (a + t)[..n] == a[..n] && (a + t)[n..] == a[n..] + t
  {
  }

  /** A leading non-word character is skipped. */
  lemma WordsAfterNonWord(c: char, t: string)
    requires !WordChar(c)
    ensures Words([c] + t) == Words(t)
  {
    assert ([c] + t)[1..] == t;
  }

  /** A leading run of word characters that ends inside `a`, or where `a`
      ends before a non-word character, is the first word of `a + t`. */
  lemma WordsLeadingRun(a: string, t: string)
    requires a != [] && WordChar(a[0])
    requires WordRun(a) < |a| || t == [] || !WordChar(t[0])
    ensures Words(a + t) == [a[..WordRun(a)]] + Words(a[WordRun(a)..] + t)
  {
    var s := a + t;
    assert s[0] == a[0];
    WordRunAppend(a, t);
    var n := WordRun(a);
    SlicesOfAppend(a, t, n);
    assert Words(s) == [s[..n]] + Words(s[n..]);
  }

  /** The words of `a + t`, where `t` starts with a non-word character,
      are those of `a` followed by those after that character. */
  lemma {:induction false} WordsBeforeSeparator(a: string, t: string)
    requires t != [] && !WordChar(t[0])
    ensures Words(a + t) == Words(a) + Words(t[1..])
    decreases |a|
  {
    if a == [] {
      assert a + t == [t[0]] + t[1..];
      WordsAfterNonWord(t[0], t[1..]);
    } else if !WordChar(a[0]) {
      SlicesOfAppend(a, t, 1);
      assert (a + t)[0] == a[0];
      WordsBeforeSeparator(a[1..], t);
    } else {
      var n := WordRun(a);
      WordsLeadingRun(a, t);
      if n == |a| {
        assert a[n..] + t == [t[0]] + t[1..];
        WordsAfterNonWord(t[0], t[1..]);
        assert Words(a[n..]) == [];
      } else {
        WordsBeforeSeparator(a[n..], t);
        var w := [a[..n]];
        assert w + (Words(a[n..]) + Words(t[1..])) == (w + Words(a[n..])) + Words(t[1..]);
      }
    }
  }

  /** A non-word character separates the words on its two sides: the
      words of `a + [c] + b` are those of `a` followed by those of `b`.
      With WordsOfWord and `Words("") == []` this fixes Words on every
      string: the maximal runs of word characters, in order. */
  lemma WordsSplit(a: string, c: char, b: string)
    requires !WordChar(c)
    ensures Words(a + [c] + b) == Words(a) + Words(b)
  {
    assert a + [c] + b == a + ([c] + b);
    assert ([c] + b)[1..] == b;
    WordsBeforeSeparator(a, [c] + b);
  }

  /** The keyword table, in its declaration order. */
  const FeatureTable: seq<(string, seq<string>)> := [
    ("authentication", ["auth", "login", "signup", "register"]),
    ("database", ["database", "storage", "data", "sql", "nosql"]),
    ("ui", ["ui", "interface", "design", "layout"]),
    ("api", ["api", "endpoint", "rest", "graphql"]),
    ("hosting", ["hosting", "deploy", "server"])
  ]

  /** A table entry is selected when one of its terms is a whole word of
      the lowercased description, or its name occurs anywhere in it. */
  predicate Selects(description: string, entry: (string, seq<string>)) {
    (exists t :: t in entry.1 && t in Words(ToLower(description)))
    || Contains(ToLower(description), entry.0)
  }

  /** The names of the selected entries, in table order. */
  function Matched(description: string, table: seq<(string, seq<string>)>): (names: seq<string>)
    ensures |names| <= |table|
    ensures forall n :: n in names <==> exists e :: e in table && e.0 == n && Selects(description, e)
  {
    if table == [] then []
    else (if Selects(description, table[0]) then [table[0].0] else []) + Matched(description, table[1..])
  }

  /** The features built from the selected names: ids "1".."n" and
      capitalised names. */
  function FeaturesFor(names: seq<string>, draws: seq<Draws>): (fs: seq<Feature>)
    requires |draws| >= |names| && forall i :: 0 <= i < |draws| ==> ValidDraws(draws[i])
    ensures |fs| == |names|
    ensures forall i :: 0 <= i < |fs| ==>
              fs[i] == Feature(NatToString(i + 1), Capitalize(names[i]), Generated(names[i], draws[i]))
  {
    seq(|names|, i requires 0 <= i < |names| =>
      Feature(NatToString(i + 1), Capitalize(names[i]), Generated(names[i], draws[i])))
  }

  /** The loop of `extractFeatures` over the keyword table, collecting the
      names of the selected entries. */
  method SelectFeatureNames(description: string, table: seq<(string, seq<string>)>) returns (names: seq<string>)
    ensures names == Matched(description, table)
  {
    names := [];
    var i := 0;
    while i < |table|
      invariant 0 <= i <= |table|
      invariant names + Matched(description, table[i..]) == Matched(description, table)
    {
      var entry := table[i];
      assert table[i..] == [entry] + table[i + 1..];
      if Selects(description, entry) {
        names := names + [entry.0];
      }
      i := i + 1;
    }
  }

  /** The `map` of `extractFeatures` from selected names to features. */
  method BuildFeatures(names: seq<string>, draws: seq<Draws>) returns (features: seq<Feature>)
    requires |draws| >= |names| && forall i :: 0 <= i < |draws| ==> ValidDraws(draws[i])
    ensures features == FeaturesFor(names, draws)
  {
    features := [];
    var k := 0;
    while k < |names|
      invariant 0 <= k <= |names|
      invariant features == FeaturesFor(names[..k], draws)
    {
      var resources := GenerateResourcesForFeature(names[k], draws[k]);
      features := features + [Feature(NatToString(k + 1), Capitalize(names[k]), resources)];
      k := k + 1;
      assert names[..k] == names[..k - 1] + [names[k - 1]];
    }
    assert names[..k] == names;
  }

  /** `extractFeatures`; `draws[i]` are the random draws of the i-th
      feature's resources. */
  method ExtractFeatures(description: string, draws: seq<Draws>) returns (features: seq<Feature>)
    requires |draws| >= |FeatureTable| && forall i :: 0 <= i < |draws| ==> ValidDraws(draws[i])
    ensures features == FeaturesFor(Matched(description, FeatureTable), draws)
  {
    var names := SelectFeatureNames(description, FeatureTable);
    features := BuildFeatures(names, draws);
  }

  /** With distinct table names the selected names are distinct, so no
      feature is made twice. */
  lemma {:induction false} MatchedDistinct(description: string, table: seq<(string, seq<string>)>)
    requires forall i, j :: 0 <= i < j < |table| ==> table[i].0 != table[j].0
    ensures forall i, j :: 0 <= i < j < |Matched(description, table)| ==>
              Matched(description, table)[i] != Matched(description, table)[j]
  {
    if table != [] {
      MatchedDistinct(description, table[1..]);
      var rest := Matched(description, table[1..]);
      if Selects(description, table[0]) {
        assert table[0].0 !in rest;
      }
    }
  }

  /** The table's names are distinct. */
  lemma TableNamesDistinct()
    ensures forall i, j :: 0 <= i < j < |FeatureTable| ==> FeatureTable[i].0 != FeatureTable[j].0
  {
  }

  /** A description with no word and no name in it selects nothing: in
      particular the empty description yields no features. */
  lemma EmptyDescriptionSelectsNothing(draws: seq<Draws>)
    requires |draws| >= |FeatureTable| && forall i :: 0 <= i < |draws| ==> ValidDraws(draws[i])
    ensures Matched("", FeatureTable) == []
    ensures FeaturesFor(Matched("", FeatureTable), draws) == []
  {
    forall e | e in FeatureTable
      ensures !Selects("", e)
    {
      EmptySelectsNothing(e);
    }
  }

  /** The empty description has no words and contains no non-empty name. */
  lemma EmptySelectsNothing(e: (string, seq<string>))
    requires e.0 != []
    ensures !Selects("", e)
  {
    assert Words(ToLower("")) == [];
    NotContainsWithoutChar(ToLower(""), e.0, e.0[0]);
  }

  /** The feature name is matched as a substring, not as a word: "build"
      selects "ui" and "rapid" selects "api". */
  lemma NamesMatchInsideWords()
    ensures Selects("build", FeatureTable[2])
    ensures Selects("rapid", FeatureTable[3])
  {
    assert ToLower("build") == "build";
    assert OccursAt("build", "ui", 1);
    assert ToLower("rapid") == "rapid";
    assert OccursAt("rapid", "api", 1);
  }

  // ---------------------------------------------------------------------
  // The project store

  /** The first mock project; `createdAt` stands for the creation time. */
  function MockBlog(createdAt: string): (p: Project)
    ensures p.id == "1"
  {
    Project("1", "Blog Platform",
            "A blog platform with authentication, Markdown editor, and comment system.", createdAt,
            [Feature("1", "Authentication",
                     [Resource("1", "Auth0 Documentation", "https://auth0.com/docs", Documentation, Unread, None, map[]),
                      Resource("2", "JWT Authentication in React",
                               "https://blog.logrocket.com/jwt-authentication-in-react-applications/",
                               Tutorial, Unread, None, map[])]),
             Feature("2", "Markdown Editor",
                     [Resource("3", "React Markdown", "https://github.com/remarkjs/react-markdown",
                               Repository, Unread, None, map[])])])
  }

  /** The second mock project. */
  function MockShop(createdAt: string): (p: Project)
    ensures p.id == "2"
  {
    Project("2", "E-commerce App",
            "An e-commerce platform with product catalog, cart, and checkout functionality.", createdAt,
            [Feature("3", "Product Catalog",
                     [Resource("4", "Building a Product Catalog with React", "https://example.com/product-catalog",
                               Tutorial, Unread, None, map[])])])
  }

  /** The two mock projects the store starts with. */
  function MockProjects(createdAt: string): (ps: seq<Project>)
    ensures |ps| == 2
  {
    [MockBlog(createdAt), MockShop(createdAt)]
  }

  /** Project i has id i + 1, as `createProject` numbers them. */
  predicate NumberedIds(ps: seq<Project>) {
    forall i :: 0 <= i < |ps| ==> ps[i].id == NatToString(i + 1)
  }

  /** `projects.find(p => p.id === id) || null`. */
  function FindProject(ps: seq<Project>, id: string): (r: Option<Project>)
    ensures r.Some? ==> r.value in ps && r.value.id == id
    ensures r.None? <==> forall p :: p in ps ==> p.id != id
  {
    var k := FindIndex(ps, (p: Project) => p.id == id);
    if k.None? then None else Some(ps[k.value])
  }

  /** With numbered ids, the project with id `NatToString(i + 1)` is the i-th. */
  lemma FindNumbered(ps: seq<Project>, i: nat)
    requires NumberedIds(ps) && i < |ps|
    ensures FindProject(ps, NatToString(i + 1)) == Some(ps[i])
  {
    var r := FindProject(ps, NatToString(i + 1));
    assert ps[i] in ps;
    var k :| 0 <= k < |ps| && ps[k] == r.value;
    NatToStringInjective(k + 1, i + 1);
  }

  /** `updateResourceStatus` on the list: the first matching resource of the
      first matching feature of the first matching project. */
  function WithResourceStatus(ps: seq<Project>, projectId: string, featureId: string, resourceId: string,
                              status: ResourceStatus): seq<Project>
  {
    var pi := FindIndex(ps, (p: Project) => p.id == projectId);
    if pi.None? then ps
    else
      var fs := ps[pi.value].features;
      var fi := FindIndex(fs, (f: Feature) => f.id == featureId);
      if fi.None? then ps
      else
        var rs := fs[fi.value].resources;
        var ri := FindIndex(rs, (r: Resource) => r.id == resourceId);
        if ri.None? then ps
        else
          var rs' := rs[ri.value := rs[ri.value].(status := status)];
          var fs' := fs[fi.value := fs[fi.value].(resources := rs')];
          ps[pi.value := ps[pi.value].(features := fs')]
  }

  /** The status update changes one resource's status and nothing else. */
  lemma WithResourceStatusSpec(ps: seq<Project>, projectId: string, featureId: string, resourceId: string,
                               status: ResourceStatus)
    ensures |WithResourceStatus(ps, projectId, featureId, resourceId, status)| == |ps|
    ensures (forall p :: p in ps ==> p.id != projectId) ==> WithResourceStatus(ps, projectId, featureId, resourceId, status) == ps
    ensures forall i :: 0 <= i < |ps| ==>
              var p' := WithResourceStatus(ps, projectId, featureId, resourceId, status)[i];
              p'.id == ps[i].id && p'.name == ps[i].name && p'.description == ps[i].description
              && |p'.features| == |ps[i].features|
              && forall j :: 0 <= j < |p'.features| ==>
                   p'.features[j].id == ps[i].features[j].id && p'.features[j].name == ps[i].features[j].name
                   && |p'.features[j].resources| == |ps[i].features[j].resources|
                   && forall k :: 0 <= k < |p'.features[j].resources| ==>
                        var r, r' := ps[i].features[j].resources[k], p'.features[j].resources[k];
                        r' == r || (r' == r.(status := status) && ps[i].id == projectId
                                    && ps[i].features[j].id == featureId && r.id == resourceId)
  {
    var pi := FindIndex(ps, (p: Project) => p.id == projectId);
    if pi.Some? {
      var fs := ps[pi.value].features;
      var fi := FindIndex(fs, (f: Feature) => f.id == featureId);
      if fi.Some? {
        var rs := fs[fi.value].resources;
        var ri := FindIndex(rs, (r: Resource) => r.id == resourceId);
      }
    }
  }

  /** Position i holds the first element of the list with the given id. */
  predicate FirstProjectAt(ps: seq<Project>, id: string, i: nat) {
    i < |ps| && ps[i].id == id && forall j :: 0 <= j < i ==> ps[j].id != id
  }

  predicate FirstFeatureAt(fs: seq<Feature>, id: string, i: nat) {
    i < |fs| && fs[i].id == id && forall j :: 0 <= j < i ==> fs[j].id != id
  }

  predicate FirstResourceAt(rs: seq<Resource>, id: string, i: nat) {
    i < |rs| && rs[i].id == id && forall j :: 0 <= j < i ==> rs[j].id != id
  }

  /** What the update does once the first project with the id is at `pi`:
      nothing when it has no feature with the id, nothing when the first
      such feature (at `fi`) has no resource with the id, and otherwise the
      first such resource (at `ri`) takes the new status, with every other
      project, feature, resource and field left as it was. */
  lemma WithResourceStatusEffect(ps: seq<Project>, projectId: string, featureId: string, resourceId: string,
                                 status: ResourceStatus, pi: nat, fi: nat, ri: nat)
    requires FirstProjectAt(ps, projectId, pi)
    ensures (forall j :: 0 <= j < |ps[pi].features| ==> ps[pi].features[j].id != featureId) ==>
              WithResourceStatus(ps, projectId, featureId, resourceId, status) == ps
    ensures FirstFeatureAt(ps[pi].features, featureId, fi)
            && (forall k :: 0 <= k < |ps[pi].features[fi].resources| ==> ps[pi].features[fi].resources[k].id != resourceId) ==>
              WithResourceStatus(ps, projectId, featureId, resourceId, status) == ps
    ensures FirstFeatureAt(ps[pi].features, featureId, fi)
            && FirstResourceAt(ps[pi].features[fi].resources, resourceId, ri) ==>
              var fs := ps[pi].features;
              var rs := fs[fi].resources;
              WithResourceStatus(ps, projectId, featureId, resourceId, status)
                == ps[pi := ps[pi].(features := fs[fi := fs[fi].(resources := rs[ri := rs[ri].(status := status)])])]
  {
    var k := FindIndex(ps, (p: Project) => p.id == projectId);
    assert k == Some(pi);
  }

  /** A project's features after `removeFeature`: every feature with the id
      is dropped, the others keep their order. */
  function WithoutFeature(fs: seq<Feature>, featureId: string): (r: seq<Feature>)
    ensures forall f :: f in r <==> f in fs && f.id != featureId
    ensures |r| <= |fs|
  {
    if fs == [] then []
    else (if fs[0].id != featureId then [fs[0]] else []) + WithoutFeature(fs[1..], featureId)
  }

  /** `filter` keeps order: removing from a concatenation removes from each
      part in turn. */
  lemma {:induction false} WithoutFeatureAppend(a: seq<Feature>, b: seq<Feature>, featureId: string)
    ensures WithoutFeature(a + b, featureId) == WithoutFeature(a, featureId) + WithoutFeature(b, featureId)
  {
    if a == [] {
      assert a + b == b;
    } else {
      assert (a + b)[1..] == a[1..] + b;
      WithoutFeatureAppend(a[1..], b, featureId);
    }
  }

  /** A single feature stays exactly when it is not the one removed. */
  lemma WithoutFeatureSingle(f: Feature, featureId: string)
    ensures WithoutFeature([f], featureId) == if f.id != featureId then [f] else []
  {
    assert [f][1..] == [];
  }

  /** The in-memory store (`mockProjects`). */
  class ProjectStore {
    var projects: seq<Project>

    predicate Valid()
      reads this
    {
      NumberedIds(projects)
    }

    constructor(createdAt: string)
      ensures projects == MockProjects(createdAt)
      ensures Valid()
    {
      projects := MockProjects(createdAt);
      MockProjectsNumbered(createdAt);
    }

    /** `getProjects`: the whole list. */
    method GetProjects() returns (r: seq<Project>)
      requires Valid()
      ensures r == projects
      ensures forall i :: 0 <= i < |r| ==> r[i].id == NatToString(i + 1)
    {
      r := projects;
    }

    /** `getProjectById`. */
    method GetProjectById(id: string) returns (r: Option<Project>)
      ensures r == FindProject(projects, id)
      ensures r.Some? ==> r.value in projects && r.value.id == id
      ensures r.None? ==> forall p :: p in projects ==> p.id != id
    {
      r := FindProject(projects, id);
    }

    /** `createProject`: extract the features, number the project after
      the last one, append it. */
    method CreateProject(name: string, description: string, createdAt: string, draws: seq<Draws>) returns (p: Project)
      requires Valid()
      requires |draws| >= |FeatureTable| && forall i :: 0 <= i < |draws| ==> ValidDraws(draws[i])
      modifies this
      ensures Valid()
      ensures p == Project(NatToString(|old(projects)| + 1), name, description, createdAt,
                           FeaturesFor(Matched(description, FeatureTable), draws))
      ensures projects == old(projects) + [p]
      ensures FindProject(projects, p.id) == Some(p)
    {
      var features := ExtractFeatures(description, draws);
      p := Project(NatToString(|projects| + 1), name, description, createdAt, features);
      projects := projects + [p];
      FindNumbered(projects, |projects| - 1);
    }

    /** `updateResourceStatus`. */
    method UpdateResourceStatus(projectId: string, featureId: string, resourceId: string, status: ResourceStatus)
      requires Valid()
      modifies this
      ensures Valid()
      ensures projects == WithResourceStatus(old(projects), projectId, featureId, resourceId, status)
    {
      WithResourceStatusSpec(projects, projectId, featureId, resourceId, status);
      projects := WithResourceStatus(projects, projectId, featureId, resourceId, status);
    }

    /** `addFeature`: None for an unknown project, else a feature numbered
      after the project's features, appended to them. */
    method AddFeature(projectId: string, name: string, d: Draws) returns (f: Option<Feature>)
      requires Valid() && ValidDraws(d)
      modifies this
      ensures Valid()
      ensures FindProject(old(projects), projectId).None? ==> f.None? && projects == old(projects)
      ensures FindProject(old(projects), projectId).Some? ==>
                var k := FindIndex(old(projects), (p: Project) => p.id == projectId).value;
                f == Some(Feature(NatToString(|old(projects)[k].features| + 1), name, Generated(ToLower(name), d)))
                && projects == old(projects)[k := old(projects)[k].(features := old(projects)[k].features + [f.value])]
    {
      var k := FindIndex(projects, (p: Project) => p.id == projectId);
      if k.None? {
        return None;
      }
      var project := projects[k.value];
      var resources := GenerateResourcesForFeature(ToLower(name), d);
      var feature := Feature(NatToString(|project.features| + 1), name, resources);
      projects := projects[k.value := project.(features := project.features + [feature])];
      f := Some(feature);
    }

    /** `removeFeature`. */
    method RemoveFeature(projectId: string, featureId: string)
      requires Valid()
      modifies this
      ensures Valid()
      ensures FindProject(old(projects), projectId).None? ==> projects == old(projects)
      ensures FindProject(old(projects), projectId).Some? ==>
                var k := FindIndex(old(projects), (p: Project) => p.id == projectId).value;
                projects == old(projects)[k := old(projects)[k].(features := WithoutFeature(old(projects)[k].features, featureId))]
    {
      var k := FindIndex(projects, (p: Project) => p.id == projectId);
      if k.None? {
        return;
      }
      var project := projects[k.value];
      projects := projects[k.value := project.(features := WithoutFeature(project.features, featureId))];
    }
  }

  /** The store starts with numbered ids. */
  lemma MockProjectsNumbered(createdAt: string)
    ensures NumberedIds(MockProjects(createdAt))
  {
    var ps := MockProjects(createdAt);
    assert ps[0].id == "1" == NatToString(1);
    assert ps[1].id == "2" == NatToString(2);
  }
}

=== FILE: rate_limiter.dfy ===
/** The per-source fixed-window rate limiter.  A static table gives each
    source a budget of `maxRequests` per `windowMs`; a mutable table holds,
    per source, the requests counted in the current window and the instant
    the window ends.  A window is over only once `now > resetTime`.  The
    clock is an argument of every operation. */
module RateLimit {
  import opened Wrappers

  datatype LimitConfig = LimitConfig(maxRequests: nat, windowMs: nat)
  datatype Entry = Entry(count: nat, resetTime: int)

  const MinuteMs: nat := 60 * 1000
  const HourMs: nat := 60 * 60 * 1000
  const DayMs: nat := 24 * 60 * 60 * 1000

  /** The budgets the limiter is created with. */
  const DefaultLimits: map<string, LimitConfig> := map[
    "github" := LimitConfig(5000, HourMs),
    "gitlab" := LimitConfig(2000, HourMs),
    "youtube" := LimitConfig(10000, DayMs),
    "stackoverflow" := LimitConfig(300, DayMs),
    "googleSearch" := LimitConfig(100, DayMs),
    "reddit" := LimitConfig(60, MinuteMs),
    "devto" := LimitConfig(1000, HourMs),
    "medium" := LimitConfig(100, HourMs),
    "mdn" := LimitConfig(1000, HourMs),
    "codepen" := LimitConfig(60, MinuteMs),
    "codesandbox" := LimitConfig(100, HourMs),
    "npm" := LimitConfig(1000, HourMs)]

  /** True when the source has an entry whose window is over at `now`. */
  predicate Expired(requests: map<string, Entry>, apiName: string, now: int) {
    apiName in requests && now > requests[apiName].resetTime
  }

  /** The answer of `canMakeRequest` and the request table it leaves. */
  datatype Verdict = Verdict(allowed: bool, requests: map<string, Entry>)

  /** `canMakeRequest`: an unconfigured source is always allowed; an expired
      entry is dropped and the request allowed; otherwise the request is
      allowed while the window's count is below the maximum. */
  function Check(limits: map<string, LimitConfig>, requests: map<string, Entry>, apiName: string, now: int): (v: Verdict)
    ensures apiName !in limits ==> v == Verdict(true, requests)
    ensures Expired(requests, apiName, now) ==> v.allowed
    ensures v.requests == requests || v.requests == requests - {apiName}
    ensures apiName in limits && Expired(requests, apiName, now) ==> v.requests == requests - {apiName}
    ensures !v.allowed <==>
              apiName in limits && apiName in requests && !Expired(requests, apiName, now)
              && requests[apiName].count >= limits[apiName].maxRequests
  {
    if apiName !in limits then Verdict(true, requests)
    else if Expired(requests, apiName, now) then Verdict(true, requests - {apiName})
    else if apiName !in requests || requests[apiName].count < limits[apiName].maxRequests then Verdict(true, requests)
    else Verdict(false, requests)
  }

  /** `recordRequest`: an unconfigured source is not tracked; a missing or
      expired entry starts a new window holding one request; otherwise the
      count grows by one and the window end stays. */
  function Record(limits: map<string, LimitConfig>, requests: map<string, Entry>, apiName: string, now: int): (r: map<string, Entry>)
    ensures apiName !in limits ==> r == requests
    ensures apiName in limits ==> apiName in r
    ensures apiName in limits && (apiName !in requests || Expired(requests, apiName, now)) ==>
              r[apiName] == Entry(1, now + limits[apiName].windowMs)
    ensures apiName in limits && apiName in requests && !Expired(requests, apiName, now) ==>
              r[apiName] == requests[apiName].(count := requests[apiName].count + 1)
    ensures r - {apiName} == requests - {apiName}
  {
    if apiName !in limits then requests
    else if apiName !in requests || Expired(requests, apiName, now) then
      requests[apiName := Entry(1, now + limits[apiName].windowMs)]
    else
      requests[apiName := requests[apiName].(count := requests[apiName].count + 1)]
  }

  /** A request budget: `Infinity` for an unconfigured source. */
  datatype Remaining = Unlimited | Finite(n: nat)

  /** `getRemainingRequests`. */
  function RemainingOf(limits: map<string, LimitConfig>, requests: map<string, Entry>, apiName: string, now: int): (r: Remaining)
    ensures apiName !in limits <==> r == Unlimited
    ensures apiName in limits ==> r.n <= limits[apiName].maxRequests
    ensures apiName in limits && (apiName !in requests || Expired(requests, apiName, now)) ==>
              r == Finite(limits[apiName].maxRequests)
    ensures apiName in limits && apiName in requests && !Expired(requests, apiName, now) ==>
              (requests[apiName].count <= limits[apiName].maxRequests ==>
                 r.n + requests[apiName].count == limits[apiName].maxRequests)
              && (requests[apiName].count >= limits[apiName].maxRequests ==> r.n == 0)
  {
    if apiName !in limits then Unlimited
    else if apiName !in requests || Expired(requests, apiName, now) then Finite(limits[apiName].maxRequests)
    else if limits[apiName].maxRequests > requests[apiName].count then
      Finite(limits[apiName].maxRequests - requests[apiName].count)
    else Finite(0)
  }

  /** `getResetTime`: the end of the recorded window, expired or not. */
  function ResetTimeOf(requests: map<string, Entry>, apiName: string): (r: Option<int>)
    ensures r.Some? <==> apiName in requests
    ensures r.Some? ==> r.value == requests[apiName].resetTime
  {
    if apiName in requests then Some(requests[apiName].resetTime) else None
  }

  /** For a configured source with a positive budget, a request is allowed
      exactly when some budget remains. */
  lemma AllowedIffRemaining(limits: map<string, LimitConfig>, requests: map<string, Entry>, apiName: string, now: int)
    requires apiName in limits && limits[apiName].maxRequests > 0
    ensures Check(limits, requests, apiName, now).allowed <==> RemainingOf(limits, requests, apiName, now).n > 0
  {
  }

  /** Records one request per instant of `times`, in order. */
  function RecordAll(limits: map<string, LimitConfig>, requests: map<string, Entry>, apiName: string, times: seq<int>): (r: map<string, Entry>)
    ensures r - {apiName} == requests - {apiName}
    decreases |times|
  {
    if times == [] then requests
    else RecordAll(limits, Record(limits, requests, apiName, times[0]), apiName, times[1..])
  }

  /** Requests recorded while a window is open only add to its count. */
  lemma {:induction false} RecordWithinWindow(limits: map<string, LimitConfig>, requests: map<string, Entry>, apiName: string, times: seq<int>)
    requires apiName in limits && apiName in requests
    requires forall i :: 0 <= i < |times| ==> times[i] <= requests[apiName].resetTime
    ensures apiName in RecordAll(limits, requests, apiName, times)
    ensures RecordAll(limits, requests, apiName, times)[apiName]
         == Entry(requests[apiName].count + |times|, requests[apiName].resetTime)
    decreases |times|
  {
    if times != [] {
      var next := Record(limits, requests, apiName, times[0]);
      RecordWithinWindow(limits, next, apiName, times[1..]);
    }
  }

  /** Once `maxRequests` requests are recorded in one window (the first
      opening it, every later one no later than its end), further requests
      are refused until the window is over. */
  lemma FullWindowRefuses(limits: map<string, LimitConfig>, requests: map<string, Entry>, apiName: string,
                          times: seq<int>, now: int)
    requires apiName in limits && |times| == limits[apiName].maxRequests > 0
    requires apiName !in requests || Expired(requests, apiName, times[0])
    requires forall i :: 0 <= i < |times| ==> times[0] <= times[i] <= times[0] + limits[apiName].windowMs
    requires times[0] <= now <= times[0] + limits[apiName].windowMs
    ensures !Check(limits, RecordAll(limits, requests, apiName, times), apiName, now).allowed
    ensures RemainingOf(limits, RecordAll(limits, requests, apiName, times), apiName, now) == Finite(0)
  {
    var first := Record(limits, requests, apiName, times[0]);
    assert first[apiName] == Entry(1, times[0] + limits[apiName].windowMs);
    RecordWithinWindow(limits, first, apiName, times[1..]);
  }

  /** Checking first and recording later never takes a window past its budget. */
  lemma CheckThenRecordWithinBudget(limits: map<string, LimitConfig>, requests: map<string, Entry>, apiName: string,
                                    now: int, later: int)
    requires apiName in limits && limits[apiName].maxRequests > 0
    requires now <= later
    requires apiName in requests ==> requests[apiName].count <= limits[apiName].maxRequests
    requires Check(limits, requests, apiName, now).allowed
    ensures Record(limits, Check(limits, requests, apiName, now).requests, apiName, later)[apiName].count
         <= limits[apiName].maxRequests
  {
  }

  class RateLimiter {
    const limits: map<string, LimitConfig>
    var requests: map<string, Entry>

    /** Entries exist only for configured sources and hold at least one request. */
    ghost predicate Valid()
      reads this
    {
      forall k :: k in requests ==> k in limits && requests[k].count >= 1
    }

    constructor()
      ensures limits == DefaultLimits && requests == map[]
      ensures Valid()
    {
      limits := DefaultLimits;
      requests := map[];
    }

    method CanMakeRequest(apiName: string, now: int) returns (ok: bool)
      requires Valid()
      modifies this
      ensures Valid()
      ensures Verdict(ok, requests) == Check(limits, old(requests), apiName, now)
    {
      if apiName !in limits {
        return true;
      }
      if apiName in requests && now > requests[apiName].resetTime {
        requests := requests - {apiName};
        return true;
      }
      ok := apiName !in requests || requests[apiName].count < limits[apiName].maxRequests;
    }

    method RecordRequest(apiName: string, now: int)
      requires Valid()
      modifies this
      ensures Valid()
      ensures requests == Record(limits, old(requests), apiName, now)
    {
      if apiName !in limits {
        return;
      }
      if apiName !in requests || now > requests[apiName].resetTime {
        requests := requests[apiName := Entry(1, now + limits[apiName].windowMs)];
      } else {
        var entry := requests[apiName];
        requests := requests[apiName := entry.(count := entry.count + 1)];
      }
    }

    method GetRemainingRequests(apiName: string, now: int) returns (r: Remaining)
      ensures r == RemainingOf(limits, requests, apiName, now)
    {
      if apiName !in limits {
        return Unlimited;
      }
      var max := limits[apiName].maxRequests;
      if apiName !in requests || now > requests[apiName].resetTime {
        return Finite(max);
      }
      r := if max > requests[apiName].count then Finite(max - requests[apiName].count) else Finite(0);
    }

    method GetResetTime(apiName: string) returns (r: Option<int>)
      ensures r == ResetTimeOf(requests, apiName)
    {
      r := if apiName in requests then Some(requests[apiName].resetTime) else None;
    }
  }
}

=== FILE: reddit_service.dfy ===
/** The Reddit adapter: the cached OAuth token, the post searches that
    answer [] on any failure, and the post normaliser. */
module RedditService {
  import opened Wrappers
  import opened Text
  import opened Types
  import opened ApiErrors

  /** The fields of a post the adapter reads. */
  datatype RedditPost = RedditPost(
    id: string,
    title: string,
    permalink: string,
    author: string,
    score: int,
    numComments: int,
    subreddit: string,
    selftext: string)

  /** `formatPostAsResource`. */
  function FormatPostAsResource(p: RedditPost): (r: Resource)
    ensures r.id == p.id && r.title == p.title
    ensures r.url == "https://www.reddit.com" + p.permalink
    ensures r.kind == Documentation && r.status == Unread
    ensures r.description == Some(Truncate(p.selftext, 200))
    ensures |r.description.value| <= 203
    ensures |p.selftext| <= 200 ==> r.description.value == p.selftext
    ensures |p.selftext| > 200 ==> r.description.value == p.selftext[..200] + "..."
    ensures r.extra == map["author" := Str(p.author), "source" := Str("r/" + p.subreddit),
                           "score" := Num(p.score), "comments" := Num(p.numComments)]
  {
    Resource(p.id, p.title, "https://www.reddit.com" + p.permalink, Documentation, Unread,
      Some(Truncate(p.selftext, 200)),
      map["author" := Str(p.author), "source" := Str("r/" + p.subreddit),
          "score" := Num(p.score), "comments" := Num(p.numComments)])
  }

  /** The token fields of the service object. */
  datatype TokenCache = TokenCache(accessToken: Option<string>, tokenExpiry: int)

  /** The body of the token endpoint's answer. */
  datatype TokenBody = TokenBody(accessToken: string, expiresIn: int)

  /** The cached token may be reused: it is set, non-empty, and `now` is
      before its expiry. */
  predicate Fresh(c: TokenCache, now: int) {
    c.accessToken.Some? && c.accessToken.value != "" && now < c.tokenExpiry
  }

  /** `getAccessToken`: reuse a fresh token, or ask for a new one; `now` is
      the clock at the freshness check and `later` the clock when the
      answer is stored. */
  function TokenStep(c: TokenCache, now: int, later: int, response: FetchOutcome<TokenBody>): (r: (Result<string, Thrown>, TokenCache))
    ensures Fresh(c, now) ==> r == (Success(c.accessToken.value), c)
    ensures !Fresh(c, now) && response.FetchRejected? ==> r == (Failure(response.error), c)
    ensures !Fresh(c, now) && response.Responded? && !Ok(response.response) ==>
              r == (Failure(Thrown("Error", "Reddit API error: " + IntToString(response.response.status), None)), c)
    ensures !Fresh(c, now) && response.Responded? && Ok(response.response) ==>
              r.0 == Success(response.response.body.accessToken)
              && r.1 == TokenCache(Some(response.response.body.accessToken), later + response.response.body.expiresIn * 1000)
  {
    if Fresh(c, now) then (Success(c.accessToken.value), c)
    else match response
      case FetchRejected(e) => (Failure(e), c)
      case Responded(resp) =>
        if !Ok(resp) then (Failure(Thrown("Error", "Reddit API error: " + IntToString(resp.status), None)), c)
        else
          var body := resp.body;
          (Success(body.accessToken), TokenCache(Some(body.accessToken), later + body.expiresIn * 1000))
  }

  /** A token obtained with a positive lifetime is reused by every call
      made before it expires, whatever that call would have received. */
  lemma NewTokenIsReused(c: TokenCache, now: int, later: int, response: FetchOutcome<TokenBody>,
                         now2: int, later2: int, response2: FetchOutcome<TokenBody>)
    requires !Fresh(c, now) && response.Responded? && Ok(response.response)
    requires response.response.body.accessToken != ""
    requires now2 < later + response.response.body.expiresIn * 1000
    ensures TokenStep(TokenStep(c, now, later, response).1, now2, later2, response2)
         == (Success(response.response.body.accessToken), TokenStep(c, now, later, response).1)
  {
  }

  /** A failed refresh leaves the cache as it was, so the next call asks again. */
  lemma FailedRefreshChangesNothing(c: TokenCache, now: int, later: int, response: FetchOutcome<TokenBody>)
    requires TokenStep(c, now, later, response).0.Failure?
    ensures TokenStep(c, now, later, response).1 == c
    ensures !Fresh(c, now)
  {
  }

  /** A search listing; `data` is None when the body lacks `data.children`. */
  datatype Listing = Listing(data: Option<seq<RedditPost>>)

  /** The posts one search yields given the token outcome: [] when the
      token or the fetch fails, and also when an ok body lacks
      `data.children`, whose read throws inside the same `try`. */
  function ListingPosts(token: Result<string, Thrown>, response: FetchOutcome<Listing>): (r: seq<RedditPost>)
    ensures token.Failure? ==> r == []
    ensures !(response.Responded? && Ok(response.response)) ==> r == []
    ensures token.Success? && response.Responded? && Ok(response.response) && response.response.body.data.Some?
            ==> r == response.response.body.data.value
    ensures token.Success? && response.Responded? && Ok(response.response) && response.response.body.data.None?
            ==> r == []
  {
    if token.Failure? then []
    else match response
      case FetchRejected(_) => []
      case Responded(resp) =>
        if !Ok(resp) || resp.body.data.None? then [] else resp.body.data.value
  }

  /** The service object with its token fields. */
  class RedditClient {
    var accessToken: Option<string>
    var tokenExpiry: int

    function Cache(): TokenCache
      reads this
    {
      TokenCache(accessToken, tokenExpiry)
    }

    constructor()
      ensures Cache() == TokenCache(None, 0)
    {
      accessToken := None;
      tokenExpiry := 0;
    }

    method GetAccessToken(now: int, later: int, response: FetchOutcome<TokenBody>) returns (r: Result<string, Thrown>)
      modifies this
      ensures (r, Cache()) == TokenStep(old(Cache()), now, later, response)
    {
      if accessToken.Some? && accessToken.value != "" && now < tokenExpiry {
        return Success(accessToken.value);
      }
      match response {
        case FetchRejected(e) =>
          return Failure(e);
        case Responded(resp) =>
          if !Ok(resp) {
            return Failure(Thrown("Error", "Reddit API error: " + IntToString(resp.status), None));
          }
          accessToken := Some(resp.body.accessToken);
          tokenExpiry := later + resp.body.expiresIn * 1000;
          return Success(resp.body.accessToken);
      }
    }

    /** `searchPosts` (and `getSubredditPosts`, which differs only in the
        URL): get a token, fetch, and answer [] on any failure. */
    method SearchPosts(now: int, later: int, tokenResponse: FetchOutcome<TokenBody>, response: FetchOutcome<Listing>)
      returns (posts: seq<RedditPost>)
      modifies this
      ensures Cache() == TokenStep(old(Cache()), now, later, tokenResponse).1
      ensures posts == ListingPosts(TokenStep(old(Cache()), now, later, tokenResponse).0, response)
    {
      var token := GetAccessToken(now, later, tokenResponse);
      posts := ListingPosts(token, response);
    }
  }
}

=== FILE: resource_service.dfy ===
/** The aggregation service: the settled searches of all sources are
    normalised, concatenated in a fixed order and de-duplicated by URL
    (`searchResourcesForFeature`), or routed to the sources of one type
    (`getResourcesByType`). */
module ResourceService {
  import opened Wrappers
  import opened Text
  import opened Types
  import opened ApiErrors
  import GL = GitLabService
  import Npm = NpmService
  import Mdn = MdnService
  import YT = YouTubeService
  import SO = StackOverflowService
  import Google = GoogleSearchService
  import Reddit = RedditService
  import DevTo = DevToService
  import Medium = MediumService

  // ---------------------------------------------------------------------
  // De-duplication by URL: `rs.filter((r, i, self) => i === self.findIndex(x => x.url === r.url))`

  /** `findIndex(x => x.url === url)`, with |rs| for "not found". */
  function UrlIndex(rs: seq<Resource>, url: string): (k: nat)
    ensures k <= |rs|
    ensures k < |rs| ==> rs[k].url == url
    ensures forall j :: 0 <= j < k ==> rs[j].url != url
  {
    if rs == [] then 0
    else if rs[0].url == url then 0
    else 1 + UrlIndex(rs[1..], url)
  }

  /** Position k holds the first resource with its URL. */
  predicate FirstWithUrl(rs: seq<Resource>, k: nat)
    requires k < |rs|
  {
    UrlIndex(rs, rs[k].url) == k
  }

  /** The positions from `i` on that the filter keeps, in ascending order. */
  function KeptFrom(rs: seq<Resource>, i: nat): (ks: seq<nat>)
    requires i <= |rs|
    ensures forall j :: 0 <= j < |ks| ==> i <= ks[j] < |rs|
    decreases |rs| - i
  {
    if i == |rs| then []
    else if FirstWithUrl(rs, i) then [i] + KeptFrom(rs, i + 1)
    else KeptFrom(rs, i + 1)
  }

  /** The kept positions are exactly the first positions of their URLs, in
      ascending order. */
  lemma {:induction false} KeptFromSpec(rs: seq<Resource>, i: nat)
    requires i <= |rs|
    ensures forall j :: 0 <= j < |KeptFrom(rs, i)| ==> FirstWithUrl(rs, KeptFrom(rs, i)[j])
    ensures forall j, j' :: 0 <= j < j' < |KeptFrom(rs, i)| ==> KeptFrom(rs, i)[j] < KeptFrom(rs, i)[j']
    ensures forall k :: i <= k < |rs| && FirstWithUrl(rs, k) ==> k in KeptFrom(rs, i)
    decreases |rs| - i
  {
    if i < |rs| {
      KeptFromSpec(rs, i + 1);
      var rest := KeptFrom(rs, i + 1);
      if FirstWithUrl(rs, i) {
        assert KeptFrom(rs, i) == [i] + rest;
      } else {
        assert KeptFrom(rs, i) == rest;
      }
    }
  }

  /** The de-duplicated list. */
  function Dedup(rs: seq<Resource>): (r: seq<Resource>)
    ensures |r| == |KeptFrom(rs, 0)| <= |rs|
    ensures forall j :: 0 <= j < |r| ==> r[j] == rs[KeptFrom(rs, 0)[j]]
  {
    var ks := KeptFrom(rs, 0);
    assert |ks| <= |rs| by { KeptBound(rs, 0); }
    seq(|ks|, j requires 0 <= j < |ks| => rs[ks[j]])
  }

  lemma {:induction false} KeptBound(rs: seq<Resource>, i: nat)
    requires i <= |rs|
    ensures |KeptFrom(rs, i)| <= |rs| - i
    decreases |rs| - i
  {
    if i < |rs| {
      KeptBound(rs, i + 1);
    }
  }

  /** The de-duplicated list has no two resources with the same URL, keeps
      the first resource of every URL of the input, and keeps input order. */
  lemma DedupSpec(rs: seq<Resource>)
    ensures forall a, b :: 0 <= a < b < |Dedup(rs)| ==> Dedup(rs)[a].url != Dedup(rs)[b].url
    ensures forall k :: 0 <= k < |rs| ==> rs[UrlIndex(rs, rs[k].url)] in Dedup(rs)
    ensures forall r :: r in Dedup(rs) ==> r in rs
  {
    KeptFromSpec(rs, 0);
    var ks, d := KeptFrom(rs, 0), Dedup(rs);
    forall a, b | 0 <= a < b < |d|
      ensures d[a].url != d[b].url
    {
      assert ks[a] < ks[b];
      assert FirstWithUrl(rs, ks[a]) && FirstWithUrl(rs, ks[b]);
    }
    forall k | 0 <= k < |rs|
      ensures rs[UrlIndex(rs, rs[k].url)] in d
    {
      var f := UrlIndex(rs, rs[k].url);
      assert FirstWithUrl(rs, f);
      var j :| 0 <= j < |ks| && ks[j] == f;
      assert d[j] == rs[f];
    }
  }

  /** An input without repeated URLs passes through unchanged. */
  lemma DedupOfDistinct(rs: seq<Resource>)
    requires forall a, b :: 0 <= a < b < |rs| ==> rs[a].url != rs[b].url
    ensures Dedup(rs) == rs
  {
    forall k | 0 <= k < |rs|
      ensures FirstWithUrl(rs, k)
    {
      var f := UrlIndex(rs, rs[k].url);
    }
    KeptAll(rs, 0);
  }

  lemma {:induction false} KeptAll(rs: seq<Resource>, i: nat)
    requires i <= |rs|
    requires forall k :: 0 <= k < |rs| ==> FirstWithUrl(rs, k)
    ensures |KeptFrom(rs, i)| == |rs| - i
    ensures forall j :: 0 <= j < |rs| - i ==> KeptFrom(rs, i)[j] == i + j
    decreases |rs| - i
  {
    if i < |rs| {
      KeptAll(rs, i + 1);
      assert FirstWithUrl(rs, i);
      var rest := KeptFrom(rs, i + 1);
      assert KeptFrom(rs, i) == [i] + rest;
    }
  }

  lemma {:induction false} UrlIndexAppend(a: seq<Resource>, b: seq<Resource>, url: string)
    requires UrlIndex(a, url) < |a|
    ensures UrlIndex(a + b, url) == UrlIndex(a, url)
  {
    if a[0].url != url {
      assert (a + b)[1..] == a[1..] + b;
      UrlIndexAppend(a[1..], b, url);
    }
  }

  lemma {:induction false} KeptAppend(a: seq<Resource>, b: seq<Resource>, i: nat)
    requires i <= |a|
    ensures KeptFrom(a + b, i) == KeptFrom(a, i) + KeptFrom(a + b, |a|)
    decreases |a| - i
  {
    if i < |a| {
      KeptAppend(a, b, i + 1);
      UrlIndexAppend(a, b, a[i].url);
      assert (a + b)[i] == a[i];
    }
  }

  /** What a list keeps survives unchanged at the front when more resources
      are appended: earlier sources win every URL collision. */
  lemma DedupPrefix(a: seq<Resource>, b: seq<Resource>)
    ensures |Dedup(a)| <= |Dedup(a + b)|
    ensures Dedup(a + b)[..|Dedup(a)|] == Dedup(a)
  {
    KeptAppend(a, b, 0);
    var ka := KeptFrom(a, 0);
    forall j | 0 <= j < |ka|
      ensures Dedup(a + b)[j] == Dedup(a)[j]
    {
      assert KeptFrom(a + b, 0)[j] == ka[j];
    }
  }

  // ---------------------------------------------------------------------
  // Settled searches and normalisers

  /** A `Promise.allSettled` entry. */
  datatype Settled<T> = Fulfilled(value: T) | Rejected(reason: Thrown)

  /** `result.status === 'fulfilled' ? result.value : []` for a search whose
      value may be `undefined` (None). */
  function Listed<T>(s: Settled<Option<seq<T>>>): (r: Option<seq<T>>)
    ensures s.Rejected? ==> r == Some([])
    ensures s.Fulfilled? ==> r == s.value
  {
    if s.Rejected? then Some([]) else s.value
  }

  /** The same for a search whose value is always a list. */
  function ListedAll<T>(s: Settled<seq<T>>): (r: seq<T>)
    ensures s.Rejected? ==> r == []
    ensures s.Fulfilled? ==> r == s.value
  {
    if s.Rejected? then [] else s.value
  }

  /** The fields of a GitHub repository the service reads. */
  datatype GitHubRepo = GitHubRepo(
    id: nat,
    name: string,
    htmlUrl: string,
    description: Option<string>,
    stargazersCount: int,
    language: Option<string>)

  function LanguageValue(l: Option<string>): Value {
    if l.Some? then Str(l.value) else Null
  }

  /** The inline GitHub mapping; `fallback` is the description used when
      the repository has none. */
  function GitHubResource(repo: GitHubRepo, kind: ResourceType, fallback: string): (r: Resource)
    ensures r.id == NatToString(repo.id) && r.title == repo.name && r.url == repo.htmlUrl
    ensures r.kind == kind && r.status == Unread
    ensures r.description == Some(OrElse(repo.description, fallback))
    ensures r.extra == map["stars" := Num(repo.stargazersCount), "language" := LanguageValue(repo.language)]
  {
    Resource(NatToString(repo.id), repo.name, repo.htmlUrl, kind, Unread, Some(OrElse(repo.description, fallback)),
      map["stars" := Num(repo.stargazersCount), "language" := LanguageValue(repo.language)])
  }

  /** The inline Stack Overflow mapping of `getResourcesByType`, which
      differs from the adapter's: a `votes` field and a fixed source. */
  function StackOverflowDocument(q: SO.Question): (r: Resource)
    ensures r.id == NatToString(q.questionId) && r.title == q.title && r.url == q.link
    ensures r.kind == Documentation && r.status == Unread
    ensures r.description == Some(SO.Summary(q))
    ensures r.extra == map["votes" := Num(q.score), "source" := Str("Stack Overflow")]
  {
    Resource(NatToString(q.questionId), q.title, q.link, Documentation, Unread, Some(SO.Summary(q)),
      map["votes" := Num(q.score), "source" := Str("Stack Overflow")])
  }

  function GitHubResources(repos: seq<GitHubRepo>, kind: ResourceType, fallback: string): (r: seq<Resource>)
    ensures |r| == |repos|
    ensures forall i :: 0 <= i < |r| ==> r[i] == GitHubResource(repos[i], kind, fallback)
  {
    seq(|repos|, i requires 0 <= i < |repos| => GitHubResource(repos[i], kind, fallback))
  }

  function GitLabResources(ps: seq<GL.GitLabProject>): (r: seq<Resource>)
    ensures |r| == |ps| && forall i :: 0 <= i < |r| ==> r[i] == GL.FormatProjectAsResource(ps[i])
  {
    seq(|ps|, i requires 0 <= i < |ps| => GL.FormatProjectAsResource(ps[i]))
  }

  function NpmResources(ps: seq<Npm.NpmPackage>): (r: seq<Resource>)
    ensures |r| == |ps| && forall i :: 0 <= i < |r| ==> r[i] == Npm.FormatPackageAsResource(ps[i])
  {
    seq(|ps|, i requires 0 <= i < |ps| => Npm.FormatPackageAsResource(ps[i]))
  }

  function VideoResources(vs: seq<YT.YouTubeVideo>): (r: seq<Resource>)
    ensures |r| == |vs| && forall i :: 0 <= i < |r| ==> r[i] == YT.FormatVideoAsResource(vs[i])
  {
    seq(|vs|, i requires 0 <= i < |vs| => YT.FormatVideoAsResource(vs[i]))
  }

  function QuestionResources(qs: seq<SO.Question>): (r: seq<Resource>)
    ensures |r| == |qs| && forall i :: 0 <= i < |r| ==> r[i] == SO.FormatQuestionAsResource(qs[i])
  {
    seq(|qs|, i requires 0 <= i < |qs| => SO.FormatQuestionAsResource(qs[i]))
  }

  function QuestionDocuments(qs: seq<SO.Question>): (r: seq<Resource>)
    ensures |r| == |qs| && forall i :: 0 <= i < |r| ==> r[i] == StackOverflowDocument(qs[i])
  {
    seq(|qs|, i requires 0 <= i < |qs| => StackOverflowDocument(qs[i]))
  }

  /** MDN documents; `randomIds(i)` is the random id the i-th call would
      draw if its URL had no last segment. */
  function MdnResources(ds: seq<Mdn.MdnDocument>, randomIds: nat -> string): (r: seq<Resource>)
    ensures |r| == |ds| && forall i :: 0 <= i < |r| ==> r[i] == Mdn.FormatDocumentAsResource(ds[i], randomIds(i))
  {
    seq(|ds|, i requires 0 <= i < |ds| => Mdn.FormatDocumentAsResource(ds[i], randomIds(i)))
  }

  function GoogleResources(gs: seq<Google.SearchResult>): (r: seq<Resource>)
    ensures |r| == |gs| && forall i :: 0 <= i < |r| ==> r[i] == Google.FormatSearchResultAsResource(gs[i])
  {
    seq(|gs|, i requires 0 <= i < |gs| => Google.FormatSearchResultAsResource(gs[i]))
  }

  function RedditResources(ps: seq<Reddit.RedditPost>): (r: seq<Resource>)
    ensures |r| == |ps| && forall i :: 0 <= i < |r| ==> r[i] == Reddit.FormatPostAsResource(ps[i])
  {
    seq(|ps|, i requires 0 <= i < |ps| => Reddit.FormatPostAsResource(ps[i]))
  }

  function ArticleResources(as_: seq<DevTo.Article>): (r: seq<Resource>)
    ensures |r| == |as_| && forall i :: 0 <= i < |r| ==> r[i] == DevTo.FormatArticleAsResource(as_[i])
  {
    seq(|as_|, i requires 0 <= i < |as_| => DevTo.FormatArticleAsResource(as_[i]))
  }

  function MediumResources(ps: seq<Medium.MediumPost>): (r: seq<Resource>)
    ensures |r| == |ps| && forall i :: 0 <= i < |r| ==> r[i] == Medium.FormatPostAsResource(ps[i])
  {
    seq(|ps|, i requires 0 <= i < |ps| => Medium.FormatPostAsResource(ps[i]))
  }

  // ---------------------------------------------------------------------
  // searchResourcesForFeature

  /** One source request: which source, the limit, and the query text the
      adapter puts into its request url, after any words the adapter
      itself adds (Google's "documentation for developers", YouTube's
      "tutorial for developers" in `getTutorials`). */
  datatype SourceRequest = SourceRequest(source: string, query: string, limit: int)

  /** The ten requests the feature search starts, in start order. Every
      query begins with the feature name. */
  function FeatureRequests(featureName: string, limit: int): (r: seq<SourceRequest>)
    ensures |r| == 10
    ensures forall i :: 0 <= i < 10 ==> r[i].limit == limit
    ensures forall i :: 0 <= i < 10 ==> |featureName| <= |r[i].query| && r[i].query[..|featureName|] == featureName
  {
    [SourceRequest("github", featureName, limit),
     SourceRequest("gitlab", featureName, limit),
     SourceRequest("youtube", featureName + " tutorial", limit),
     SourceRequest("stackoverflow", featureName, limit),
     SourceRequest("google", Google.DocumentationQuery(featureName), limit),
     SourceRequest("reddit", featureName + " programming", limit),
     SourceRequest("devto", featureName, limit),
     SourceRequest("medium", featureName, limit),
     SourceRequest("mdn", featureName, limit),
     SourceRequest("npm", featureName, limit)]
  }

  /** The settled outcomes of those ten requests. */
  datatype FeatureSearches = FeatureSearches(
    github: Settled<Option<seq<GitHubRepo>>>,
    gitlab: Settled<seq<GL.GitLabProject>>,
    youtube: Settled<Option<seq<YT.YouTubeVideo>>>,
    stackoverflow: Settled<Option<seq<SO.Question>>>,
    google: Settled<Option<seq<Google.SearchResult>>>,
    reddit: Settled<seq<Reddit.RedditPost>>,
    devto: Settled<seq<DevTo.Article>>,
    medium: Settled<seq<Medium.MediumPost>>,
    mdn: Settled<seq<Mdn.MdnDocument>>,
    npm: Settled<seq<Npm.NpmPackage>>)

  /** Some search settled with `undefined`, on which `.map` throws. */
  predicate HasUndefined(s: FeatureSearches) {
    Listed(s.github).None? || Listed(s.youtube).None? || Listed(s.stackoverflow).None? || Listed(s.google).None?
  }

  /** The normalised resources in concatenation order: GitHub, GitLab, npm,
      YouTube, Stack Overflow, MDN, Google, Reddit, Dev.to, Medium. */
  function Combined(featureName: string, s: FeatureSearches, randomIds: nat -> string): (r: seq<Resource>)
    requires !HasUndefined(s)
    ensures |r| == |Listed(s.github).value| + |ListedAll(s.gitlab)| + |ListedAll(s.npm)|
                   + |Listed(s.youtube).value| + |Listed(s.stackoverflow).value| + |ListedAll(s.mdn)|
                   + |Listed(s.google).value| + |ListedAll(s.reddit)| + |ListedAll(s.devto)| + |ListedAll(s.medium)|
  {
    GitHubResources(Listed(s.github).value, Repository, "A GitHub repository for " + featureName)
    + GitLabResources(ListedAll(s.gitlab))
    + NpmResources(ListedAll(s.npm))
    + VideoResources(Listed(s.youtube).value)
    + QuestionResources(Listed(s.stackoverflow).value)
    + MdnResources(ListedAll(s.mdn), randomIds)
    + GoogleResources(Listed(s.google).value)
    + RedditResources(ListedAll(s.reddit))
    + ArticleResources(ListedAll(s.devto))
    + MediumResources(ListedAll(s.medium))
  }

  /** `searchResourcesForFeature` after the searches have settled. */
  function SearchResourcesForFeature(featureName: string, s: FeatureSearches, randomIds: nat -> string): (r: seq<Resource>)
    ensures HasUndefined(s) ==> r == []
    ensures !HasUndefined(s) ==> r == Dedup(Combined(featureName, s, randomIds))
    ensures forall a, b :: 0 <= a < b < |r| ==> r[a].url != r[b].url
  {
    if HasUndefined(s) then []
    else
      var all := Combined(featureName, s, randomIds);
      DedupSpec(all);
      Dedup(all)
  }

  /** Every URL any source found is in the answer, carried by the first
      resource that had it, and nothing else is. */
  lemma FeatureSearchCoversEveryUrl(featureName: string, s: FeatureSearches, randomIds: nat -> string)
    requires !HasUndefined(s)
    ensures forall r :: r in Combined(featureName, s, randomIds) ==>
              exists r' :: r' in SearchResourcesForFeature(featureName, s, randomIds) && r'.url == r.url
    ensures forall r :: r in SearchResourcesForFeature(featureName, s, randomIds) ==> r in Combined(featureName, s, randomIds)
  {
    var all := Combined(featureName, s, randomIds);
    DedupSpec(all);
    forall r | r in all
      ensures exists r' :: r' in SearchResourcesForFeature(featureName, s, randomIds) && r'.url == r.url
    {
      var k :| 0 <= k < |all| && all[k] == r;
      var f := UrlIndex(all, r.url);
      assert all[f] in Dedup(all);
    }
  }

  /** GitHub results come first and, when their URLs are distinct, are all
      kept unchanged, whatever the other sources return. */
  lemma GitHubResultsLead(featureName: string, s: FeatureSearches, randomIds: nat -> string)
    requires !HasUndefined(s)
    requires forall a, b :: 0 <= a < b < |Listed(s.github).value| ==>
               Listed(s.github).value[a].htmlUrl != Listed(s.github).value[b].htmlUrl
    ensures |Listed(s.github).value| <= |SearchResourcesForFeature(featureName, s, randomIds)|
    ensures SearchResourcesForFeature(featureName, s, randomIds)[..|Listed(s.github).value|]
         == GitHubResources(Listed(s.github).value, Repository, "A GitHub repository for " + featureName)
  {
    var gh := GitHubResources(Listed(s.github).value, Repository, "A GitHub repository for " + featureName);
    var all := Combined(featureName, s, randomIds);
    var rest := all[|gh|..];
    assert all == gh + rest;
    DedupOfDistinct(gh);
    DedupPrefix(gh, rest);
  }

  /** When every search is rejected or finds nothing, the answer is empty. */
  lemma NothingFoundYieldsEmpty(featureName: string, s: FeatureSearches, randomIds: nat -> string)
    requires Listed(s.github) == Some([]) && ListedAll(s.gitlab) == [] && Listed(s.youtube) == Some([])
    requires Listed(s.stackoverflow) == Some([]) && Listed(s.google) == Some([]) && ListedAll(s.reddit) == []
    requires ListedAll(s.devto) == [] && ListedAll(s.medium) == [] && ListedAll(s.mdn) == [] && ListedAll(s.npm) == []
    ensures SearchResourcesForFeature(featureName, s, randomIds) == []
  {
    assert Combined(featureName, s, randomIds) == [];
  }

  /** Medium answers [] and the Google search as written does too, so
      their slots never contribute. */
  lemma MediumAndGoogleContributeNothing(featureName: string, limit: int, env: map<string, string>)
    ensures MediumResources(Medium.SearchPosts(featureName, limit)) == []
    ensures GoogleResources(Google.Search(env, featureName, limit)) == []
  {
  }

  // ---------------------------------------------------------------------
  // getResourcesByType

  /** The requests one type search starts, in start order; the tutorial
      search asks YouTube's `getTutorials`, which builds its own query. */
  function TypeRequests(featureName: string, kind: ResourceType, limit: int): (r: seq<SourceRequest>)
    ensures kind == Repository ==> r == [SourceRequest("github", featureName, CeilDiv(limit, 3)),
                                         SourceRequest("gitlab", featureName, CeilDiv(limit, 3)),
                                         SourceRequest("npm", featureName, CeilDiv(limit, 3))]
    ensures kind == Tutorial ==> r == [SourceRequest("youtube", YT.TutorialQuery(featureName), limit)]
    ensures kind == Documentation ==> r == [SourceRequest("mdn", featureName, limit),
                                            SourceRequest("stackoverflow", featureName, limit)]
    ensures kind == Template ==> r == [SourceRequest("github", featureName + " template", CeilDiv(limit, 2)),
                                       SourceRequest("gitlab", featureName + " template", CeilDiv(limit, 2))]
  {
    match kind
    case Repository =>
      [SourceRequest("github", featureName, CeilDiv(limit, 3)),
       SourceRequest("gitlab", featureName, CeilDiv(limit, 3)),
       SourceRequest("npm", featureName, CeilDiv(limit, 3))]
    case Tutorial => [SourceRequest("youtube", YT.TutorialQuery(featureName), limit)]
    case Documentation => [SourceRequest("mdn", featureName, limit), SourceRequest("stackoverflow", featureName, limit)]
    case Template =>
      [SourceRequest("github", featureName + " template", CeilDiv(limit, 2)),
       SourceRequest("gitlab", featureName + " template", CeilDiv(limit, 2))]
  }

  /** The settled outcomes of whichever requests the type starts; the
      slots of the other types are not read. */
  datatype TypeSearches = TypeSearches(
    repoGitHub: Settled<Option<seq<GitHubRepo>>>,
    repoGitLab: Settled<seq<GL.GitLabProject>>,
    repoNpm: Settled<seq<Npm.NpmPackage>>,
    tutorials: Option<seq<YT.YouTubeVideo>>,
    docsMdn: Settled<seq<Mdn.MdnDocument>>,
    docsStackOverflow: Settled<Option<seq<SO.Question>>>,
    templateGitHub: Settled<Option<seq<GitHubRepo>>>,
    templateGitLab: Settled<seq<GL.GitLabProject>>)

  /** `getResourcesByType` after its searches have settled: the branch of
      the type, no de-duplication, and [] when a `.map` meets `undefined`. */
  function GetResourcesByType(featureName: string, kind: ResourceType, s: TypeSearches, randomIds: nat -> string): (r: seq<Resource>)
    ensures kind == Repository && Listed(s.repoGitHub).Some? ==>
              r == GitHubResources(Listed(s.repoGitHub).value, Repository, "A GitHub repository for " + featureName)
                   + GitLabResources(ListedAll(s.repoGitLab)) + NpmResources(ListedAll(s.repoNpm))
    ensures kind == Tutorial && s.tutorials.Some? ==> r == VideoResources(s.tutorials.value)
    ensures kind == Documentation && Listed(s.docsStackOverflow).Some? ==>
              r == MdnResources(ListedAll(s.docsMdn), randomIds) + QuestionDocuments(Listed(s.docsStackOverflow).value)
    ensures kind == Template && Listed(s.templateGitHub).Some? ==>
              r == GitHubResources(Listed(s.templateGitHub).value, Template, "A template for " + featureName)
                   + GitLabResources(ListedAll(s.templateGitLab))
    ensures ((kind == Repository && Listed(s.repoGitHub).None?) || (kind == Tutorial && s.tutorials.None?)
             || (kind == Documentation && Listed(s.docsStackOverflow).None?)
             || (kind == Template && Listed(s.templateGitHub).None?))
            ==> r == []
  {
    match kind
    case Repository =>
      var gh := Listed(s.repoGitHub);
      if gh.None? then []
      else GitHubResources(gh.value, Repository, "A GitHub repository for " + featureName)
           + GitLabResources(ListedAll(s.repoGitLab)) + NpmResources(ListedAll(s.repoNpm))
    case Tutorial =>
      if s.tutorials.None? then [] else VideoResources(s.tutorials.value)
    case Documentation =>
      var so := Listed(s.docsStackOverflow);
      if so.None? then [] else MdnResources(ListedAll(s.docsMdn), randomIds) + QuestionDocuments(so.value)
    case Template =>
      var gh := Listed(s.templateGitHub);
      if gh.None? then []
      else GitHubResources(gh.value, Template, "A template for " + featureName) + GitLabResources(ListedAll(s.templateGitLab))
  }

  /** Every resource has the requested type, except that GitLab projects
      found by a template search keep the type 'repository'. */
  lemma ByTypeKinds(featureName: string, kind: ResourceType, s: TypeSearches, randomIds: nat -> string)
    ensures kind != Template ==>
              forall r :: r in GetResourcesByType(featureName, kind, s, randomIds) ==> r.kind == kind
    ensures kind == Template && Listed(s.templateGitHub).Some? ==>
              forall i :: 0 <= i < |GetResourcesByType(featureName, kind, s, randomIds)| ==>
                GetResourcesByType(featureName, kind, s, randomIds)[i].kind
                == (if i < |Listed(s.templateGitHub).value| then Template else Repository)
  {
    var r := GetResourcesByType(featureName, kind, s, randomIds);
    if kind == Repository && Listed(s.repoGitHub).Some? {
      var a := GitHubResources(Listed(s.repoGitHub).value, Repository, "A GitHub repository for " + featureName);
      var b := GitLabResources(ListedAll(s.repoGitLab));
      var c := NpmResources(ListedAll(s.repoNpm));
      assert r == a + b + c;
      forall x | x in r ensures x.kind == Repository {
        if x in a {} else if x in b {} else { assert x in c; }
      }
    } else if kind == Documentation && Listed(s.docsStackOverflow).Some? {
      var a := MdnResources(ListedAll(s.docsMdn), randomIds);
      var b := QuestionDocuments(Listed(s.docsStackOverflow).value);
      forall x | x in r ensures x.kind == Documentation {
        if x in a {} else { assert x in b; }
      }
    } else if kind == Template && Listed(s.templateGitHub).Some? {
      var a := GitHubResources(Listed(s.templateGitHub).value, Template, "A template for " + featureName);
      var b := GitLabResources(ListedAll(s.templateGitLab));
      forall i | 0 <= i < |r| ensures r[i].kind == (if i < |a| then Template else Repository) {
        if i >= |a| { assert r[i] == b[i - |a|]; }
      }
    }
  }

  /** The type search keeps duplicates: its length is the number of
      results the sources of that type returned. */
  lemma ByTypeKeepsDuplicates(featureName: string, s: TypeSearches, randomIds: nat -> string)
    requires Listed(s.repoGitHub).Some?
    ensures |GetResourcesByType(featureName, Repository, s, randomIds)|
         == |Listed(s.repoGitHub).value| + |ListedAll(s.repoGitLab)| + |ListedAll(s.repoNpm)|
  {
  }
}

=== FILE: search_page.dfy ===
/** The search page's state transitions: dispatching a search to the
    aggregator and keeping the most-recently-used search history. */
module SearchPage {
  import opened Wrappers
  import opened Text
  import opened Types
  import opened StableSort
  import opened CategoryMapping
  import RS = ResourceService

  /** How many results the page asks for. */
  const PageLimit := 12

  /** How many past queries the history keeps. */
  const HistorySize := 5

  /** `history.filter(h => h !== query)`. */
  function Without(history: seq<string>, query: string): (r: seq<string>)
    ensures |r| <= |history|
    ensures forall h :: h in r <==> h in history && h != query
  {
    if history == [] then []
    else (if history[0] != query then [history[0]] else []) + Without(history[1..], query)
  }

  /** `filter` keeps order: removing from a concatenation removes from each
      part in turn. */
  lemma {:induction false} WithoutAppend(a: seq<string>, b: seq<string>, query: string)
    ensures Without(a + b, query) == Without(a, query) + Without(b, query)
  {
    if a == [] {
      assert a + b == b;
    } else {
      assert (a + b)[1..] == a[1..] + b;
      WithoutAppend(a[1..], b, query);
    }
  }

  /** A single entry stays exactly when it is not the one removed. */
  lemma WithoutSingle(h: string, query: string)
    ensures Without([h], query) == if h != query then [h] else []
  {
    assert [h][1..] == [];
  }

  /** Number of occurrences of `x` in `s`. */
  function Occurrences(s: seq<string>, x: string): nat {
    if s == [] then 0 else (if s[0] == x then 1 else 0) + Occurrences(s[1..], x)
  }

  /** `[query, ...history.filter(h => h !== query)].slice(0, 5)`. */
  function NextHistory(query: string, history: seq<string>): (r: seq<string>)
    ensures |r| <= HistorySize && r != [] && r[0] == query
    ensures |r| == if 1 + |Without(history, query)| <= HistorySize then 1 + |Without(history, query)| else HistorySize
    ensures r[1..] == Without(history, query)[..|r| - 1]
  {
    var full := [query] + Without(history, query);
    if |full| <= HistorySize then full else full[..HistorySize]
  }

  lemma {:induction false} WithoutOccurrences(history: seq<string>, query: string)
    ensures Occurrences(Without(history, query), query) == 0
  {
    if history != [] {
      WithoutOccurrences(history[1..], query);
      var rest := Without(history[1..], query);
      if history[0] != query {
        assert ([history[0]] + rest)[1..] == rest;
      } else {
        assert [] + rest == rest;
      }
    }
  }

  lemma {:induction false} OccurrencesOfPrefix(s: seq<string>, n: nat, x: string)
    requires n <= |s| && Occurrences(s, x) == 0
    ensures Occurrences(s[..n], x) == 0
  {
    if n > 0 {
      OccurrencesOfPrefix(s[1..], n - 1, x);
      assert s[..n][1..] == s[1..][..n - 1];
    }
  }

  /** The new history holds the query exactly once, at its head, followed by
      earlier queries other than it in their earlier order. */
  lemma NextHistoryHoldsQueryOnce(query: string, history: seq<string>)
    ensures Occurrences(NextHistory(query, history), query) == 1
    ensures forall h :: h in NextHistory(query, history) && h != query ==> h in history
  {
    var r := NextHistory(query, history);
    var w := Without(history, query);
    WithoutOccurrences(history, query);
    OccurrencesOfPrefix(w, |r| - 1, query);
    assert r == [query] + r[1..];
    assert r[1..] == w[..|r| - 1];
    forall h | h in r && h != query
      ensures h in history
    {
      assert h in r[1..];
      assert h in w;
    }
  }

  /** A query already at the head of a full history leaves it as it is. */
  lemma {:induction false} RepeatedQueryKeepsHistory(query: string, history: seq<string>)
    requires history != [] && history[0] == query && |history| <= HistorySize
    requires forall i :: 0 < i < |history| ==> history[i] != query
    ensures NextHistory(query, history) == history
  {
    assert Without(history, query) == Without(history[1..], query);
    WithoutAllOther(history[1..], query);
    assert history == [query] + history[1..];
  }

  lemma {:induction false} WithoutAllOther(s: seq<string>, query: string)
    requires forall i :: 0 <= i < |s| ==> s[i] != query
    ensures Without(s, query) == s
  {
    if s != [] {
      WithoutAllOther(s[1..], query);
      assert s == [s[0]] + s[1..];
    }
  }

  /** The requests a search sends: the feature-wide search on the 'all'
      tab (`kind` None), the per-type search otherwise, both for 12 results. */
  function Requested(query: string, kind: Option<ResourceType>): (r: seq<RS.SourceRequest>)
    ensures kind.None? ==> |r| == 10
    ensures kind.Some? ==> 1 <= |r| <= 3
    ensures forall i :: 0 <= i < |r| ==> 0 < r[i].limit <= PageLimit
    ensures forall i :: 0 <= i < |r| ==> |query| <= |r[i].query| && r[i].query[..|query|] == query
  {
    if kind.None? then RS.FeatureRequests(query, PageLimit) else RS.TypeRequests(query, kind.value, PageLimit)
  }

  /** What the dispatched search returns, given the sources' outcomes: on
      the 'all' tab the urls are distinct, on a type tab other than
      Template every result has that type. */
  function Searched(query: string, kind: Option<ResourceType>, all: RS.FeatureSearches, typed: RS.TypeSearches,
                    randomIds: nat -> string): (r: seq<Resource>)
    ensures kind.None? ==> forall a, b :: 0 <= a < b < |r| ==> r[a].url != r[b].url
    ensures kind.Some? && kind.value != Template ==> forall x :: x in r ==> x.kind == kind.value
  {
    if kind.None? then RS.SearchResourcesForFeature(query, all, randomIds)
    else
      RS.ByTypeKinds(query, kind.value, typed, randomIds);
      RS.GetResourcesByType(query, kind.value, typed, randomIds)
  }

  /** The page's state cells. `kind` None stands for the 'all' tab. */
  class Page {
    var results: seq<Resource>
    var history: seq<string>
    var loading: bool
    var hasSearched: bool
    var kind: Option<ResourceType>

    constructor(saved: seq<string>)
      ensures results == [] && history == saved && !loading && !hasSearched && kind.None?
    {
      results := [];
      history := saved;
      loading := false;
      hasSearched := false;
      kind := None;
    }

    /** `handleSearch`. The aggregator's per-source outcomes are given as
        `all` (the 'all' tab) and `typed` (a single type); `requests` is
        what the page asks the sources for. */
    method HandleSearch(query: string, all: RS.FeatureSearches, typed: RS.TypeSearches, randomIds: nat -> string)
      returns (requests: seq<RS.SourceRequest>)
      modifies this
      ensures kind == old(kind)
      ensures IsBlank(query) ==>
                (requests == [] && results == old(results) && history == old(history)
                 && loading == old(loading) && hasSearched == old(hasSearched))
      ensures !IsBlank(query) ==>
                (requests == Requested(query, kind) && hasSearched && !loading
                 && results == SortResourcesByCategory(Searched(query, kind, all, typed, randomIds))
                 && history == NextHistory(query, old(history)))
    {
      if IsBlank(query) {
        return [];
      }
      loading := true;
      hasSearched := true;
      requests := Requested(query, kind);
      var found := Searched(query, kind, all, typed, randomIds);
      results := SortResourcesByCategory(found);
      history := NextHistory(query, history);
      loading := false;
    }

    /** `setSelectedType` from the tabs, then the effect on `[selectedType]`:
        when the tab really changes and a search was made, the current
        `query` is searched again on the new tab. */
    method SelectTab(k: Option<ResourceType>, query: string, all: RS.FeatureSearches, typed: RS.TypeSearches,
                     randomIds: nat -> string)
      returns (requests: seq<RS.SourceRequest>)
      modifies this
      ensures kind == k
      ensures (k == old(kind) || !old(hasSearched) || IsBlank(query)) ==>
                (requests == [] && results == old(results) && history == old(history)
                 && loading == old(loading) && hasSearched == old(hasSearched))
      ensures k != old(kind) && old(hasSearched) && !IsBlank(query) ==>
                (requests == Requested(query, k) && hasSearched && !loading
                 && results == SortResourcesByCategory(Searched(query, k, all, typed, randomIds))
                 && history == NextHistory(query, old(history)))
    {
      var changed := k != kind;
      kind := k;
      if changed && hasSearched && !IsBlank(query) {
        requests := HandleSearch(query, all, typed, randomIds);
      } else {
        requests := [];
      }
    }
  }

  /** On the 'all' tab the sorted results still hold no two resources with
      the same url. */
  lemma AllTabResultsHaveDistinctUrls(query: string, all: RS.FeatureSearches, randomIds: nat -> string)
    ensures var r := SortResourcesByCategory(RS.SearchResourcesForFeature(query, all, randomIds));
            forall i, j :: 0 <= i < j < |r| ==> r[i].url != r[j].url
  {
    var found := RS.SearchResourcesForFeature(query, all, randomIds);
    SortByKeepsDistinct(found, ResourcePriority, (x: Resource) => x.url);
  }
}

=== FILE: stable_sort.dfy ===
/** A stable sort by an integer key: the behaviour of
    `Array.prototype.sort` with the comparator `(a, b) => key(a) - key(b)`,
    which the language requires to be stable.  Modelled as insertion sort;
    SortedBy, the permutation lemma and the per-key stability lemma are the
    properties any stable sort has, and together they determine the result. */
module StableSort {

  predicate SortedBy<T>(s: seq<T>, key: T -> int) {
    forall i, j :: 0 <= i < j < |s| ==> key(s[i]) <= key(s[j])
  }

  /** The elements whose key is k, in their order in s. */
  function WithKey<T>(s: seq<T>, key: T -> int, k: int): (r: seq<T>)
    ensures |r| <= |s|
    ensures forall i :: 0 <= i < |r| ==> key(r[i]) == k
  {
    if s == [] then []
    else (if key(s[0]) == k then [s[0]] else []) + WithKey(s[1..], key, k)
  }

  /** Inserts x in front of the first element whose key is not smaller. */
  function Insert<T>(x: T, s: seq<T>, key: T -> int): (r: seq<T>)
    ensures |r| == |s| + 1
    ensures multiset(r) == multiset(s) + multiset{x}
  {
    if s == [] || key(x) <= key(s[0]) then [x] + s
    else
      assert s == [s[0]] + s[1..];
      [s[0]] + Insert(x, s[1..], key)
  }

  function SortBy<T>(s: seq<T>, key: T -> int): (r: seq<T>)
    ensures |r| == |s|
    ensures multiset(r) == multiset(s)
  {
    if s == [] then []
    else
      assert s == [s[0]] + s[1..];
      Insert(s[0], SortBy(s[1..], key), key)
  }

  lemma {:induction false} InsertSorted<T>(x: T, s: seq<T>, key: T -> int)
    requires SortedBy(s, key)
    ensures SortedBy(Insert(x, s, key), key)
  {
    if s != [] && key(x) > key(s[0]) {
      InsertSorted(x, s[1..], key);
      var r := Insert(x, s[1..], key);
      assert r[0] == x || r[0] == s[1];
      assert Insert(x, s, key) == [s[0]] + r;
    }
  }

  /** The sort yields its input, reordered so that keys never decrease. */
  lemma {:induction false} SortBySortedPermutation<T>(s: seq<T>, key: T -> int)
    ensures SortedBy(SortBy(s, key), key)
    ensures multiset(SortBy(s, key)) == multiset(s)
  {
    if s != [] {
      SortBySortedPermutation(s[1..], key);
      InsertSorted(s[0], SortBy(s[1..], key), key);
    }
  }

  lemma {:induction false} WithKeyInsert<T>(x: T, s: seq<T>, key: T -> int, k: int)
    requires SortedBy(s, key)
    ensures WithKey(Insert(x, s, key), key, k) ==
            (if key(x) == k then [x] else []) + WithKey(s, key, k)
  {
    if s == [] || key(x) <= key(s[0]) {
      assert ([x] + s)[1..] == s;
    } else {
      WithKeyInsert(x, s[1..], key, k);
      assert ([s[0]] + Insert(x, s[1..], key))[1..] == Insert(x, s[1..], key);
      if key(x) == k {
        // every element before x's place has a smaller key than x
        assert key(s[0]) != k;
      }
    }
  }

  /** Stability: elements with equal keys keep their relative order. */
  lemma {:induction false} SortByStable<T>(s: seq<T>, key: T -> int, k: int)
    ensures WithKey(SortBy(s, key), key, k) == WithKey(s, key, k)
  {
    if s != [] {
      SortByStable(s[1..], key, k);
      SortBySortedPermutation(s[1..], key);
      WithKeyInsert(s[0], SortBy(s[1..], key), key, k);
    }
  }

  /** Sorting a sequence that is already in key order changes nothing. */
  lemma {:induction false} SortByOfSorted<T>(s: seq<T>, key: T -> int)
    requires SortedBy(s, key)
    ensures SortBy(s, key) == s
  {
    if s != [] {
      SortByOfSorted(s[1..], key);
    }
  }

  lemma {:induction false} InsertKeepsDistinct<T, U>(x: T, s: seq<T>, key: T -> int, f: T -> U)
    requires forall i, j :: 0 <= i < j < |s| ==> f(s[i]) != f(s[j])
    requires forall i :: 0 <= i < |s| ==> f(s[i]) != f(x)
    ensures forall i, j :: 0 <= i < j < |Insert(x, s, key)| ==> f(Insert(x, s, key)[i]) != f(Insert(x, s, key)[j])
  {
    if s != [] && key(x) > key(s[0]) {
      InsertKeepsDistinct(x, s[1..], key, f);
      var rest := Insert(x, s[1..], key);
      forall k | 0 <= k < |rest|
        ensures f(rest[k]) != f(s[0])
      {
        assert rest[k] in multiset(rest);
        assert rest[k] == x || rest[k] in multiset(s[1..]);
      }
      assert Insert(x, s, key) == [s[0]] + rest;
    }
  }

  /** Sorting never brings two elements with the same image under f
      together: images distinct before are distinct after. */
  lemma {:induction false} SortByKeepsDistinct<T, U>(s: seq<T>, key: T -> int, f: T -> U)
    requires forall i, j :: 0 <= i < j < |s| ==> f(s[i]) != f(s[j])
    ensures forall i, j :: 0 <= i < j < |SortBy(s, key)| ==> f(SortBy(s, key)[i]) != f(SortBy(s, key)[j])
  {
    if s != [] {
      SortByKeepsDistinct(s[1..], key, f);
      var sorted := SortBy(s[1..], key);
      forall k | 0 <= k < |sorted|
        ensures f(sorted[k]) != f(s[0])
      {
        assert sorted[k] in multiset(sorted);
        assert sorted[k] in s[1..];
      }
      InsertKeepsDistinct(s[0], sorted, key, f);
    }
  }
}

=== FILE: stackoverflow_service.dfy ===
/** The Stack Overflow adapter: the question search wrappers and the
    question normaliser. */
module StackOverflowService {
  import opened Wrappers
  import opened Text
  import opened Types
  import opened ApiErrors
  import opened CaughtFetch

  /** The fields of a question the adapter reads. */
  datatype Question = Question(
    questionId: nat,
    title: string,
    link: string,
    score: int,
    answerCount: int,
    tags: seq<string>,
    ownerName: string)

  /** The one-line summary of a question. */
  function Summary(q: Question): string {
    "Score: " + IntToString(q.score) + " | Answers: " + IntToString(q.answerCount)
    + " | Tags: " + Join(q.tags, ", ")
  }

  /** `formatQuestionAsResource`. */
  function FormatQuestionAsResource(q: Question): (r: Resource)
    ensures r.id == NatToString(q.questionId) && AllDigits(r.id) && r.id != ""
    ensures r.title == q.title && r.url == q.link
    ensures r.kind == Documentation && r.status == Unread
    ensures r.description == Some("Score: " + IntToString(q.score) + " | Answers: " + IntToString(q.answerCount)
                                  + " | Tags: " + Join(q.tags, ", "))
    ensures r.extra == map["author" := Str(q.ownerName)]
  {
    Resource(NatToString(q.questionId), q.title, q.link, Documentation, Unread, Some(Summary(q)),
      map["author" := Str(q.ownerName)])
  }

  /** The id reads back as the question number, so distinct questions get
      distinct ids. */
  lemma QuestionIdRoundTrip(q: Question, p: Question)
    ensures ParseInt(FormatQuestionAsResource(q).id) == Some(q.questionId)
    ensures q.questionId != p.questionId ==> FormatQuestionAsResource(q).id != FormatQuestionAsResource(p).id
  {
    ParseIntOfNatToString(q.questionId);
    NatToStringInjective(q.questionId, p.questionId);
  }
}

=== FILE: text.dfy ===
/** String helpers shared by the adapters: decimal rendering of integers,
    `String.prototype.includes`, `split('/').pop()`, truncation, joining,
    ASCII case mapping, JavaScript truthiness of optional strings, and
    `parseInt(s, 10)`.  Character classes are ASCII only. */
module Text {
  import opened Wrappers

  predicate IsDigit(c: char) { '0' <= c <= '9' }

  predicate AllDigits(s: string) { forall i :: 0 <= i < |s| ==> IsDigit(s[i]) }

  function DigitChar(d: nat): (c: char)
    requires d < 10
    ensures IsDigit(c) && c as int - '0' as int == d
  {
    ('0' as int + d) as char
  }

  /** The value of a string of decimal digits. */
  function DigitsValue(s: string): nat
    requires AllDigits(s)
  {
    if s == [] then 0 else DigitsValue(s[..|s| - 1]) * 10 + (s[|s| - 1] as int - '0' as int)
  }

  /** `n.toString()` for a non-negative integer. */
  function NatToString(n: nat): (s: string)
    ensures |s| > 0 && AllDigits(s)
  {
    if n < 10 then [DigitChar(n)] else NatToString(n / 10) + [DigitChar(n % 10)]
  }

  /** `n.toString()` for an integer. */
  function IntToString(n: int): (s: string)
    ensures |s| > 0
    ensures n >= 0 ==> AllDigits(s)
    ensures n < 0 ==> s[0] == '-' && AllDigits(s[1..])
  {
    if n < 0 then "-" + NatToString(-n) else NatToString(n)
  }

  /** Reading back the digits written by NatToString gives the number. */
  lemma {:induction false} NatToStringRoundTrip(n: nat)
    ensures DigitsValue(NatToString(n)) == n
  {
    if n >= 10 {
      var s := NatToString(n);
      NatToStringRoundTrip(n / 10);
      assert s[..|s| - 1] == NatToString(n / 10);
    }
  }

  /** Distinct numbers are written differently, so `prefix-<i>` ids are distinct. */
  lemma NatToStringInjective(a: nat, b: nat)
    ensures NatToString(a) == NatToString(b) ==> a == b
  {
    NatToStringRoundTrip(a);
    NatToStringRoundTrip(b);
  }

  /** A common prefix keeps distinct suffixes apart. */
  lemma PrefixedDistinct(p: string, x: string, y: string)
    ensures p + x == p + y ==> x == y
  {
    assert (p + x)[|p|..] == x && (p + y)[|p|..] == y;
  }

  /** `s.includes(w)`. */
  predicate Contains(s: string, w: string) {
    exists i | 0 <= i <= |s| - |w| :: OccursAt(s, w, i)
  }

  predicate OccursAt(s: string, w: string, i: nat) {
    i + |w| <= |s| && s[i..i + |w|] == w
  }

  /** A string cannot contain a word that uses a character the string lacks. */
  lemma NotContainsWithoutChar(s: string, w: string, c: char)
    requires c in w && c !in s
    ensures !Contains(s, w)
  {
  }

  /** `s.split(sep).pop()`: the part after the last separator, or all of `s`. */
  function AfterLast(s: string, sep: char): (r: string)
    ensures sep !in r
    ensures |r| <= |s| && r == s[|s| - |r|..]
    ensures |r| < |s| ==> s[|s| - |r| - 1] == sep
  {
    if s == [] then []
    else if s[|s| - 1] == sep then []
    else AfterLast(s[..|s| - 1], sep) + [s[|s| - 1]]
  }

  /** `s.replace(/[...]/g, by)` for a class of single characters. */
  function ReplaceAny(s: string, chars: set<char>, with: char): (r: string)
    ensures |r| == |s|
    ensures forall i :: 0 <= i < |s| ==> r[i] == (if s[i] in chars then with else s[i])
  {
    if s == [] then [] else [if s[0] in chars then with else s[0]] + ReplaceAny(s[1..], chars, with)
  }

  /** `s.replace(/c/g, '')`. */
  function RemoveAll(s: string, c: char): (r: string)
    ensures c !in r && |r| <= |s|
    ensures c !in s ==> r == s
  {
    if s == [] then [] else (if s[0] == c then [] else [s[0]]) + RemoveAll(s[1..], c)
  }

  /** `s.substring(0, n) + (s.length > n ? '...' : '')`. */
  function Truncate(s: string, n: nat): (r: string)
    ensures |r| <= n + 3
    ensures |s| <= n ==> r == s
    ensures |s| > n ==> r == s[..n] + "..."
  {
    if |s| > n then s[..n] + "..." else s
  }

  /** `parts.join(sep)`. */
  function Join(parts: seq<string>, sep: string): string {
    if parts == [] then ""
    else if |parts| == 1 then parts[0]
    else parts[0] + sep + Join(parts[1..], sep)
  }

  /** JavaScript `a || b` where `a` is a string that may be null or empty. */
  function OrElse(a: Option<string>, fallback: string): (r: string)
    ensures a.Some? && a.value != "" ==> r == a.value
    ensures (a.None? || a.value == "") ==> r == fallback
  {
    if a.Some? && a.value != "" then a.value else fallback
  }

  predicate IsUpper(c: char) { 'A' <= c <= 'Z' }
  predicate IsLower(c: char) { 'a' <= c <= 'z' }

  function LowerChar(c: char): char { if IsUpper(c) then (c as int + 32) as char else c }
  function UpperChar(c: char): char { if IsLower(c) then (c as int - 32) as char else c }

  /** `s.toLowerCase()` on ASCII letters. */
  function ToLower(s: string): (r: string)
    ensures |r| == |s|
    ensures forall i :: 0 <= i < |s| ==> r[i] == LowerChar(s[i])
  {
    if s == [] then [] else [LowerChar(s[0])] + ToLower(s[1..])
  }

  /** `s.charAt(0).toUpperCase() + s.slice(1)`. */
  function Capitalize(s: string): (r: string)
    ensures |r| == |s|
    ensures s != [] ==> r[0] == UpperChar(s[0]) && r[1..] == s[1..]
  {
    if s == [] then [] else [UpperChar(s[0])] + s[1..]
  }

  /** The characters `String.prototype.trim` removes (ASCII subset). */
  predicate IsSpace(c: char) { c == ' ' || c == '\t' || c == '\n' || c == '\r' || c == '\U{B}' || c == '\U{C}' }

  /** `!s.trim()`: the string is empty or only white space. */
  predicate IsBlank(s: string) { forall i :: 0 <= i < |s| ==> IsSpace(s[i]) }

  /** Ceiling of a / b for a positive divisor (`Math.ceil(a / b)` on exact values). */
  function CeilDiv(a: int, b: nat): (q: int)
    requires b > 0
    ensures (q - 1) * b < a <= q * b
  {
    -((-a) / b)
  }

  /** Length of the leading run of digits. */
  function DigitRun(s: string): (n: nat)
    ensures n <= |s| && AllDigits(s[..n])
    ensures n < |s| ==> !IsDigit(s[n])
  {
    if s == [] || !IsDigit(s[0]) then 0
    else
      var k := DigitRun(s[1..]);
      assert s[..k + 1] == [s[0]] + s[1..][..k];
      k + 1
  }

  /** `parseInt(s, 10)`: leading white space, an optional sign, then the
      longest run of digits; None stands for `NaN` (no digit found). */
  function ParseInt(s: string): (r: Option<int>)
    decreases |s|
  {
    if s != [] && IsSpace(s[0]) then ParseInt(s[1..])
    else
      var neg := s != [] && s[0] == '-';
      var body := if s != [] && (s[0] == '-' || s[0] == '+') then s[1..] else s;
      var n := DigitRun(body);
      var v: int := if n == 0 then 0 else DigitsValue(body[..n]);
      if n == 0 then None else Some(if neg then -v else v)
  }

  /** parseInt reads back what toString wrote. */
  lemma ParseIntOfNatToString(n: nat)
    ensures ParseInt(NatToString(n)) == Some(n)
  {
    var s := NatToString(n);
    assert DigitRun(s) == |s| by { DigitRunAllDigits(s); }
    assert s[..|s|] == s;
    NatToStringRoundTrip(n);
  }

  lemma {:induction false} DigitRunAllDigits(s: string)
    requires AllDigits(s)
    ensures DigitRun(s) == |s|
  {
    if s != [] {
      DigitRunAllDigits(s[1..]);
    }
  }
}

=== FILE: types.dfy ===
/** The application's value types: a Resource found for a Feature of a
    Project.  The source's `type` field is called `kind` here (`type` is a
    Dafny keyword).  Adapters attach advisory fields (stars, author, ...);
    they are kept in `extra`. */
module Types {
  import opened Wrappers

  datatype ResourceType = Documentation | Tutorial | Repository | Template

  datatype ResourceStatus = Unread | Read | Used | Broken

  /** A value of an advisory field: a string, an integer, a list of strings,
      `null`/`undefined`, or `NaN`. */
  datatype Value = Str(s: string) | Num(n: int) | List(items: seq<string>) | Null | NaN

  datatype Resource = Resource(
    id: string,
    title: string,
    url: string,
    kind: ResourceType,
    status: ResourceStatus,
    description: Option<string>,
    extra: map<string, Value>)

  datatype Feature = Feature(id: string, name: string, resources: seq<Resource>)

  datatype Project = Project(
    id: string,
    name: string,
    description: string,
    createdAt: string,
    features: seq<Feature>)

  /** The string a ResourceType stands for in the source. */
  function TypeName(t: ResourceType): string {
    match t
    case Documentation => "documentation"
    case Tutorial => "tutorial"
    case Repository => "repository"
    case Template => "template"
  }
}

=== FILE: uri.dfy ===
/** `encodeURIComponent`: every character outside the unreserved set is
    written as the percent-escaped bytes of its UTF-8 encoding. */
module Uri {
  import opened Text

  predicate Unreserved(c: char) {
    IsDigit(c) || IsUpper(c) || IsLower(c)
    || c == '-' || c == '_' || c == '.' || c == '!' || c == '~' || c == '*' || c == '\'' || c == '(' || c == ')'
  }

  predicate IsHexDigit(c: char) { IsDigit(c) || 'A' <= c <= 'F' }

  function HexDigit(d: nat): (c: char)
    requires d < 16
    ensures IsHexDigit(c)
  {
    if d < 10 then ('0' as int + d) as char else ('A' as int + d - 10) as char
  }

  function HexValue(c: char): nat {
    if IsDigit(c) then c as int - '0' as int
    else if 'A' <= c <= 'F' then c as int - 'A' as int + 10
    else 0
  }

  lemma HexRoundTrip(d: nat)
    requires d < 16
    ensures HexValue(HexDigit(d)) == d
  {
  }

  /** The UTF-8 bytes of one character. */
  function Utf8(c: char): (bytes: seq<nat>)
    ensures 1 <= |bytes| <= 4
    ensures forall i :: 0 <= i < |bytes| ==> bytes[i] < 256
    ensures c as int < 0x80 <==> bytes == [c as int]
  {
    var n := c as int;
    if n < 0x80 then [n]
    else if n < 0x800 then [0xC0 + n / 0x40, 0x80 + n % 0x40]
    else if n < 0x1_0000 then [0xE0 + n / 0x1000, 0x80 + (n / 0x40) % 0x40, 0x80 + n % 0x40]
    else [0xF0 + n / 0x4_0000, 0x80 + (n / 0x1000) % 0x40, 0x80 + (n / 0x40) % 0x40, 0x80 + n % 0x40]
  }

  function PercentBytes(bytes: seq<nat>): (r: string)
    requires forall i :: 0 <= i < |bytes| ==> bytes[i] < 256
    ensures |r| == 3 * |bytes|
    ensures forall i :: 0 <= i < |r| ==> r[i] == '%' || IsHexDigit(r[i])
  {
    if bytes == [] then ""
    else ['%', HexDigit(bytes[0] / 16), HexDigit(bytes[0] % 16)] + PercentBytes(bytes[1..])
  }

  function EncodeChar(c: char): (r: string)
    ensures Unreserved(c) ==> r == [c]
    ensures !Unreserved(c) ==> r != [] && r[0] == '%'
    ensures forall i :: 0 <= i < |r| ==> Unreserved(r[i]) || r[i] == '%'
  {
    if Unreserved(c) then [c] else PercentBytes(Utf8(c))
  }

  /** `encodeURIComponent(s)`. */
  function EncodeURIComponent(s: string): (r: string)
    ensures |r| >= |s|
    ensures forall i :: 0 <= i < |r| ==> Unreserved(r[i]) || r[i] == '%'
    ensures (forall i :: 0 <= i < |s| ==> Unreserved(s[i])) ==> r == s
  {
    if s == [] then "" else EncodeChar(s[0]) + EncodeURIComponent(s[1..])
  }

  /** The encoding cannot end a query parameter or start a new one. */
  lemma EncodedIsOneParameter(s: string)
    ensures '&' !in EncodeURIComponent(s) && '=' !in EncodeURIComponent(s)
    ensures '#' !in EncodeURIComponent(s) && ' ' !in EncodeURIComponent(s)
  {
  }

  /** `decodeURIComponent` restricted to single-byte escapes. */
  function DecodeAscii(r: string): string {
    if r == [] then ""
    else if r[0] == '%' && |r| >= 3 then [(HexValue(r[1]) * 16 + HexValue(r[2])) as char] + DecodeAscii(r[3..])
    else [r[0]] + DecodeAscii(r[1..])
  }

  predicate IsAscii(s: string) { forall i :: 0 <= i < |s| ==> s[i] as int < 0x80 }

  /** Decoding undoes the encoding of an ASCII string. */
  lemma {:induction false} DecodeEncodeAscii(s: string)
    requires IsAscii(s)
    ensures DecodeAscii(EncodeURIComponent(s)) == s
  {
    if s != [] {
      var c, rest := s[0], EncodeURIComponent(s[1..]);
      DecodeEncodeAscii(s[1..]);
      if Unreserved(c) {
        assert ([c] + rest)[1..] == rest;
      } else {
        var n := c as int;
        HexRoundTrip(n / 16);
        HexRoundTrip(n % 16);
        var e := ['%', HexDigit(n / 16), HexDigit(n % 16)];
        assert EncodeChar(c) == e;
        assert (e + rest)[3..] == rest;
        assert (n / 16) * 16 + n % 16 == n;
      }
    }
  }
}

=== FILE: wrappers.dfy ===
/** Option and Result values used wherever the application works with
    `null`/`undefined` or with a value-or-error outcome. */
module Wrappers {

  datatype Option<+T> = None | Some(value: T) {
    function GetOr(default: T): T {
      match this
      case Some(v) => v
      case None => default
    }
  }

  datatype Result<+R, +E> = Success(value: R) | Failure(error: E)
}

=== FILE: youtube_service.dfy ===
/** The YouTube adapter: the video search wrappers, the tutorial query and
    the video normaliser. */
module YouTubeService {
  import opened Wrappers
  import opened Text
  import opened Types
  import opened ApiErrors
  import opened CaughtFetch

  /** The fields of a search hit the adapter reads. */
  datatype YouTubeVideo = YouTubeVideo(
    videoId: string,
    title: string,
    description: string,
    publishedAt: string,
    channelTitle: string,
    mediumThumbnail: string)

  const WatchPage: string := "https://www.youtube.com/watch?v="

  /** `formatVideoAsResource`. */
  function FormatVideoAsResource(v: YouTubeVideo): (r: Resource)
    ensures r.id == v.videoId && r.url == WatchPage + v.videoId
    ensures r.title == v.title && r.kind == Tutorial && r.status == Unread
    ensures r.description == Some(v.description)
    ensures r.extra == map["thumbnail" := Str(v.mediumThumbnail), "channelTitle" := Str(v.channelTitle),
                           "publishedAt" := Str(v.publishedAt)]
  {
    Resource(v.videoId, v.title, WatchPage + v.videoId, Tutorial, Unread, Some(v.description),
      map["thumbnail" := Str(v.mediumThumbnail), "channelTitle" := Str(v.channelTitle),
          "publishedAt" := Str(v.publishedAt)])
  }

  /** The watch URL determines the video: its id is the URL's suffix. */
  lemma WatchUrlNamesVideo(v: YouTubeVideo)
    ensures FormatVideoAsResource(v).url[|WatchPage|..] == FormatVideoAsResource(v).id
  {
  }

  /** The query `getTutorials` sends. */
  function TutorialQuery(technology: string): (q: string)
    ensures |q| == |technology| + 24
    ensures q[..|technology|] == technology
    ensures q[|technology|..] == " tutorial for developers"
  {
    technology + " tutorial for developers"
  }
}
